=== FILE: README.md ===
# Erebus parser: a Dafny model

This project models the parsing core of the Erebus language front end.
That core is the grammar that turns source text into a syntax tree, built from parser combinators.
The repository holds the grammar at two points in time, and the model keeps both:

- `Early` is the `src/parser` tree;
- `Current` is the `erebus_parser` crate.

Most definitions take a `Snapshot` argument and branch only where the two trees differ:

- which punctuation atoms skip surrounding whitespace (`.` and `!` do not in the current crate);
- whether `struct` is a keyword and a top-level form;
- whether a top-level `let` needs its `;`;
- whether a type annotation is a bare identifier or a full type literal.

A parser is a total function from the remaining input to `Option<(value, rest)>`.
`rest` is the unconsumed suffix, so chumsky's ordered choice, greedy repetition, `or_not`, `padded` and `separated_by` become explicit `if`/`match` chains.
`Combinators.Whole` is success with no input left. That is what chumsky 1.0's `parse` demands, as used by the current crate and by `Parsable::parse`. The early tree is mid-migration between chumsky versions. Its ident.rs, literals/, expr.rs, statement.rs and syntax_elements.rs are chumsky 0.9 parsers, whose `parse` accepts trailing input and returns what the prefix parser read; examples of those state what is read and what is left, and where one reads its whole input it is stated with `Whole`, which implies the 0.9 result as well. Its bin_ops.rs, ast.rs and parsable.rs already use chumsky 1.0, so `BinExpr::parse` and `Ast::parse` demand end of input, and their examples are stated with `Whole`.

Every parser has a renderer as its partner, and the main results are round trips: rendering a well-formed tree and parsing the text back yields the same tree and leaves the following input untouched.
They cover:

- identifiers;
- keywords and atoms;
- string and number literals;
- type literals;
- typed and optionally typed names;
- expressions under the precedence engine;
- `let`, statements and scopes;
- `fn` and `struct` definitions;
- the `pub` wrapper;
- whole files.

Next to the round trips, lemmas state the rejections and quirks of each parser:

- which inputs fail;
- where parsing stops;
- which alternative wins;
- how call arguments inherit the precedence threshold.

The source's unit tests are restated as lemmas derived from the general ones.

Modules, one per file, following the source files:

| module | file | models |
|---|---|---|
| `Combinators` | combinators.dfy | whitespace, `padded`, `just`, line breaks, suffix bookkeeping |
| `Idents` | ident.dfy | `text::ident`, `text::keyword` |
| `SyntaxElements` | syntax_elements.dfy | keyword and punctuation atoms, padding policy, precedence table |
| `StringLiterals` | string_lit.dfy | `StringLit` |
| `NumberLit` | number.dfy | `NumLit`, `based_float_literal_to_value` |
| `Types` | types.dfy | `TypeLiteral`, `TupleType`, `FnSignatureType` |
| `Bindings` | binding.dfy | `IdentWithType`, `IdentWithOptionalType` |
| `Expressions` | expr.dfy | `Expression`, `BinExpr`, `FnCall` |
| `ExprRender` | expr_render.dfy | expression rendering and the expression round trip |
| `Statements` | statement.dfy | `Let`, `Statement`, `CodeScope`, `FnDef`, `StructDef`, `MaybePublic`, top-level statements, `Ast` |
| `StatementRender` | statement_render.dfy | rendering and round trips for statements, definitions and files |
| `*Examples` | *_examples.dfy | the unit tests of the source files |

## Model

| member | source | states |
|---|---|---|
| Combinators.SkipWhitespace | src/parser/syntax_elements.rs:35-39 | the padding skip removes only whitespace (Unicode White_Space, as `char::is_whitespace`) and stops at the first non-whitespace character |
| Combinators.PaddedJust | src/parser/syntax_elements.rs:35-39 | a padded literal consumes at least its own text and leaves input that starts with no whitespace |
| Combinators.PaddedJustSkips | src/parser/syntax_elements.rs:35-39 | a padded literal ignores any leading whitespace: it gives the same result with that whitespace removed |
| Combinators.Newline | src/parser/literals/string.rs:25 | `newline()` succeeds exactly when the input starts with a line break, and then consumes it |
| Idents.ParseIdent | src/parser/ident.rs:16-22 | an identifier is read exactly when the input starts with a letter or `_`; the name read is a maximal ASCII identifier and the input is the name followed by the rest |
| Idents.IdentRoundTrip | src/parser/ident.rs:16-22 | an identifier followed by a non-identifier character reads back as itself, leaving that character |
| Idents.Keyword | src/parser/syntax_elements.rs:29-33 | a keyword matches exactly when the whole identifier at the front is that keyword, so it is followed by an identifier boundary |
| Idents.KeywordRoundTrip | src/parser/syntax_elements.rs:29-33 | a keyword followed by an identifier boundary is accepted |
| Idents.KeywordNeedsBoundary | src/parser/syntax_elements.rs:29-33 | a keyword glued to an identifier character is refused (`letmut` is not `let`) |
| SyntaxElements.AtomPaddingPolicy | erebus_parser/src/syntax_elements.rs:27-79 | a padded atom reads through whitespace on both sides; an unpadded one (`!` and `.` in the current crate) fails after whitespace and reads only its bare spelling |
| SyntaxElements.AtomMismatch | src/parser/syntax_elements.rs:35-39 | a padded atom fails when the first non-whitespace character is not its spelling's first character |
| SyntaxElements.ParseKeyword | erebus_parser/src/syntax_elements.rs:81-86 | each keyword atom matches exactly when the identifier at the front is its text |
| SyntaxElements.KeywordAtomRoundTrip | erebus_parser/src/syntax_elements.rs:81-86 | each keyword atom accepts its own text before an identifier boundary |
| SyntaxElements.KeywordsExclusive | erebus_parser/src/syntax_elements.rs:81-86 | no input is accepted by two different keyword atoms |
| SyntaxElements.PrecedenceTable | src/parser/syntax_elements.rs:59-64 | precedences start at 1: `==` is 1, `+` and `-` are 2, `*` and `/` are 3 |
| SyntaxElements.OperatorOrderSorted | src/parser/bin_ops.rs:83-93 | the operator alternatives list every operator once, loosest first |
| SyntaxElements.OperatorSpellingsDistinct | src/parser/syntax_elements.rs:60-64 | two different operators differ in their first character, so at most one can match at a position |
| StringLiterals.ParseStringLit | src/parser/literals/string.rs:13-33 | a string literal starts with `"` and consumes at least its body plus both quotes |
| StringLiterals.Body | src/parser/literals/string.rs:19-28 | the body repetition is greedy: what follows it does not begin another element |
| StringLiterals.StringRoundTrip | erebus_parser/src/literals/string.rs:12-30 | every string value, quoted with escapes for `\`, `"` and line feed, reads back as itself, leaving the following input |
| StringLiterals.BackslashFallsThrough | src/parser/literals/string.rs:20-27 | a backslash before any other character is an ordinary character that stands for itself |
| StringLiterals.UnterminatedRejected | src/parser/literals/string.rs:18-30 | a literal without its closing quote is refused |
| StringLiterals.RawNewlineRejected | src/parser/literals/string.rs:27-30 | an unescaped line feed inside a literal is refused |
| StringLiterals.ContinuationJoins | src/parser/literals/string.rs:25-31 | a backslash before a line break contributes nothing, joining the two halves |
| NumberLit.RawBaseParser | src/parser/literals/number.rs:43-66 | one literal form consumes at least a digit and yields a non-negative value |
| NumberLit.ValueNonNegative | src/parser/literals/number.rs:12-25 | the value of integer part and fraction is never negative |
| NumberLit.DecimalOverflowBounds | src/parser/literals/number.rs:12-25 | the source's `u64` parse and `u32` power overflow for a decimal integer part of 21 or more digits or a fraction of 10 or more digits, and never for at most 19 and 9 digits |
| NumberLit.ParseNumLit | src/parser/literals/number.rs:69-80 | a numeric literal consumes input and has a non-negative value |
| NumberLit.NumLitPicks | src/parser/literals/number.rs:74-79 | the forms are tried hex, binary, octal, decimal, and the first that succeeds decides |
| NumberLit.NumLitRejects | src/parser/literals/number.rs:74-79 | the literal fails only when all four forms fail |
| NumberLit.ParseIntegerLiteral | src/parser/literals/number.rs:46-64 | prefix, leading zeros and an integer part read as the integer part's value in that base |
| NumberLit.ParseFractionLiteral | src/parser/literals/number.rs:43-66 | in a base of 10 or less, a padded dot and a fraction add the fraction's digits over the base to the power of their count |
| NumberLit.NumRoundTrip | src/parser/literals/number.rs:69-80 | every positive integer written in any of the four forms reads back as itself |
| NumberLit.DecimalRoundTrip | src/parser/literals/number.rs:69-80 | every positive integer written in decimal reads back as itself |
| NumberLit.HexFractionRejected | src/parser/literals/number.rs:53-59 | a hexadecimal literal with a fraction is refused as a whole |
| NumberLit.ZerosOnlyRejected | src/parser/literals/number.rs:46-50 | a literal made only of zeros is refused, because the zeros are skipped before the integer part |
| NumberLit.NumLitStartsWithDigit | src/parser/literals/number.rs:69-80 | every accepted literal starts with a decimal digit |
| Types.ParseType | erebus_parser/src/type.rs:107-118 | a type literal consumes part of the input |
| Types.TypeRoundTrip | erebus_parser/src/type.rs:107-118 | every well-formed type, rendered, reads back as itself before a type boundary |
| Types.NamedRoundTrip | erebus_parser/src/type.rs:113-114 | an identifier other than `fn` reads as a named type |
| Types.FnRoundTrip | erebus_parser/src/type.rs:19-31 | a signature with any parameters, with or without a trailing comma, and an explicit return type reads back as itself |
| Types.FnDefaultsToUnit | erebus_parser/src/type.rs:26-30 | a signature without `->` gets the unit tuple as its return type |
| Types.LoneCommaRejected | erebus_parser/src/type.rs:57-69 | a tuple that begins with a comma is refused |
| Types.FnAloneIsNamed | erebus_parser/src/type.rs:109-115 | `fn` not followed by `(` is read as the named type `fn` |
| Bindings.ParseIdentWithType | src/parser/ident.rs:41-51 | a typed name consumes part of the input |
| Bindings.ParseIdentWithOptionalType | src/parser/ident.rs:99-108 | the optional form carries an annotation exactly when the typed form succeeds, and fails exactly when both the typed form and a bare name fail |
| Bindings.OptionalOfTyped | src/parser/ident.rs:104-105 | when the typed form succeeds, the optional form returns it |
| Bindings.OptionalOfUntyped | src/parser/ident.rs:104-107 | when only a bare name is read, the optional form returns it without annotation |
| Bindings.AnnotationRoundTrip | src/parser/ident.rs:46-49 | an annotation reads back as itself: a bare identifier in the early tree, a type literal in the current crate |
| Bindings.TypedRoundTrip | src/parser/ident.rs:41-51 | `name:` followed by any whitespace and a type reads back, with whitespace allowed before the name |
| Bindings.SpaceBeforeColonRejected | src/parser/ident.rs:46-48 | whitespace between the name and the colon is refused |
| Bindings.SpaceBeforeColonIsUntyped | src/parser/ident.rs:104-107 | with whitespace before the colon, the optional form reads only the bare name |
| Bindings.UntypedRoundTrip | src/parser/ident.rs:99-108 | a bare name not followed by `:` reads as an untyped binding |
| Bindings.OptionalRoundTrip | src/parser/ident.rs:99-108 | every well-formed optionally typed name reads back as itself |
| Expressions.ParseExpr | src/parser/expr.rs:124-140 | an expression consumes input, starts with an expression character, and has the shape admitted at its threshold |
| Expressions.BinWith | src/parser/bin_ops.rs:32-50 | a binary alternative yields a node of its own operator whose shape fits the threshold |
| Expressions.BinAlts | src/parser/bin_ops.rs:63-99 | the binary alternatives yield only binary nodes that fit the threshold |
| Expressions.ParseCall | src/parser/expr.rs:78-91 | a call starts with an identifier and yields a call node |
| Expressions.BinWithBelow | src/parser/bin_ops.rs:37-49 | an operator looser than the threshold is not tried |
| Expressions.BinWithNoOperator | src/parser/bin_ops.rs:37-45 | a binary alternative fails when its operator does not follow the tighter left operand |
| Expressions.AltsAllFail | src/parser/bin_ops.rs:83-98 | the choice of binary alternatives fails when every operator fails |
| ExprRender.ExprRoundTrip | src/parser/expr.rs:124-140 | every expression well placed for the threshold, rendered with single spaces around operators, reads back as itself |
| ExprRender.CallRoundTrip | src/parser/expr.rs:78-91 | a call whose arguments fit the threshold reads back as itself |
| ExprRender.ArgsRoundTrip | src/parser/expr.rs:85-88 | a comma-separated argument list before `)` reads back as itself |
| ExprRender.CallArgumentThreshold | src/parser/expr.rs:128-138 | a call's arguments inherit the threshold: an argument with a loose operator reads at a low threshold and fails at a higher one |
| ExprRender.CallThenTighter | src/parser/expr.rs:128-138 | a call with a binary argument, followed by a tighter operator, reads only the call and stops at that operator |
| Statements.LetShape | src/parser/statement.rs:55-72 | a `let` starts with the keyword and is mutable exactly when `mut` follows it |
| Statements.StatementsMaximal | src/parser/expr.rs:31-32 | the statement repetition is greedy: no statement can be read where it stops, and it reads none exactly when the first statement fails |
| Statements.FnDefShape | src/parser/statement.rs:116-138 | a function definition starts with the `fn` keyword |
| Statements.StructShape | erebus_parser/src/statement.rs:158-172 | a struct definition starts with the `struct` keyword |
| Statements.TopLevelChoiceShape | erebus_parser/src/statement.rs:205-215 | each top-level form starts with its keyword, and a struct appears only in the current crate |
| Statements.TopLevelShape | erebus_parser/src/statement.rs:24-33 | an item is public exactly when `pub` leads it, and the rest is a raw top-level statement |
| Statements.ParseAst | src/parser/ast.rs:10-16 | reading a file never fails: a repetition may read nothing |
| Statements.AstMaximal | src/parser/ast.rs:10-16 | the file repetition is greedy: no item can be read where it stops |
| StatementRender.LetRoundTrip | src/parser/statement.rs:55-72 | every well-formed `let` reads back as itself |
| StatementRender.StatementRoundTrip | src/parser/statement.rs:192-200 | a `let` followed by `;` reads back as a statement |
| StatementRender.StatementsRoundTrip | src/parser/expr.rs:31-32 | a sequence of statements reads back as itself and stops where no statement follows |
| StatementRender.ScopeRoundTrip | src/parser/expr.rs:26-36 | a scope with its statements and tail expression reads back as itself |
| StatementRender.BindingsRoundTrip | erebus_parser/src/statement.rs:163-168 | a comma-separated list of typed names reads back as itself, with or without an allowed trailing comma |
| StatementRender.ParamsRoundTrip | erebus_parser/src/statement.rs:109-114 | a parameter list before `)` reads back as itself |
| StatementRender.FnDefRoundTrip | erebus_parser/src/statement.rs:102-126 | every well-formed function definition reads back as itself |
| StatementRender.FieldsRoundTrip | erebus_parser/src/statement.rs:162-169 | a struct's fields with a trailing comma read back before `}` |
| StatementRender.StructRoundTrip | erebus_parser/src/statement.rs:158-172 | every well-formed struct definition reads back as itself |
| StatementRender.ChoiceRoundTrip | erebus_parser/src/statement.rs:205-215 | each top-level form is chosen by the right alternative |
| StatementRender.RawRoundTrip | erebus_parser/src/statement.rs:205-215 | a top-level form reads back through the surrounding padding |
| StatementRender.PubRoundTrip | erebus_parser/src/statement.rs:24-33 | a public item reads back with its `pub` flag set |
| StatementRender.BareRoundTrip | erebus_parser/src/statement.rs:24-33 | an item without `pub` reads back with the flag clear |
| StatementRender.TopLevelRoundTrip | erebus_parser/src/statement.rs:24-33 | every well-formed top-level item reads back as itself |
| StatementRender.ItemsRoundTrip | src/parser/ast.rs:10-16 | a rendered sequence of items reads back completely as itself |
| StatementRender.AstRoundTrip | src/parser/ast.rs:10-16 | every well-formed file, rendered, parses back to itself with nothing left over |
| DefinitionExamples.EarlyBareLet | src/parser/statement.rs:174-184 | the early tree accepts a top-level `let` without `;` |
| DefinitionExamples.CurrentLetNeedsSemicolon | erebus_parser/src/statement.rs:205-215 | the current crate refuses a top-level `let` without `;` |
| DefinitionExamples.EarlyRejectsStruct | erebus_parser/src/statement.rs:205-215 | a struct definition is a top-level form in the current crate and in no form in the early tree |
| DefinitionExamples.FnTrailingCommaRejected | erebus_parser/src/statement.rs:109-114 | a trailing comma in a parameter list is refused |
| DefinitionExamples.IndentedPubRejected | erebus_parser/src/statement.rs:24-33 | `pub` after whitespace is not read, so a file starting that way reads no items |
| DefinitionExamples.ScopeExample | src/parser/expr.rs:44-50 | `{ 1 }` is a scope with no statements and the tail `1` |
| DefinitionExamples.NestedScopeExample | src/parser/expr.rs:52-69 | the scope test with one `let mut` statement and a string tail |
| DefinitionExamples.FnExample | src/parser/statement.rs:145-160 | the `basic_test_fn` definition test |
| DefinitionExamples.StructExample | erebus_parser/src/statement.rs:176-191 | the `SimpleTest` struct definition test |
| DefinitionExamples.EmptyAst | src/parser/ast.rs:10-16 | an empty file is an empty syntax tree |
| BindingExamples.AlbertExample | src/parser/ident.rs:29 | `_albert132 ` reads the name and leaves the space |
| BindingExamples.HyphenExample | src/parser/ident.rs:30 | `hyphen-var` reads only `hyphen` |
| BindingExamples.BadStartExamples | src/parser/ident.rs:31-32 | a digit or a space at the front is refused |
| BindingExamples.TypedExample | src/parser/ident.rs:58-64 | `test: String` is a typed name |
| BindingExamples.TypedNewlineExample | src/parser/ident.rs:65-71 | a line break after the colon is allowed |
| BindingExamples.SpaceBeforeColonExample | src/parser/ident.rs:72 | `test3 : String` is refused |
| BindingExamples.UntypedExample | src/parser/ident.rs:115-121 | `test` is an untyped binding |
| BindingExamples.OptionalTypedExample | src/parser/ident.rs:122-128 | `str: \n\tString` is a typed binding |
| ExprExamples.OnePlusOne | src/parser/bin_ops.rs:115-121 | `1 + 1` is one addition |
| ExprExamples.MixedPrecedence | src/parser/bin_ops.rs:122-134 | `1 + 2 * 3 / 4` nests the tighter operators to the right of `+` |
| ExprExamples.SameLevelChain | src/parser/bin_ops.rs:135-144 | `3 + 2 - 1` nests to the right |
| ExprExamples.EqualityOfSums | src/parser/bin_ops.rs:145-164 | `1 * 2 + 3 * 4 + 5 == 6` puts `==` at the top |
| ExprExamples.CallExample | src/parser/expr.rs:103-109 | `simple_test(123)` is a call with one argument |
| ExprExamples.CallThenMultiply | src/parser/expr.rs:128-138 | `f(1 + 2) * 3` reads only the call and leaves `* 3` |
| NumberExamples.DecimalValueExample | src/parser/literals/number.rs:29 | digits `123` and `321` in base 10 are 123.321 |
| NumberExamples.HexValueExamples | src/parser/literals/number.rs:30-31 | `ff` and `0f` in base 16 are 255 and 15 |
| NumberExamples.HexFractionsSum | src/parser/literals/number.rs:32-35 | hexadecimal fractions `.f` and `.1` add up to 1 |
| NumberExamples.ParseDecimalFraction | src/parser/literals/number.rs:87 | `1234.4321` is 1234.4321 |
| NumberExamples.ParseLeadingZeros | src/parser/literals/number.rs:88 | `00743.6400` is 743.64 |
| NumberExamples.ParseBinaryWithZeroFraction | src/parser/literals/number.rs:90 | `0b101011.0` is 43 |
| NumberExamples.ParseHexInteger | src/parser/literals/number.rs:91 | `0xFF3B` is 65339 |
| NumberExamples.RejectHexFraction | src/parser/literals/number.rs:92 | `0x123.FF` is refused |
| NumberExamples.ParseBinaryStopsAtBadDigit | src/parser/literals/number.rs:95 | `0b1013` is 5, leaving `3` |
| NumberExamples.ParseBinaryFraction | src/parser/literals/number.rs:96 | `0b101.103` is 5.5, leaving `3` |
| NumberExamples.LoneZeroRejected | src/parser/literals/number.rs:46-50 | `0` and `0.5` are refused, because the zeros are skipped before the integer part |
| NumberExamples.FractionStopsAfterZero | src/parser/literals/number.rs:50-51 | `1.05` is 1 and leaves `5`, because a fraction starting with `0` is just `0` |
| StatementExamples.LetUntypedExample | src/parser/statement.rs:78-86 | `let _test = 123` test |
| StatementExamples.LetTypedExample | src/parser/statement.rs:87-99 | `let mut o:String="helloTest"` test |
| StatementExamples.GluedKeywordExample | src/parser/statement.rs:101 | `letmut a = 321` is refused |
| StatementExamples.NoBindingExample | src/parser/statement.rs:102 | `let mut 1 = 321` is refused |
| StatementExamples.DoubleEqualsExample | src/parser/statement.rs:104 | `let mut a == 321` is refused |
| StatementExamples.StatementExample | src/parser/statement.rs:207-214 | `let var = "simple_let";` is a statement |
| StatementExamples.MissingSemicolonExample | src/parser/statement.rs:216 | a `let` without `;` is not a statement |
| TypeExamples.NamedExample | erebus_parser/src/type.rs:122-125 | `String` is a named type |
| TypeExamples.SignatureExample | erebus_parser/src/type.rs:126-132 | `fn(int,) -> String` is a signature |
| TypeExamples.NestedTupleExample | erebus_parser/src/type.rs:133-142 | `(String, (int, T))` is a nested tuple |
| TypeExamples.UnitExample | erebus_parser/src/type.rs:74 | `()` is the unit tuple |
| TypeExamples.NestedUnitExample | erebus_parser/src/type.rs:75-80 | `((()))` nests the unit tuple twice |
| TypeExamples.LoneCommaExample | erebus_parser/src/type.rs:82 | `(,)` is refused |
| TypeExamples.FnWithoutReturnExample | erebus_parser/src/type.rs:42-48 | `fn()` returns the unit tuple |
| TypeExamples.LoneFnExample | erebus_parser/src/type.rs:113-114 | a lone `fn` is the named type `fn` |

## Left out

- Diagnostics: failures carry no span or message. The custom error of src/parser/literals/number.rs:55-58 is a plain failure.
- Command-line driver, file reading and printing (src/main.rs, src/args.rs): I/O, not part of this model.
- The `Parsable` trait's `parse`/`is_err` helpers (src/parser/parsable.rs) are modelled only as `Combinators.Whole`, meaning success with no input left. The module wiring of src/parser/mod.rs has no behaviour to model.
- NumberLit.ParseNumLit: the value is an exact `real`, without `f64` rounding.
- NumberLit.ParseNumLit: returns a value where the source's `u64::from_str_radix(..).unwrap()` panics (an integer part or fraction above `u64::MAX`).
- NumberLit.ParseNumLit: returns a value where `base.pow(len)` overflows `u32` (a decimal fraction of 10 or more digits). `NumberLit.ConversionOverflows` and `NumberLit.DecimalOverflowBounds` say exactly which inputs these are.
- The current crate's identifier, number-literal, expression and binary-operator files (erebus_parser/src/ident.rs, literals/number.rs, expr.rs, bin_ops.rs) are not part of this model.
  - Both snapshots use the early definitions, which assumes the current ones are the same.
  - In particular the fraction dot of `NumberLit.Fraction` is the early, padded one, although the current crate's `Dot` atom is unpadded (erebus_parser/src/syntax_elements.rs:65).
  - The current crate's `IdentWithType` is assumed to have the early shape, with a type literal as its annotation.
- Expressions.ParseExpr: src/parser/expr.rs:132 calls `BinExpr::parser_with_precedence(p)`, which src/parser/bin_ops.rs does not define. It is modelled as `parser_with_precedence_and_parser(p, expr)` with the recursive expression parser at the same threshold.
- Expressions.ParseExpr: an operator is admitted when its precedence is at least the threshold; a binary node has two operands and a chain of one level nests to the right; expressions have no variable references.
- ExprRender.ExprRoundTrip: covers well-placed trees rendered with single spaces around operators. Other spacings are read by the same parser but are not stated as round trips.
- Types.TypeRoundTrip: excludes the named type `fn`, which reads back only when no `(` follows it (`Types.FnAloneIsNamed`).
- StatementRender.StructRoundTrip: the renderer always writes a trailing comma after the last field, the form the source's test uses. The list without it is covered by `StatementRender.BindingsRoundTrip`.
- NumberLit.ParseIntegerLiteral: takes the whole input `s` as an extra parameter, equal to the concatenation of its parts, to keep the proof obligations small.
- Identifiers are ASCII, as chumsky's `text::ident`; Unicode identifiers are not modelled.

=== FILE: binding.dfy ===
/**
  Names with type annotations: `IdentWithType` (`name: Type`) and
  `IdentWithOptionalType` (`name` or `name: Type`).

  The name and the colon are read together and padded as a unit, so
  whitespace may precede the name and follow the colon but may not stand
  between the name and the colon. In the early tree the annotation is a
  bare identifier, held here as a named type; in the current crate it is a
  full type literal.
 */
module Bindings {
  import opened Combinators
  import opened Idents
  import opened SyntaxElements
  import opened Types

  datatype IdentWithType = IdentWithType(ident: Ident, annotation: TypeLiteral)

  datatype IdentWithOptionalType = IdentWithOptionalType(ident: Ident, annotation: Option<TypeLiteral>)

  /** `From<Ident>`: a binding without annotation. */
  function Untyped(id: Ident): IdentWithOptionalType {
    IdentWithOptionalType(id, None)
  }

  /** `From<IdentWithType>`: the same name with its annotation kept. */
  function Typed(b: IdentWithType): IdentWithOptionalType {
    IdentWithOptionalType(b.ident, Some(b.annotation))
  }

  /** The type after the colon: a bare identifier in the early tree, a type literal in the current crate. */
  function ParseAnnotation(snap: Snapshot, s: string): (r: Parsed<TypeLiteral>)
    ensures r.Some? ==> IsSuffix(r.value.1, s) && |r.value.1| < |s|
    ensures snap == Early && r.Some? ==> r.value.0.Named? && s == r.value.0.ident.name + r.value.1
  {
    match snap
    case Early =>
      (match ParseIdent(s)
       case Some((id, rest)) =>
         ParseIdentConsumes(s);
         Some((Named(id), rest))
       case None => None)
    case Current => ParseType(s)
  }

  /** Annotations the snapshot's parser can produce and the renderer writes back. */
  predicate ValidAnnotation(snap: Snapshot, t: TypeLiteral) {
    match snap
    case Early => t.Named? && IsIdentText(t.ident.name)
    case Current => ValidType(t)
  }

  /**
    A rendered annotation reads back in both snapshots, followed by any
    whitespace; what it leaves is what the type leaves (see `AfterType`).
   */
  lemma AnnotationRoundTrip(snap: Snapshot, t: TypeLiteral, ws: string, rest: string)
    requires ValidAnnotation(snap, t) && AllWhitespace(ws) && TypeBoundary(rest)
    ensures ParseAnnotation(snap, ShowType(t) + (ws + rest)) == Some((t, AfterType(t, ws + rest)))
  {
    match snap
    case Early =>
      assert IdentBoundary(ws + rest) by {
        if |ws| > 0 {
          assert (ws + rest)[0] == ws[0];
        } else {
          assert ws + rest == rest;
        }
      }
      IdentRoundTrip(t.ident.name, ws + rest);
    case Current =>
      TypeThenWhitespace(t, ws, rest);
  }

  /**
    `IdentWithType::parser`: `ident` then `:`, padded as a unit, then the
    annotation. Nothing is skipped after the annotation.
   */
  function ParseIdentWithType(snap: Snapshot, s: string): (r: Parsed<IdentWithType>)
    ensures r.Some? ==> IsSuffix(r.value.1, s) && |r.value.1| < |s|
  {
    var t := SkipWhitespace(s);
    match ParseIdent(t)
    case None => None
    case Some((id, afterName)) =>
      match Just(":", afterName)
      case None => None
      case Some(afterColon) =>
        var u := SkipWhitespace(afterColon);
        match ParseAnnotation(snap, u)
        case None => None
        case Some((ty, rest)) =>
          ParseIdentConsumes(t);
          SuffixOfConcat(":", afterColon);
          SuffixTransitive(afterColon, afterName, t);
          SuffixTransitive(u, afterColon, t);
          SuffixTransitive(rest, u, t);
          SuffixTransitive(rest, t, s);
          Some((IdentWithType(id, ty), rest))
  }

  /**
    `IdentWithOptionalType::parser`: the typed form, else a bare identifier
    without annotation. The annotation is present exactly when the typed
    form parses.
   */
  function ParseIdentWithOptionalType(snap: Snapshot, s: string): (r: Parsed<IdentWithOptionalType>)
    ensures r.Some? ==> IsSuffix(r.value.1, s) && |r.value.1| < |s|
    ensures r.Some? ==> (r.value.0.annotation.Some? <==> ParseIdentWithType(snap, s).Some?)
    ensures r.None? <==> ParseIdentWithType(snap, s).None? && ParseIdent(s).None?
  {
    match ParseIdentWithType(snap, s)
    case Some((b, rest)) => Some((Typed(b), rest))
    case None =>
      match ParseIdent(s)
      case Some((id, rest)) =>
        ParseIdentConsumes(s);
        Some((Untyped(id), rest))
      case None => None
  }

  /** The canonical text of a binding: `name: Type`. */
  function ShowTyped(b: IdentWithType): string {
    b.ident.name + ": " + ShowType(b.annotation)
  }

  function ShowOptional(o: IdentWithOptionalType): string {
    match o.annotation
    case Some(t) => ShowTyped(IdentWithType(o.ident, t))
    case None => o.ident.name
  }

  predicate ValidTyped(snap: Snapshot, b: IdentWithType) {
    IsIdentText(b.ident.name) && ValidAnnotation(snap, b.annotation)
  }

  predicate ValidOptional(snap: Snapshot, o: IdentWithOptionalType) {
    IsIdentText(o.ident.name) && (o.annotation.Some? ==> ValidAnnotation(snap, o.annotation.value))
  }

  /** What may follow a binding: a boundary for its annotation, and no colon right after a bare name. */
  predicate BindingBoundary(rest: string) {
    TypeBoundary(rest) && (|rest| == 0 || rest[0] != ':')
  }

  lemma TypedStep(snap: Snapshot, s: string, id: Ident, afterName: string, afterColon: string, ty: TypeLiteral, rest: string)
    requires ParseIdent(SkipWhitespace(s)) == Some((id, afterName))
    requires Just(":", afterName) == Some(afterColon)
    requires ParseAnnotation(snap, SkipWhitespace(afterColon)) == Some((ty, rest))
    ensures ParseIdentWithType(snap, s) == Some((IdentWithType(id, ty), rest))
  {
  }

  lemma TypedNoColon(snap: Snapshot, s: string, id: Ident, afterName: string)
    requires ParseIdent(SkipWhitespace(s)) == Some((id, afterName))
    requires Just(":", afterName).None?
    ensures ParseIdentWithType(snap, s).None?
  {
  }

  /** A typed binding does not see the whitespace in front of it. */
  lemma TypedSkips(snap: Snapshot, s: string)
    ensures ParseIdentWithType(snap, s) == ParseIdentWithType(snap, SkipWhitespace(s))
  {
    var t := SkipWhitespace(s);
    SkipWhitespaceOfSolid(t);
    TypedSkipsFrom(snap, s, t);
  }

  lemma TypedSkipsFrom(snap: Snapshot, s: string, t: string)
    requires SkipWhitespace(s) == t && SkipWhitespace(t) == t
    ensures ParseIdentWithType(snap, s) == ParseIdentWithType(snap, t)
  {
    match ParseIdent(t)
    case None =>
      TypedNoIdent(snap, s);
      TypedNoIdent(snap, t);
    case Some((id, afterName)) =>
      TypedSkipsAfterName(snap, s, t, id, afterName);
  }

  lemma TypedSkipsAfterName(snap: Snapshot, s: string, t: string, id: Ident, afterName: string)
    requires SkipWhitespace(s) == t && SkipWhitespace(t) == t
    requires ParseIdent(t) == Some((id, afterName))
    ensures ParseIdentWithType(snap, s) == ParseIdentWithType(snap, t)
  {
    if Just(":", afterName).None? {
      TypedNoColon(snap, s, id, afterName);
      TypedNoColon(snap, t, id, afterName);
    } else {
      var afterColon := Just(":", afterName).value;
      if ParseAnnotation(snap, SkipWhitespace(afterColon)).None? {
        TypedNoAnnotation(snap, s, id, afterName, afterColon);
        TypedNoAnnotation(snap, t, id, afterName, afterColon);
      } else {
        var (ty, rest) := ParseAnnotation(snap, SkipWhitespace(afterColon)).value;
        TypedStep(snap, s, id, afterName, afterColon, ty, rest);
        TypedStep(snap, t, id, afterName, afterColon, ty, rest);
      }
    }
  }

  lemma TypedNoIdent(snap: Snapshot, s: string)
    requires ParseIdent(SkipWhitespace(s)).None?
    ensures ParseIdentWithType(snap, s).None?
  {
  }

  lemma TypedNoAnnotation(snap: Snapshot, s: string, id: Ident, afterName: string, afterColon: string)
    requires ParseIdent(SkipWhitespace(s)) == Some((id, afterName))
    requires Just(":", afterName) == Some(afterColon)
    requires ParseAnnotation(snap, SkipWhitespace(afterColon)).None?
    ensures ParseIdentWithType(snap, s).None?
  {
  }

  lemma OptionalOfTyped(snap: Snapshot, s: string, b: IdentWithType, rest: string)
    requires ParseIdentWithType(snap, s) == Some((b, rest))
    ensures ParseIdentWithOptionalType(snap, s) == Some((Typed(b), rest))
  {
  }

  lemma OptionalOfUntyped(snap: Snapshot, s: string, id: Ident, rest: string)
    requires ParseIdentWithType(snap, s).None? && ParseIdent(s) == Some((id, rest))
    ensures ParseIdentWithOptionalType(snap, s) == Some((Untyped(id), rest))
  {
  }

  /**
    Round trip for typed bindings, with any whitespace before the name,
    after the colon and after the annotation: the binding reads back, and
    after the whitespace the annotation leaves, the text that followed
    comes next.
   */
  lemma TypedRoundTrip(snap: Snapshot, b: IdentWithType, ws: string, gap: string, ws2: string, rest: string)
    requires ValidTyped(snap, b) && AllWhitespace(ws) && AllWhitespace(gap) && AllWhitespace(ws2) && TypeBoundary(rest)
    ensures ParseIdentWithType(snap, ws + b.ident.name + ":" + gap + ShowType(b.annotation) + (ws2 + rest))
         == Some((b, AfterType(b.annotation, ws2 + rest)))
  {
    var ty := ShowType(b.annotation) + (ws2 + rest);
    var afterName := ":" + (gap + ty);
    TypedText(ws, b.ident.name, gap, ShowType(b.annotation), ws2 + rest);
    NameAfterWhitespace(ws, b.ident.name, afterName);
    JustOfConcat(":", gap + ty);
    AnnotationAfterGap(snap, b.annotation, gap, ws2, rest);
    TypedStep(snap, ws + (b.ident.name + afterName), b.ident, afterName, gap + ty, b.annotation, AfterType(b.annotation, ws2 + rest));
  }

  lemma TypedText(ws: string, name: string, gap: string, ty: string, rest: string)
    ensures ws + name + ":" + gap + ty + rest == ws + (name + (":" + (gap + (ty + rest))))
  {
    Assoc(ws + name + ":" + gap, ty, rest);
    Assoc(ws + name + ":", gap, ty + rest);
    Assoc(ws + name, ":", gap + (ty + rest));
    Assoc(ws, name, ":" + (gap + (ty + rest)));
  }

  /** Leading whitespace is skipped and the name read up to what follows it. */
  lemma NameAfterWhitespace(ws: string, name: string, afterName: string)
    requires AllWhitespace(ws) && IsIdentText(name) && IdentBoundary(afterName)
    ensures ParseIdent(SkipWhitespace(ws + (name + afterName))) == Some((Ident(name), afterName))
  {
    IdentRoundTrip(name, afterName);
    SkipWhitespaceOfConcat(ws, name + afterName);
  }

  /** Whitespace after the colon is skipped and the annotation read. */
  lemma AnnotationAfterGap(snap: Snapshot, t: TypeLiteral, gap: string, ws2: string, rest: string)
    requires ValidAnnotation(snap, t) && AllWhitespace(gap) && AllWhitespace(ws2) && TypeBoundary(rest)
    ensures ParseAnnotation(snap, SkipWhitespace(gap + (ShowType(t) + (ws2 + rest)))) == Some((t, AfterType(t, ws2 + rest)))
  {
    AnnotationStart(snap, t, ws2 + rest);
    SkipWhitespaceOfConcat(gap, ShowType(t) + (ws2 + rest));
    AnnotationRoundTrip(snap, t, ws2, rest);
  }

  /** A valid annotation's rendering starts with a solid character. */
  lemma AnnotationStart(snap: Snapshot, t: TypeLiteral, rest: string)
    requires ValidAnnotation(snap, t)
    ensures StartsSolid(ShowType(t) + rest)
  {
    if snap == Current {
      ShowTypeStart(t);
    }
  }

  /** Whitespace between the name and the colon: the typed form fails. */
  lemma SpaceBeforeColonRejected(snap: Snapshot, name: string, ws: string, more: string)
    requires IsIdentText(name) && AllWhitespace(ws) && |ws| > 0
    ensures ParseIdentWithType(snap, name + ws + ":" + more).None?
  {
    var afterName := ws + ":" + more;
    var s := name + ws + ":" + more;
    assert s == name + afterName;
    assert SkipWhitespace(s) == s by {
      SkipWhitespaceOfSolid(s);
    }
    assert ParseIdent(s) == Some((Ident(name), afterName)) by {
      IdentRoundTrip(name, afterName);
    }
    assert Just(":", afterName).None? by {
      assert afterName[0] == ws[0];
    }
    TypedNoColon(snap, s, Ident(name), afterName);
  }

  /** A bare name not followed by a colon is the untyped binding. */
  lemma UntypedRoundTrip(snap: Snapshot, name: string, rest: string)
    requires IsIdentText(name) && IdentBoundary(rest) && (|rest| == 0 || rest[0] != ':')
    ensures ParseIdentWithOptionalType(snap, name + rest) == Some((Untyped(Ident(name)), rest))
  {
    IdentRoundTrip(name, rest);
    NameWithoutColon(snap, name, rest);
    OptionalOfUntyped(snap, name + rest, Ident(name), rest);
  }

  lemma NameWithoutColon(snap: Snapshot, name: string, rest: string)
    requires IsIdentText(name) && IdentBoundary(rest) && (|rest| == 0 || rest[0] != ':')
    ensures ParseIdentWithType(snap, name + rest).None?
  {
    IdentRoundTrip(name, rest);
    SkipWhitespaceOfSolid(name + rest);
    TypedNoColon(snap, name + rest, Ident(name), rest);
  }

  /** What reading an optional binding leaves of the text after it. */
  function AfterOptional(o: IdentWithOptionalType, rest: string): string {
    match o.annotation
    case Some(t) => AfterType(t, rest)
    case None => rest
  }

  /** Round trip for optional bindings written without whitespace before the name and followed by any whitespace. */
  lemma OptionalRoundTrip(snap: Snapshot, o: IdentWithOptionalType, ws: string, rest: string)
    requires ValidOptional(snap, o) && AllWhitespace(ws) && BindingBoundary(rest)
    ensures ParseIdentWithOptionalType(snap, ShowOptional(o) + (ws + rest)) == Some((o, AfterOptional(o, ws + rest)))
  {
    match o.annotation
    case None =>
      assert IdentBoundary(ws + rest) && (|ws + rest| == 0 || (ws + rest)[0] != ':') by {
        if |ws| > 0 {
          assert (ws + rest)[0] == ws[0];
        } else {
          assert ws + rest == rest;
        }
      }
      UntypedRoundTrip(snap, o.ident.name, ws + rest);
    case Some(t) =>
      var b := IdentWithType(o.ident, t);
      var s := ShowOptional(o) + (ws + rest);
      assert s == "" + b.ident.name + ":" + " " + ShowType(t) + (ws + rest);
      assert ParseIdentWithType(snap, s) == Some((b, AfterType(t, ws + rest))) by {
        TypedRoundTrip(snap, b, "", " ", ws, rest);
      }
      OptionalOfTyped(snap, s, b, AfterType(t, ws + rest));
  }

  /** With whitespace between the name and the colon, the optional form falls back to the bare name. */
  lemma SpaceBeforeColonIsUntyped(snap: Snapshot, name: string, ws: string, more: string)
    requires IsIdentText(name) && AllWhitespace(ws) && |ws| > 0
    ensures ParseIdentWithOptionalType(snap, name + ws + ":" + more) == Some((Untyped(Ident(name)), ws + ":" + more))
  {
    SpaceBeforeColonRejected(snap, name, ws, more);
    NameBeforeSpace(name, ws, more);
    OptionalOfUntyped(snap, name + ws + ":" + more, Ident(name), ws + ":" + more);
  }

  /** The name stops at the whitespace in front of the colon. */
  lemma NameBeforeSpace(name: string, ws: string, more: string)
    requires IsIdentText(name) && AllWhitespace(ws) && |ws| > 0
    ensures ParseIdent(name + ws + ":" + more) == Some((Ident(name), ws + ":" + more))
  {
    assert name + ws + ":" + more == name + (ws + ":" + more);
    assert (ws + ":" + more)[0] == ws[0];
    IdentRoundTrip(name, ws + ":" + more);
  }

  /** Whatever an annotation leaves of whitespace before solid text, the solid text is next. */
  lemma AfterOptionalSkip(o: IdentWithOptionalType, ws: string, rest: string)
    requires AllWhitespace(ws) && StartsSolid(rest)
    ensures SkipWhitespace(AfterOptional(o, ws + rest)) == rest
  {
    match o.annotation
    case Some(t) => AfterTypeSkip(t, ws, rest);
    case None => SkipWhitespaceOfConcat(ws, rest);
  }
}

=== FILE: binding_examples.dfy ===
/**
  The identifier and binding examples of `src/parser/ident.rs`, each derived
  from the general lemmas of `Idents` and `Bindings`. These parsers are
  used there without an end-of-input check, so each example states what is
  read and what is left.
 */
module BindingExamples {
  import opened Combinators
  import opened Idents
  import opened SyntaxElements
  import opened Types
  import opened Bindings

  const Albert := "_albert132"
  const Hyphen := "hyphen"
  const StringName := "String"
  const UnderString := "_String"

  lemma AlbertValid()
    ensures IsIdentText(Albert)
  {
    assert forall i :: 1 <= i < 10 ==> IsIdentContinue(Albert[i]);
  }

  /** `_albert132 `: the identifier stops at the space. */
  lemma AlbertExample()
    ensures ParseIdent("_albert132 ") == Some((Ident("_albert132"), " "))
  {
    AlbertValid();
    assert Albert + " " == "_albert132 ";
    IdentRoundTrip(Albert, " ");
  }

  /** `hyphen-var`: a hyphen is not part of an identifier. */
  lemma HyphenExample()
    ensures ParseIdent("hyphen-var") == Some((Ident("hyphen"), "-var"))
  {
    assert forall i :: 1 <= i < 6 ==> IsIdentContinue(Hyphen[i]);
    assert Hyphen + "-var" == "hyphen-var";
    IdentRoundTrip(Hyphen, "-var");
  }

  /** An identifier may not start with a digit or with whitespace. */
  lemma BadStartExamples()
    ensures ParseIdent("1starts_number").None?
    ensures ParseIdent(" starts_space123").None?
  {
  }

  lemma StringValid()
    ensures IsIdentText(StringName)
  {
    assert forall i :: 1 <= i < 6 ==> IsIdentContinue(StringName[i]);
  }

  lemma UnderStringValid()
    ensures IsIdentText(UnderString)
  {
    assert forall i :: 1 <= i < 7 ==> IsIdentContinue(UnderString[i]);
  }

  /** A typed binding written with `gap` after the colon, in the early tree. */
  lemma TypedText(name: string, gap: string, ty: string)
    requires IsIdentText(name) && IsIdentText(ty) && AllWhitespace(gap)
    ensures ParseIdentWithType(Early, name + (":" + (gap + ty))) == Some((IdentWithType(Ident(name), Named(Ident(ty))), ""))
  {
    var b := IdentWithType(Ident(name), Named(Ident(ty)));
    assert ShowType(b.annotation) == ty;
    assert "" + name + ":" + gap + ty + ("" + "") == name + (":" + (gap + ty));
    TypedRoundTrip(Early, b, "", gap, "", "");
  }

  /** `test: String` */
  lemma TypedExample()
    ensures ParseIdentWithType(Early, "test: String") == Some((IdentWithType(Ident("test"), Named(Ident("String"))), ""))
  {
    StringValid();
    assert IsIdentText("test");
    assert AllWhitespace(" ");
    assert "test" + (":" + (" " + StringName)) == "test: String";
    TypedText("test", " ", StringName);
  }

  /** `test2: \n_String`: a line break after the colon. */
  lemma TypedNewlineExample()
    ensures ParseIdentWithType(Early, "test2: \n_String") == Some((IdentWithType(Ident("test2"), Named(Ident("_String"))), ""))
  {
    UnderStringValid();
    assert IsIdentText("test2");
    assert AllWhitespace(" \n");
    assert "test2" + (":" + (" \n" + UnderString)) == "test2: \n_String";
    TypedText("test2", " \n", UnderString);
  }

  /** `test3 : String`: whitespace before the colon is refused, in both snapshots. */
  lemma SpaceBeforeColonExample(snap: Snapshot)
    ensures ParseIdentWithType(snap, "test3 : String").None?
  {
    assert IsIdentText("test3") && AllWhitespace(" ");
    assert "test3" + " " + ":" + " String" == "test3 : String";
    SpaceBeforeColonRejected(snap, "test3", " ", " String");
  }

  /** `test`: a bare name is the binding without annotation. */
  lemma UntypedExample(snap: Snapshot)
    ensures ParseIdentWithOptionalType(snap, "test") == Some((Untyped(Ident("test")), ""))
  {
    assert IsIdentText("test");
    assert "test" + "" == "test";
    UntypedRoundTrip(snap, "test", "");
  }

  /** `str: \n\tString`: the optional form keeps the annotation. */
  lemma OptionalTypedExample()
    ensures ParseIdentWithOptionalType(Early, "str: \n\tString") == Some((IdentWithOptionalType(Ident("str"), Some(Named(Ident("String")))), ""))
  {
    StringValid();
    assert IsIdentText("str");
    assert AllWhitespace(" \n\t");
    assert "str" + (":" + (" \n\t" + StringName)) == "str: \n\tString";
    TypedText("str", " \n\t", StringName);
    OptionalOfTyped(Early, "str: \n\tString", IdentWithType(Ident("str"), Named(Ident("String"))), "");
  }
}

=== FILE: combinators.dfy ===
/**
  The character-level vocabulary every grammar rule is built from.

  A parser is modelled as a total function from the remaining input to
  `Option<(value, rest)>`, where `rest` is the unconsumed suffix. Failure
  carries no diagnostic: the model only distinguishes success from failure.
  Ordered choice, greedy repetition and optionality are written out at each
  use site as `if`/`match` chains, so that the recursion of the grammar stays
  first-order and its termination can be checked.
 */
module Combinators {

  datatype Option<+T> = None | Some(value: T)

  /** The result of running a parser: a value and the input it left unconsumed. */
  type Parsed<T> = Option<(T, string)>

  /** `rest` is what is left of `s` after some prefix of it was consumed. */
  predicate IsSuffix(rest: string, s: string) {
    if |rest| < |s| then s[|s| - |rest|..] == rest else rest == s
  }

  /** A non-empty sequence is its head followed by its tail. */
  lemma ConsSplit<T>(xs: seq<T>)
    requires |xs| > 0
    ensures [xs[0]] + xs[1..] == xs
  {
  }

  /** Re-association of a concatenation, proved apart from any parser facts. */
  lemma Assoc(a: string, b: string, c: string)
    ensures a + b + c == a + (b + c)
  {
  }

  lemma SuffixTransitive(a: string, b: string, c: string)
    requires IsSuffix(a, b) && IsSuffix(b, c)
    ensures IsSuffix(a, c)
  {
    assert c[|c| - |a|..] == c[|c| - |b|..][|b| - |a|..];
  }

  lemma SuffixOfConcat(p: string, s: string)
    ensures IsSuffix(s, p + s)
  {
    assert (p + s)[|p|..] == s;
  }

  /**
    The parser-level counterpart of chumsky's `parse` in its whole-input form:
    the value is produced only when the parser consumed everything.
   */
  function Whole<T>(r: Parsed<T>): (w: Option<T>)
    ensures w.Some? <==> r.Some? && r.value.1 == []
    ensures w.Some? ==> w.value == r.value.0
  {
    match r
    case Some((v, rest)) => if rest == [] then Some(v) else None
    case None => None
  }

  /** A run of `P` characters at the front is covered by the span. */
  lemma {:induction false} SpanAtLeast(P: char -> bool, s: string, m: nat)
    requires m <= |s|
    requires forall i :: 0 <= i < m ==> P(s[i])
    ensures Span(P, s) >= m
  {
    if m > 0 {
      SpanAtLeast(P, s[1..], m - 1);
    }
  }

  /** Length of the longest prefix of `s` whose characters all satisfy `P`. */
  function Span(P: char -> bool, s: string): (n: nat)
    ensures n <= |s|
    ensures forall i :: 0 <= i < n ==> P(s[i])
    ensures n == |s| || !P(s[n])
  {
    if |s| > 0 && P(s[0]) then 1 + Span(P, s[1..]) else 0
  }

  /** The span of `P` over `p + s` is `p` itself when `p` satisfies `P` throughout and `s` does not start with a `P` character. */
  lemma {:induction false} SpanOfConcat(P: char -> bool, p: string, s: string)
    requires forall i :: 0 <= i < |p| ==> P(p[i])
    requires |s| == 0 || !P(s[0])
    ensures Span(P, p + s) == |p|
  {
    if |p| > 0 {
      assert (p + s)[1..] == p[1..] + s;
      SpanOfConcat(P, p[1..], s);
    } else {
      assert p + s == s;
    }
  }

  /**
    Whitespace in the sense of `text::whitespace()` and `padded()`, which
    test `char::is_whitespace`: the Unicode White_Space property, that is
    tab through carriage return, the space, the next-line character, the
    no-break space, the Ogham space mark, the en quad through the hair
    space, the line and paragraph separators, the narrow no-break space,
    the medium mathematical space and the ideographic space.
   */
  predicate IsWhitespace(c: char) {
    ('\t' <= c <= '\r') || c == ' ' || c == '\U{0085}' || c == '\U{00A0}' || c == '\U{1680}'
    || ('\U{2000}' <= c <= '\U{200A}') || c == '\U{2028}' || c == '\U{2029}'
    || c == '\U{202F}' || c == '\U{205F}' || c == '\U{3000}'
  }

  predicate AllWhitespace(s: string) {
    forall i :: 0 <= i < |s| ==> IsWhitespace(s[i])
  }

  /** `s` does not begin with whitespace (it may be empty). */
  predicate StartsSolid(s: string) {
    |s| == 0 || !IsWhitespace(s[0])
  }

  /** Text that starts with a solid character starts solid, whatever follows. */
  lemma SolidFront(a: string, rest: string)
    requires |a| > 0 && !IsWhitespace(a[0])
    ensures StartsSolid(a + rest)
  {
    assert (a + rest)[0] == a[0];
  }

  /** `text::whitespace()`: zero or more whitespace characters, greedily. */
  function SkipWhitespace(s: string): (rest: string)
    ensures IsSuffix(rest, s)
    ensures AllWhitespace(s[..|s| - |rest|])
    ensures StartsSolid(rest)
  {
    var n := Span(IsWhitespace, s);
    if n == 0 then s else s[n..]
  }

  /** Skipping whitespace in front of solid text removes exactly that whitespace. */
  lemma SkipWhitespaceOfConcat(ws: string, s: string)
    requires AllWhitespace(ws) && StartsSolid(s)
    ensures SkipWhitespace(ws + s) == s
  {
    SpanOfConcat(IsWhitespace, ws, s);
    assert (ws + s)[|ws|..] == s;
  }

  lemma SkipWhitespaceOfSolid(s: string)
    requires StartsSolid(s)
    ensures SkipWhitespace(s) == s
  {
    SkipWhitespaceOfConcat([], s);
    assert [] + s == s;
  }

  /** `just(lit)`: the literal text `lit` at the very start of the input. */
  function Just(lit: string, s: string): (rest: Option<string>)
    ensures rest.Some? <==> |lit| <= |s| && s[..|lit|] == lit
    ensures rest.Some? ==> s == lit + rest.value
  {
    if |lit| == 0 then Some(s)
    else if |lit| <= |s| && s[..|lit|] == lit then
      assert s == s[..|lit|] + s[|lit|..];
      Some(s[|lit|..])
    else None
  }

  lemma JustOfConcat(lit: string, s: string)
    ensures Just(lit, lit + s) == Some(s)
  {
    assert (lit + s)[..|lit|] == lit;
    assert (lit + s)[|lit|..] == s;
  }

  /** `just(lit).padded()`: whitespace, the literal, whitespace. */
  function PaddedJust(lit: string, s: string): (rest: Option<string>)
    ensures rest.Some? ==> IsSuffix(rest.value, s) && |rest.value| <= |s| - |lit|
    ensures rest.Some? ==> StartsSolid(rest.value)
  {
    var afterWs := SkipWhitespace(s);
    match Just(lit, afterWs)
    case None => None
    case Some(r) =>
      SuffixTransitive(r, afterWs, s);
      var rest := SkipWhitespace(r);
      SuffixTransitive(rest, r, s);
      Some(rest)
  }

  /** A padded literal does not see the whitespace in front of it. */
  lemma PaddedJustSkips(lit: string, s: string)
    ensures PaddedJust(lit, s) == PaddedJust(lit, SkipWhitespace(s))
  {
    var t := SkipWhitespace(s);
    SkipWhitespaceOfSolid(t);
    assert SkipWhitespace(t) == t;
  }

  /**
    A padded literal is found behind any amount of whitespace, and the
    whitespace after it is consumed as well.
   */
  lemma PaddedJustOfConcat(ws: string, lit: string, ws2: string, s: string)
    requires AllWhitespace(ws) && AllWhitespace(ws2)
    requires |lit| > 0 && !IsWhitespace(lit[0])
    requires StartsSolid(s)
    ensures PaddedJust(lit, ws + lit + ws2 + s) == Some(s)
  {
    assert ws + lit + ws2 + s == ws + (lit + (ws2 + s));
    SkipWhitespaceOfConcat(ws, lit + (ws2 + s));
    JustOfConcat(lit, ws2 + s);
    SkipWhitespaceOfConcat(ws2, s);
  }

  /** A padded literal fails when the first solid character differs from the literal's first character. */
  lemma PaddedJustMismatch(lit: string, s: string)
    requires |lit| > 0
    requires var t := SkipWhitespace(s); |t| == 0 || t[0] != lit[0]
    ensures PaddedJust(lit, s).None?
  {
  }

  /**
    `text::newline()`: a carriage return and line feed pair, a line feed, or
    one of the single-character line breaks (carriage return, vertical tab,
    form feed, next line, line separator, paragraph separator).
   */
  function Newline(s: string): (rest: Option<string>)
    ensures rest.Some? ==> IsSuffix(rest.value, s) && |rest.value| < |s|
    ensures rest.Some? <==> |s| > 0 && IsLineBreak(s[0])
  {
    if |s| >= 2 && s[0] == '\r' && s[1] == '\n' then Some(s[2..])
    else if |s| > 0 && IsLineBreak(s[0]) then Some(s[1..])
    else None
  }

  predicate IsLineBreak(c: char) {
    c == '\n' || c == '\r' || c == '\U{000B}' || c == '\U{000C}'
    || c == '\U{0085}' || c == '\U{2028}' || c == '\U{2029}'
  }
}

=== FILE: definition_examples.dfy ===
/**
  The scope examples of `src/parser/expr.rs`, the `fn` and `struct`
  examples of both statement files, the empty file, and the places where
  the grammar turns text away that a reader might expect it to accept: a
  scope without tail expression, a trailing comma in a parameter list, an
  indented `pub`, a bare top-level `let` in the current crate and a
  `struct` in the early tree.
 */
module DefinitionExamples {
  import opened Combinators
  import opened Idents
  import opened SyntaxElements
  import opened StringLiterals
  import opened Types
  import opened Bindings
  import opened Expressions
  import opened ExprRender
  import opened ExprExamples
  import opened Statements
  import opened StatementRender
  import opened StatementExamples

  const TestValue: string := "test"
  const StatementValue: string := "Statement"
  const TestStatementValue: string := "TestStatement"

  lemma EmptyEnd(end: string)
    requires |end| == 0
    ensures SkipWhitespace(end) == end
  {
    SkipWhitespaceOfSolid(end);
  }

  // Scopes.

  function ScopeOne(): CodeScope {
    CodeScope([], Num(1))
  }

  /** A scope without statements is its expression between `{ ` and ` }`. */
  lemma BareScopeText(e: Expression)
    ensures ShowScope(CodeScope([], e)) == "{ " + (Show(e) + " }")
  {
    assert ShowStatements([]) == "";
  }

  /** A scope holding only an expression, read to the end of the input. */
  lemma BareScopeRead(snap: Snapshot, e: Expression, end: string)
    requires WellPrec(e, MinPrecedence) && |end| == 0
    ensures ParseScope(snap, ShowScope(CodeScope([], e)) + end) == Some((CodeScope([], e), end))
  {
    assert ValidScope(snap, CodeScope([], e));
    EmptyEnd(end);
    ScopeRoundTrip(snap, CodeScope([], e), end);
  }

  lemma ScopeOneText(end: string)
    requires |end| == 0
    ensures "{ " + ("1" + " }") + end == "{ 1 }"
  {
  }

  lemma ScopeOneShown(end: string)
    requires |end| == 0
    ensures ShowScope(ScopeOne()) + end == "{ 1 }"
  {
    ShowOne();
    BareScopeText(Num(1));
    ScopeOneText(end);
  }

  /** `{ 1 }`: no statements, the tail expression `1`, in both snapshots. */
  lemma ScopeExample(snap: Snapshot)
    ensures Whole(ParseScope(snap, "{ 1 }")) == Some(ScopeOne())
  {
    var end: string := [];
    ShowOne();
    ScopeOneShown(end);
    BareScopeRead(snap, Num(1), end);
  }

  /** A statement's rendering starts with `let`, so no whitespace is skipped in front of it. */
  lemma StatementSolid(st: Statement, x: string)
    ensures SkipWhitespace(ShowStatement(st) + x) == ShowStatement(st) + x
  {
    assert (ShowStatement(st) + x)[0] == 'l';
    SkipWhitespaceOfSolid(ShowStatement(st) + x);
  }

  /** A statement, whitespace, then text that starts solid: the whitespace goes with the statement. */
  lemma StatementBefore(snap: Snapshot, st: Statement, ws: string, t: string)
    requires ValidLet(snap, st.binding) && AllWhitespace(ws) && StartsSolid(t)
    ensures ParseStatement(snap, ShowStatement(st) + (ws + t)) == Some((st, t))
  {
    StatementRoundTrip(snap, st, ws + t);
    SkipWhitespaceOfConcat(ws, t);
  }

  /** In front of an expression the statements stop at once. */
  lemma NoStatementsAt(snap: Snapshot, e: Expression, rest: string)
    requires WellPrec(e, MinPrecedence)
    ensures ParseStatements(snap, Show(e) + rest) == ([], Show(e) + rest)
  {
    LetFailsOnExpr(snap, e, MinPrecedence, rest);
    StatementsStop(snap, Show(e) + rest);
  }

  lemma ExprSolid(e: Expression, rest: string)
    requires WellPrec(e, MinPrecedence)
    ensures StartsSolid(Show(e) + rest)
  {
    ShowStart(e, MinPrecedence);
    assert (Show(e) + rest)[0] == Show(e)[0];
  }

  lemma SingleStatement(st: Statement)
    ensures [st] + [] == [st]
  {
  }

  /** One statement, whitespace, then an expression: the statements are exactly that one. */
  lemma OneStatement(snap: Snapshot, st: Statement, ws: string, e: Expression, rest: string)
    requires ValidLet(snap, st.binding) && AllWhitespace(ws) && WellPrec(e, MinPrecedence)
    ensures ParseStatements(snap, ShowStatement(st) + (ws + (Show(e) + rest))) == ([st], Show(e) + rest)
  {
    var t := Show(e) + rest;
    ExprSolid(e, rest);
    StatementBefore(snap, st, ws, t);
    NoStatementsAt(snap, e, rest);
    StatementsStep(snap, ShowStatement(st) + (ws + t), st, t);
    SingleStatement(st);
  }

  /** An expression directly followed by `}`. */
  lemma ExprBeforeClose(snap: Snapshot, e: Expression, rest: string)
    requires WellPrec(e, MinPrecedence)
    ensures ParseExpression(Show(e) + ("}" + rest)) == Some((e, "}" + rest))
    ensures ParseAtom(snap, RCurly, "}" + rest) == Some(SkipWhitespace(rest))
  {
    SkipWhitespaceOfSolid("}" + rest);
    CloseBoundary("}" + rest, MinPrecedence);
    ExprRoundTrip(e, MinPrecedence, "}" + rest);
    AfterExprSolid(e, "}" + rest);
    CloseCurlyOf(snap, rest);
  }

  /**
    A scope written without the renderer's spaces: `{` directly followed by
    one statement, any whitespace (line breaks included), the tail
    expression and `}`.
   */
  lemma ScopeCompact(snap: Snapshot, st: Statement, ws: string, e: Expression, rest: string)
    requires ValidLet(snap, st.binding) && AllWhitespace(ws) && WellPrec(e, MinPrecedence)
    ensures ParseScope(snap, "{" + (ShowStatement(st) + (ws + (Show(e) + ("}" + rest)))))
         == Some((CodeScope([st], e), SkipWhitespace(rest)))
  {
    var x := ShowStatement(st) + (ws + (Show(e) + ("}" + rest)));
    OpenCurlyOf(snap, x);
    StatementSolid(st, ws + (Show(e) + ("}" + rest)));
    OneStatement(snap, st, ws, e, "}" + rest);
    ExprBeforeClose(snap, e, rest);
    ScopeOf(snap, "{" + x, x, Show(e) + ("}" + rest), CodeScope([st], e), "}" + rest, SkipWhitespace(rest));
  }

  /** `let mut test = "Statement";` */
  function TestLet(): Statement {
    LetStatement(Let(true, Untyped(Ident("test")), StringLit(StatementValue)))
  }

  /** The rendering of a mutable `let` statement without annotation. */
  lemma MutLetText(name: string, e: Expression)
    ensures ShowStatement(LetStatement(Let(true, Untyped(Ident(name)), e))) == "let mut " + name + " = " + Show(e) + ";"
  {
  }

  lemma StatementShown()
    ensures Show(StringLit(StatementValue)) == "\"" + StatementValue + "\""
    ensures WellPrec(StringLit(StatementValue), MinPrecedence)
  {
    ShowPlainString(StatementValue);
  }

  lemma TestStatementShown()
    ensures Show(StringLit(TestStatementValue)) == "\"" + TestStatementValue + "\""
    ensures WellPrec(StringLit(TestStatementValue), MinPrecedence)
  {
    ShowPlainString(TestStatementValue);
  }

  lemma TestLetValid(snap: Snapshot)
    ensures ValidLet(snap, TestLet().binding)
  {
    assert IsIdentText("test");
  }

  lemma IndentWhitespace()
    ensures AllWhitespace("\n             ")
  {
  }

  /** The pieces of the nested scope's text, as the renderer and the constants give them. */
  lemma TestLetText()
    ensures "let mut " + "test" + " = " + ("\"" + StatementValue + "\"") + ";" == "let mut test = \"Statement\";"
    ensures "\"" + TestStatementValue + "\"" == "\"TestStatement\""
  {
  }

  lemma TestLetShown()
    ensures ShowStatement(TestLet()) == "let mut test = \"Statement\";"
  {
    StatementShown();
    MutLetText("test", StringLit(StatementValue));
    TestLetText();
  }

  lemma NestedScopePieces(end: string)
    requires |end| == 0
    ensures ShowStatement(TestLet()) == "let mut test = \"Statement\";"
    ensures Show(StringLit(TestStatementValue)) == "\"TestStatement\""
    ensures "}" + end == "}"
  {
    TestLetShown();
    TestStatementShown();
    TestLetText();
  }

  lemma NestedScopeRead(snap: Snapshot, end: string)
    requires |end| == 0
    ensures ParseScope(snap, "{" + (ShowStatement(TestLet()) + ("\n             " + (Show(StringLit(TestStatementValue)) + ("}" + end)))))
         == Some((CodeScope([TestLet()], StringLit(TestStatementValue)), end))
  {
    TestLetValid(snap);
    TestStatementShown();
    IndentWhitespace();
    EmptyEnd(end);
    ScopeCompact(snap, TestLet(), "\n             ", StringLit(TestStatementValue), end);
  }

  /**
    The scope test's second case: `{` glued to a `let mut` statement, a line
    break and thirteen spaces of indentation, then the tail string and `}`.
    The test writes this text over three source lines joined by `\`
    continuations; it is written here in the pieces where the statement, the
    indentation and the tail begin.
   */
  lemma NestedScopeExample(snap: Snapshot)
    ensures Whole(ParseScope(snap, "{" + ("let mut test = \"Statement\";" + ("\n             " + ("\"TestStatement\"" + "}")))))
         == Some(CodeScope([TestLet()], StringLit("TestStatement")))
  {
    var end: string := [];
    NestedScopePieces(end);
    NestedScopeRead(snap, end);
  }

  /** No statement starts at `}`. */
  lemma NoStatementAtClose(snap: Snapshot, rest: string)
    ensures ParseStatement(snap, "}" + rest).None?
    ensures ParseExpression("}" + rest).None?
  {
    assert ParseKeyword(LetKeyword, "}" + rest).None? by {
      assert ("}" + rest)[0] == '}';
    }
  }

  /**
    A scope must end in an expression: statements alone, closed by `}`, are
    not a scope.
   */
  lemma ScopeNeedsTail(snap: Snapshot, st: Statement, rest: string)
    requires ValidLet(snap, st.binding)
    ensures ParseScope(snap, "{" + (ShowStatement(st) + ("}" + rest))).None?
  {
    var x := ShowStatement(st) + ("}" + rest);
    OpenCurlyOf(snap, x);
    StatementSolid(st, "}" + rest);
    StatementsBeforeClose(snap, st, rest);
    NoStatementAtClose(snap, rest);
    ScopeNoExpression(snap, "{" + x, x);
  }

  /** The statement is read, and the statements stop at the `}`. */
  lemma StatementsBeforeClose(snap: Snapshot, st: Statement, rest: string)
    requires ValidLet(snap, st.binding)
    ensures ParseStatements(snap, ShowStatement(st) + ("}" + rest)).1 == "}" + rest
  {
    StatementThenClose(snap, st, rest);
    NoStatementAtClose(snap, rest);
    StatementsStop(snap, "}" + rest);
    StatementsStep(snap, ShowStatement(st) + ("}" + rest), st, "}" + rest);
  }

  lemma StatementThenClose(snap: Snapshot, st: Statement, rest: string)
    requires ValidLet(snap, st.binding)
    ensures ParseStatement(snap, ShowStatement(st) + ("}" + rest)) == Some((st, "}" + rest))
  {
    var ws: string := [];
    assert ws + ("}" + rest) == "}" + rest;
    StatementBefore(snap, st, ws, "}" + rest);
  }

  // Function definitions.

  function ArgOne(): IdentWithType {
    IdentWithType(Ident("arg1"), Named(Ident("int")))
  }

  /** `fn basic_test_fn(arg1: int) -> String { "test" }` */
  function BasicFn(): FnDef {
    FnDef(Ident("basic_test_fn"), [ArgOne()], Named(Ident("String")), CodeScope([], StringLit(TestValue)))
  }

  lemma ArgOneText()
    ensures ShowBindings([ArgOne()]) == "arg1: int"
    ensures ValidBindings(Early, [ArgOne()]) && ValidBindings(Current, [ArgOne()])
  {
    assert ShowMoreBindings([]) == "";
    assert IsIdentText("arg1") && IsIdentText("int");
  }

  lemma TestValueShown()
    ensures Show(StringLit(TestValue)) == "\"" + TestValue + "\""
  {
    ShowPlainString(TestValue);
  }

  lemma TestScopeText()
    ensures ShowScope(CodeScope([], StringLit(TestValue))) == "{ \"test\" }"
  {
    TestValueShown();
    BareScopeText(StringLit(TestValue));
    assert "{ " + (("\"" + TestValue + "\"") + " }") == "{ \"test\" }";
  }

  /** A function definition is rendered from its rendered parts. */
  lemma FnParts(f: FnDef, params: string, ret: string, body: string)
    requires ShowBindings(f.params) == params && ShowType(f.returnType) == ret && ShowScope(f.body) == body
    ensures ShowFnDef(f) == "fn " + (f.name.name + ("(" + (params + (")" + (" -> " + (ret + (" " + body)))))))
  {
  }

  lemma BasicFnText(end: string)
    requires |end| == 0
    ensures "fn " + ("basic_test_fn" + ("(" + ("arg1: int" + (")" + (" -> " + ("String" + (" " + ("{ \"test\" }" + end))))))))
         == "fn basic_test_fn(arg1: int) -> String { \"test\" }"
  {
    assert "{ \"test\" }" + end == "{ \"test\" }";
    Flatten9("fn ", "basic_test_fn", "(", "arg1: int", ")", " -> ", "String", " ", "{ \"test\" }");
    BasicFnLiteral();
  }

  /** Nine pieces joined from the right are the same text joined from the left. */
  lemma Flatten9(a: string, b: string, c: string, d: string, e: string, f: string, g: string, h: string, i: string)
    ensures a + (b + (c + (d + (e + (f + (g + (h + i))))))) == a + b + c + d + e + f + g + h + i
  {
    Assoc(g, h, i);
    Assoc(f, g + h, i);
    Assoc(e, f + g + h, i);
    Assoc(d, e + f + g + h, i);
    Assoc(c, d + e + f + g + h, i);
    Assoc(b, c + d + e + f + g + h, i);
    Assoc(a, b + c + d + e + f + g + h, i);
    Flatten8(a, b, c, d, e, f, g, h);
  }

  lemma Flatten8(a: string, b: string, c: string, d: string, e: string, f: string, g: string, h: string)
    ensures a + (b + (c + (d + (e + (f + (g + h)))))) == a + b + c + d + e + f + g + h
  {
    Assoc(f, g, h);
    Assoc(e, f + g, h);
    Assoc(d, e + f + g, h);
    Assoc(c, d + e + f + g, h);
    Assoc(b, c + d + e + f + g, h);
    Assoc(a, b + c + d + e + f + g, h);
    Flatten7(a, b, c, d, e, f, g);
  }

  lemma Flatten7(a: string, b: string, c: string, d: string, e: string, f: string, g: string)
    ensures a + (b + (c + (d + (e + (f + g))))) == a + b + c + d + e + f + g
  {
    Assoc(e, f, g);
    Assoc(d, e + f, g);
    Assoc(c, d + e + f, g);
    Assoc(b, c + d + e + f, g);
    Assoc(a, b + c + d + e + f, g);
  }

  /** The literal pieces of the definition, each appended to the text before it. */
  lemma BasicFnLiteral()
    ensures "fn " + "basic_test_fn" + "(" + "arg1: int" + ")" + " -> " + "String" + " " + "{ \"test\" }"
         == "fn basic_test_fn(arg1: int) -> String { \"test\" }"
  {
    assert "fn " + "basic_test_fn" == "fn basic_test_fn";
    assert "fn basic_test_fn" + "(" == "fn basic_test_fn(";
    assert "fn basic_test_fn(" + "arg1: int" == "fn basic_test_fn(arg1: int";
    assert "fn basic_test_fn(arg1: int" + ")" == "fn basic_test_fn(arg1: int)";
    assert "fn basic_test_fn(arg1: int)" + " -> " == "fn basic_test_fn(arg1: int) -> ";
    assert "fn basic_test_fn(arg1: int) -> " + "String" == "fn basic_test_fn(arg1: int) -> String";
    assert "fn basic_test_fn(arg1: int) -> String" + " " == "fn basic_test_fn(arg1: int) -> String ";
  }

  lemma BasicFnShown(end: string)
    requires |end| == 0
    ensures ShowFnDef(BasicFn()) + end == "fn basic_test_fn(arg1: int) -> String { \"test\" }"
  {
    ArgOneText();
    TestScopeText();
    assert ShowType(Named(Ident("String"))) == "String";
    FnParts(BasicFn(), "arg1: int", "String", "{ \"test\" }");
    BasicFnText(end);
  }

  lemma BasicFnValid(snap: Snapshot)
    ensures ValidFnDef(snap, BasicFn())
  {
    ArgOneText();
    assert ValidScope(snap, BasicFn().body);
    assert IsIdentText("basic_test_fn") && IsIdentText("String") && "String" != "fn";
  }

  /** `fn basic_test_fn(arg1: int) -> String { "test" }`, in both snapshots. */
  lemma FnExample(snap: Snapshot)
    ensures Whole(ParseFnDef(snap, "fn basic_test_fn(arg1: int) -> String { \"test\" }"))
         == Some(FnDef(Ident("basic_test_fn"), [IdentWithType(Ident("arg1"), Named(Ident("int")))],
                       Named(Ident("String")), CodeScope([], StringLit("test"))))
  {
    var end: string := [];
    BasicFnShown(end);
    BasicFnValid(snap);
    EmptyEnd(end);
    FnDefRoundTrip(snap, BasicFn(), end);
  }

  // Struct definitions.

  /** `struct SimpleTest { a: int, b: String, }` */
  function SimpleTest(): StructDef {
    StructDef(Ident("SimpleTest"), [IdentWithType(Ident("a"), Named(Ident("int"))), IdentWithType(Ident("b"), Named(Ident("String")))])
  }

  lemma FieldsText()
    ensures ShowBindings(SimpleTest().fields) == "a: int, b: String"
    ensures ValidBindings(Current, SimpleTest().fields)
  {
    var fs := SimpleTest().fields;
    FirstFieldShown();
    SecondFieldShown();
    assert "a: int" + ", b: String" == "a: int, b: String";
    assert IsIdentText("a") && IsIdentText("b") && IsIdentText("int") && IsIdentText("String");
  }

  lemma FirstFieldShown()
    ensures ShowTyped(SimpleTest().fields[0]) == "a: int"
  {
    assert ShowType(Named(Ident("int"))) == "int";
  }

  lemma SecondFieldShown()
    ensures ShowMoreBindings(SimpleTest().fields[1..]) == ", b: String"
  {
    var fs := SimpleTest().fields[1..];
    assert fs[1..] == [];
    assert ShowMoreBindings(fs[1..]) == "";
    assert ShowType(Named(Ident("String"))) == "String";
    assert ShowTyped(fs[0]) == "b: String";
    assert ", " + "b: String" + "" == ", b: String";
  }

  lemma SimpleTestText(end: string)
    requires |end| == 0
    ensures ShowStructDef(SimpleTest()) + end == "struct SimpleTest { a: int, b: String, }"
    ensures ValidStructDef(SimpleTest())
  {
    SimpleTestParts();
    SimpleTestLiteral();
    assert IsIdentText("SimpleTest");
  }

  lemma SimpleTestParts()
    ensures ShowStructDef(SimpleTest()) == "struct " + "SimpleTest" + " { " + "a: int, b: String" + "," + " }"
    ensures ValidBindings(Current, SimpleTest().fields)
  {
    FieldsText();
    assert TrailingComma(|SimpleTest().fields| > 0) == ",";
  }

  /** The literal pieces of the definition, each appended to the text before it. */
  lemma SimpleTestLiteral()
    ensures "struct " + "SimpleTest" + " { " + "a: int, b: String" + "," + " }" == "struct SimpleTest { a: int, b: String, }"
  {
    assert "struct " + "SimpleTest" == "struct SimpleTest";
    assert "struct SimpleTest" + " { " == "struct SimpleTest { ";
    assert "struct SimpleTest { " + "a: int, b: String" == "struct SimpleTest { a: int, b: String";
    assert "struct SimpleTest { a: int, b: String" + "," == "struct SimpleTest { a: int, b: String,";
  }

  /** `struct SimpleTest { a: int, b: String, }`: the comma after the last field is accepted. */
  lemma StructExample()
    ensures Whole(ParseStructDef("struct SimpleTest { a: int, b: String, }")) == Some(SimpleTest())
  {
    var end: string := [];
    SimpleTestText(end);
    EmptyEnd(end);
    StructRoundTrip(SimpleTest(), end);
  }

  /** The empty file is the empty tree. */
  lemma EmptyAst(snap: Snapshot)
    ensures Whole(ParseAst(snap, "")) == Some(Ast([]))
  {
    assert ShowAst(snap, Ast([])) == "";
    AstRoundTrip(snap, Ast([]));
  }

  // Text the grammar turns away.

  /** A parameter list ending in `,` then `)`: the comma is given back and `)` is not where the list ends. */
  lemma LoneCommaTail(snap: Snapshot, t: string)
    ensures TypeBoundary("," + (")" + t))
    ensures BindingListTail(snap, false, "," + (")" + t)) == ([], "," + (")" + t))
    ensures ParseAtom(snap, RParen, "," + (")" + t)).None?
  {
    var tail := "," + (")" + t);
    assert Spelling(Comma) == "," && IsPadded(snap, Comma);
    assert Spelling(RParen) == ")" && IsPadded(snap, RParen);
    PaddedAtomOf(snap, Comma, ")" + t);
    SkipWhitespaceOfSolid(")" + t);
    ListEndsAt(snap, false, ")" + t);
    TailLoneComma(snap, false, tail, ")" + t);
    SkipWhitespaceOfSolid(tail);
    AtomMismatch(snap, RParen, tail);
  }

  /** `fn name(` read up to the parameters. */
  lemma FnOpening(snap: Snapshot, name: string, p: string)
    requires IsIdentText(name) && StartsSolid(p)
    ensures ParseKeyword(FnKeyword, "fn" + (" " + (name + ("(" + p)))) == Some(" " + (name + ("(" + p)))
    ensures ParseIdent(SkipWhitespace(" " + (name + ("(" + p)))) == Some((Ident(name), "(" + p))
    ensures ParseAtom(snap, LParen, "(" + p) == Some(p)
  {
    var n := name + ("(" + p);
    FnKeywordOf(n);
    assert n[0] == name[0];
    SkipWhitespaceOfConcat(" ", n);
    IdentRoundTrip(name, "(" + p);
    OpenParenOf(snap, p);
  }

  /**
    Parameter lists do not allow a trailing comma, in either snapshot: a
    function whose parameters are followed by `,` before `)` is rejected.
    Field lists of structures do allow it (see `StructExample`).
   */
  lemma FnTrailingCommaRejected(snap: Snapshot, name: string, bs: seq<IdentWithType>, t: string)
    requires IsIdentText(name) && |bs| > 0 && ValidBindings(snap, bs)
    ensures ParseFnDef(snap, "fn" + (" " + (name + ("(" + (ShowBindings(bs) + ("," + (")" + t))))))).None?
  {
    var tail := "," + (")" + t);
    var p := ShowBindings(bs) + tail;
    LoneCommaTail(snap, t);
    BindingsStartSolid(snap, bs, tail);
    FnOpening(snap, name, p);
    BindingsRoundTrip(snap, false, bs, tail, tail);
    FnHeadNoClose(snap, "fn" + (" " + (name + ("(" + p))), " " + (name + ("(" + p)), Ident(name), "(" + p, p);
  }

  /** No `let` starts at a character other than `l`. */
  lemma NoLetAt(snap: Snapshot, s: string)
    requires |s| > 0 && s[0] != 'l'
    ensures TopLevelLet(snap, s).None?
  {
    assert KeywordText(LetKeyword) == "let";
    if TopLevelLet(snap, s).Some? {
      TopLevelLetShape(snap, s);
    }
  }

  /** No function definition starts at a character other than `f`. */
  lemma NoFnAt(snap: Snapshot, s: string)
    requires |s| > 0 && s[0] != 'f'
    ensures ParseFnDef(snap, s).None?
  {
    assert KeywordText(FnKeyword) == "fn";
    if ParseFnDef(snap, s).Some? {
      FnDefShape(snap, s);
    }
  }

  /** No structure definition starts at a character other than `s`. */
  lemma NoStructAt(s: string)
    requires |s| > 0 && s[0] != 's'
    ensures ParseStructDef(s).None?
  {
    assert KeywordText(StructKeyword) == "struct";
    if ParseStructDef(s).Some? {
      StructShape(s);
    }
  }

  /**
    `pub` is not padded: after leading whitespace it is not taken as the
    modifier, and the statement parser, which does skip the whitespace, then
    meets `pub` where a keyword of a statement should be. So a file that
    starts with whitespace and then `pub` has no statements.
   */
  lemma IndentedPubRejected(snap: Snapshot, ws: string, t: string)
    requires |ws| > 0 && AllWhitespace(ws)
    ensures ParseTopLevel(snap, ws + ("pub" + t)).None?
    ensures ParseAst(snap, ws + ("pub" + t)) == Some((Ast([]), ws + ("pub" + t)))
  {
    var s := ws + ("pub" + t);
    assert s[0] == ws[0];
    assert KeywordText(PubModifier) == "pub";
    assert ParseKeyword(PubModifier, s).None?;
    SkipWhitespaceOfConcat(ws, "pub" + t);
    assert ("pub" + t)[0] == 'p';
    NoLetAt(snap, "pub" + t);
    NoFnAt(snap, "pub" + t);
    NoStructAt("pub" + t);
    assert TopLevelChoice(snap, "pub" + t).None?;
    AstStop(snap, s);
  }

  /** In the early tree a top-level `let` needs no `;`. */
  lemma EarlyBareLet(l: Let)
    requires ValidLet(Early, l)
    ensures TopLevelChoice(Early, ShowLet(l)) == Some((TopLet(l), ""))
  {
    var end: string := [];
    EndOfInput(MinPrecedence);
    LetRoundTrip(Early, l, end);
    assert ShowLet(l) + end == ShowLet(l);
    EmptyEnd(end);
    TopLevelOfLet(Early, ShowLet(l), TopLet(l), end);
  }

  /** In the current crate the same text is no top-level statement at all. */
  lemma CurrentLetNeedsSemicolon(l: Let)
    requires ValidLet(Current, l)
    ensures TopLevelChoice(Current, ShowLet(l)).None?
  {
    CurrentLetUnread(l);
    LetStartsWithL(l);
    NoFnAt(Current, ShowLet(l));
    NoStructAt(ShowLet(l));
    NoAlternative(ShowLet(l));
  }

  lemma CurrentLetUnread(l: Let)
    requires ValidLet(Current, l)
    ensures TopLevelLet(Current, ShowLet(l)).None?
  {
    LetWithoutSemicolon(Current, l);
  }

  lemma LetStartsWithL(l: Let)
    ensures |ShowLet(l)| > 0 && ShowLet(l)[0] == 'l'
  {
  }

  lemma NoAlternative(s: string)
    requires TopLevelLet(Current, s).None? && ParseFnDef(Current, s).None? && ParseStructDef(s).None?
    ensures TopLevelChoice(Current, s).None?
  {
  }

  lemma StructStart(d: StructDef, rest: string)
    ensures |ShowStructDef(d) + rest| > 0 && (ShowStructDef(d) + rest)[0] == 's'
  {
  }

  /** The early tree has no `struct` alternative: a structure the current crate reads is no top-level statement there. */
  lemma EarlyRejectsStruct(d: StructDef, rest: string)
    requires ValidStructDef(d)
    ensures TopLevelChoice(Current, ShowStructDef(d) + rest) == Some((TopStruct(d), SkipWhitespace(rest)))
    ensures TopLevelChoice(Early, ShowStructDef(d) + rest).None?
  {
    var s := ShowStructDef(d) + rest;
    StructRoundTrip(d, rest);
    TopLevelOfStruct(s, d, SkipWhitespace(rest));
    StructStart(d, rest);
    NoLetAt(Early, s);
    NoFnAt(Early, s);
  }
}

=== FILE: expr.dfy ===
/**
  Expressions and the precedence-climbing engine of `src/parser/expr.rs`
  and `src/parser/bin_ops.rs`.

  `ParseExpr(s, p)` is `Expression::parser_with_precedence(p)`: an ordered
  choice of a binary expression admitted at threshold `p`, a number
  literal, a string literal and a function call. A binary operator is
  admitted when its precedence is at least the threshold; its left operand
  is parsed with the threshold raised to one above the operator's
  precedence (so the same operator cannot recur on the left), and its right
  operand with the recursive parser at the unchanged threshold. The
  operators are tried loosest first, `==`, `+`, `-`, `*`, `/`, and the
  first success wins. Call arguments are parsed by the same recursive
  parser, so they inherit the threshold in force where the call appears.

  This is the engine of the early tree. The current crate's expression,
  operator, identifier and number parsers are not part of this model; both
  snapshots use these definitions, which assumes the current ones are the
  same.
 */
module Expressions {
  import opened Combinators
  import opened Idents
  import opened SyntaxElements
  import opened NumberLit
  import opened StringLiterals

  datatype Expression =
    | BinExpr(op: BinOp, left: Expression, right: Expression)
    | NumLit(value: real)
    | StringLit(text: string)
    | FnCall(fnName: Ident, args: seq<Expression>)

  /**
    The shape every parse result has: a binary node's operator reaches the
    threshold, its left operand was parsed one above the operator's
    precedence and its right operand at the same threshold; call arguments
    were parsed at the threshold of the call.
   */
  predicate Shaped(e: Expression, p: Precedence)
    decreases e
  {
    match e
    case BinExpr(op, l, r) => PrecedenceOf(op) >= p && Shaped(l, PrecedenceOf(op) + 1) && Shaped(r, p)
    case FnCall(_, args) => forall i :: 0 <= i < |args| ==> Shaped(args[i], p)
    case NumLit(_) => true
    case StringLit(_) => true
  }

  /** The characters an expression can start with: a digit, a double quote, or an identifier start. */
  predicate ExprStart(c: char) {
    '0' <= c <= '9' || c == '"' || IsIdentStart(c)
  }

  /** `Expression::parser_with_precedence(p)`. */
  function ParseExpr(s: string, p: Precedence): (r: Parsed<Expression>)
    ensures r.Some? ==> IsSuffix(r.value.1, s) && |r.value.1| < |s|
    ensures r.Some? ==> Shaped(r.value.0, p)
    ensures r.Some? ==> |s| > 0 && ExprStart(s[0])
    decreases |s|, 256 - p, 3, 0
  {
    var bin := BinAlts(s, p, 0);
    if bin.Some? then bin
    else
      var num := ParseNumLit(s);
      if num.Some? then
        NumLitStartsWithDigit(s);
        Some((NumLit(num.value.0), num.value.1))
      else
        var str := ParseStringLit(s);
        if str.Some? then Some((StringLit(str.value.0), str.value.1))
        else ParseCall(s, p)
  }

  /** The admitted binary alternatives from position `i` of the operator order on; the first success wins. */
  function BinAlts(s: string, p: Precedence, i: nat): (r: Parsed<Expression>)
    requires i <= |OperatorOrder|
    ensures r.Some? ==> IsSuffix(r.value.1, s) && |r.value.1| < |s|
    ensures r.Some? ==> Shaped(r.value.0, p) && r.value.0.BinExpr?
    ensures r.Some? ==> |s| > 0 && ExprStart(s[0])
    decreases |s|, 256 - p, 2, |OperatorOrder| - i
  {
    if i == |OperatorOrder| then None
    else
      var r := BinWith(OperatorOrder[i], s, p);
      if r.Some? then r else BinAlts(s, p, i + 1)
  }

  /**
    `GenericBinOp::maybe_parser_with_precedence_and_parser`: absent when the
    operator's precedence is below the threshold; otherwise a left operand
    at one above the operator's precedence, the operator, and a right
    operand at the threshold.
   */
  function BinWith(op: BinOp, s: string, p: Precedence): (r: Parsed<Expression>)
    ensures r.Some? ==> IsSuffix(r.value.1, s) && |r.value.1| < |s|
    ensures r.Some? ==> Shaped(r.value.0, p) && r.value.0.BinExpr? && r.value.0.op == op
    ensures r.Some? ==> |s| > 0 && ExprStart(s[0])
    decreases |s|, 256 - p, 1, 0
  {
    if PrecedenceOf(op) < p then None
    else
      var q: Precedence := PrecedenceOf(op) + 1;
      match ParseExpr(s, q)
      case None => None
      case Some((left, afterLeft)) =>
        match ParseAtom(Early, Operator(op), afterLeft)
        case None => None
        case Some(afterOp) =>
          SuffixTransitive(afterOp, afterLeft, s);
          match ParseExpr(afterOp, p)
          case None => None
          case Some((right, rest)) =>
            SuffixTransitive(rest, afterOp, s);
            Some((BinExpr(op, left, right), rest))
  }

  /** `FnCall::parser_with`: a name, `(`, arguments separated by commas, `)`. */
  function ParseCall(s: string, p: Precedence): (r: Parsed<Expression>)
    ensures r.Some? ==> IsSuffix(r.value.1, s) && |r.value.1| < |s|
    ensures r.Some? ==> Shaped(r.value.0, p) && r.value.0.FnCall?
    ensures r.Some? ==> |s| > 0 && IsIdentStart(s[0])
    decreases |s|, 256 - p, 2, 0
  {
    match ParseIdent(s)
    case None => None
    case Some((name, afterName)) =>
      ParseIdentConsumes(s);
      match ParseAtom(Early, LParen, afterName)
      case None => None
      case Some(afterOpen) =>
        SuffixTransitive(afterOpen, afterName, s);
        var (args, afterArgs) := Args(afterOpen, p);
        match ParseAtom(Early, RParen, afterArgs)
        case None => None
        case Some(rest) =>
          SuffixTransitive(afterArgs, afterOpen, s);
          SuffixTransitive(rest, afterArgs, s);
          Some((FnCall(name, args), rest))
  }

  /**
    `separated_by(DelimiterOp)` over expressions at threshold `p`, without a
    trailing delimiter: zero arguments when the first fails.
   */
  function Args(s: string, p: Precedence): (r: (seq<Expression>, string))
    ensures IsSuffix(r.1, s)
    ensures |r.0| == 0 ==> r.1 == s
    ensures forall i :: 0 <= i < |r.0| ==> Shaped(r.0[i], p)
    decreases |s|, 256 - p, 4, 0
  {
    match ParseExpr(s, p)
    case None => ([], s)
    case Some((first, afterFirst)) =>
      var (more, rest) := ArgsTail(afterFirst, p);
      SuffixTransitive(rest, afterFirst, s);
      ShapedCons(first, more, p);
      ([first] + more, rest)
  }

  /** Further arguments, each after a comma; a comma with no argument after it is left unconsumed. */
  function ArgsTail(s: string, p: Precedence): (r: (seq<Expression>, string))
    ensures IsSuffix(r.1, s)
    ensures forall i :: 0 <= i < |r.0| ==> Shaped(r.0[i], p)
    decreases |s|, 256 - p, 0, 0
  {
    match ParseAtom(Early, Comma, s)
    case None => ([], s)
    case Some(afterComma) =>
      match ParseExpr(afterComma, p)
      case None => ([], s)
      case Some((arg, afterArg)) =>
        var (more, rest) := ArgsTail(afterArg, p);
        SuffixTransitive(afterArg, afterComma, s);
        SuffixTransitive(rest, afterArg, s);
        ShapedCons(arg, more, p);
        ([arg] + more, rest)
  }

  lemma ShapedCons(e: Expression, es: seq<Expression>, p: Precedence)
    requires Shaped(e, p) && forall i :: 0 <= i < |es| ==> Shaped(es[i], p)
    ensures forall i :: 0 <= i < |[e] + es| ==> Shaped(([e] + es)[i], p)
  {
  }

  /** `Expression::parser()`: the minimum threshold admits every operator. */
  function ParseExpression(s: string): Parsed<Expression> {
    ParseExpr(s, MinPrecedence)
  }

  /** `BinExpr::parser()`: only the binary alternatives, at the minimum threshold. */
  function ParseBinExpr(s: string): Parsed<Expression> {
    BinAlts(s, MinPrecedence, 0)
  }

  lemma ExprOfBin(s: string, p: Precedence)
    requires BinAlts(s, p, 0).Some?
    ensures ParseExpr(s, p) == BinAlts(s, p, 0)
  {
  }

  lemma ExprOfNum(s: string, p: Precedence, v: real, rest: string)
    requires BinAlts(s, p, 0).None? && ParseNumLit(s) == Some((v, rest))
    ensures ParseExpr(s, p) == Some((NumLit(v), rest))
  {
  }

  lemma ExprOfString(s: string, p: Precedence, t: string, rest: string)
    requires BinAlts(s, p, 0).None? && ParseNumLit(s).None? && ParseStringLit(s) == Some((t, rest))
    ensures ParseExpr(s, p) == Some((StringLit(t), rest))
  {
  }

  lemma ExprOfCall(s: string, p: Precedence)
    requires BinAlts(s, p, 0).None? && ParseNumLit(s).None? && ParseStringLit(s).None?
    ensures ParseExpr(s, p) == ParseCall(s, p)
  {
  }

  lemma AltsSkip(s: string, p: Precedence, i: nat)
    requires i < |OperatorOrder| && BinWith(OperatorOrder[i], s, p).None?
    ensures BinAlts(s, p, i) == BinAlts(s, p, i + 1)
  {
  }

  lemma AltsHit(s: string, p: Precedence, i: nat)
    requires i < |OperatorOrder| && BinWith(OperatorOrder[i], s, p).Some?
    ensures BinAlts(s, p, i) == BinWith(OperatorOrder[i], s, p)
  {
  }

  lemma AltsEnd(s: string, p: Precedence)
    ensures BinAlts(s, p, |OperatorOrder|).None?
  {
  }

  /** When every admitted binary alternative from position `i` on fails, so does their choice. */
  lemma {:induction false} AltsAllFail(s: string, p: Precedence, i: nat)
    requires i <= |OperatorOrder|
    requires forall op: BinOp :: BinWith(op, s, p).None?
    ensures BinAlts(s, p, i).None?
    decreases |OperatorOrder| - i
  {
    if i < |OperatorOrder| {
      AltsAllFail(s, p, i + 1);
    }
  }

  /** Nothing is read when no operator's left operand is found and the atoms all fail. */
  lemma NothingRead(s: string, p: Precedence)
    requires forall op: BinOp :: PrecedenceOf(op) >= p ==> ParseExpr(s, PrecedenceOf(op) + 1).None?
    requires ParseNumLit(s).None? && ParseStringLit(s).None? && ParseCall(s, p).None?
    ensures ParseExpr(s, p).None?
  {
    forall op: BinOp
      ensures BinWith(op, s, p).None?
    {
      if PrecedenceOf(op) < p {
        BinWithBelow(op, s, p);
      } else {
        BinWithNoLeft(op, s, p);
      }
    }
    AltsAllFail(s, p, 0);
    ExprOfCall(s, p);
  }

  /** Nothing is read at `p` when neither literal is there and no call is read at `p` or above. */
  lemma {:induction false} NothingReadFrom(s: string, p: Precedence)
    requires ParseNumLit(s).None? && ParseStringLit(s).None?
    requires forall q: Precedence :: p <= q ==> ParseCall(s, q).None?
    ensures ParseExpr(s, p).None?
    decreases 256 - p
  {
    forall op: BinOp | PrecedenceOf(op) >= p
      ensures ParseExpr(s, PrecedenceOf(op) + 1).None?
    {
      NothingReadFrom(s, PrecedenceOf(op) + 1);
    }
    NothingRead(s, p);
  }

  /**
    Only the call is read when every admitted operator's left operand is
    either missing or that call with no such operator after it.
   */
  lemma OnlyCallRead(s: string, p: Precedence, c: Expression, after: string)
    requires forall op: BinOp :: PrecedenceOf(op) >= p ==>
      ParseExpr(s, PrecedenceOf(op) + 1).None? ||
      (ParseExpr(s, PrecedenceOf(op) + 1) == Some((c, after)) && ParseAtom(Early, Operator(op), after).None?)
    requires ParseNumLit(s).None? && ParseStringLit(s).None? && ParseCall(s, p) == Some((c, after))
    ensures ParseExpr(s, p) == Some((c, after))
  {
    forall op: BinOp
      ensures BinWith(op, s, p).None?
    {
      BinWithOnlyCall(op, s, p, c, after);
    }
    AltsAllFail(s, p, 0);
    ExprOfCall(s, p);
  }

  lemma BinWithOnlyCall(op: BinOp, s: string, p: Precedence, c: Expression, after: string)
    requires PrecedenceOf(op) >= p ==>
      ParseExpr(s, PrecedenceOf(op) + 1).None? ||
      (ParseExpr(s, PrecedenceOf(op) + 1) == Some((c, after)) && ParseAtom(Early, Operator(op), after).None?)
    ensures BinWith(op, s, p).None?
  {
  }

  lemma BinWithBelow(op: BinOp, s: string, p: Precedence)
    requires PrecedenceOf(op) < p
    ensures BinWith(op, s, p).None?
  {
  }

  lemma BinWithNoOperator(op: BinOp, s: string, p: Precedence, left: Expression, afterLeft: string)
    requires PrecedenceOf(op) >= p
    requires ParseExpr(s, PrecedenceOf(op) + 1) == Some((left, afterLeft))
    requires ParseAtom(Early, Operator(op), afterLeft).None?
    ensures BinWith(op, s, p).None?
  {
  }

  lemma BinWithStep(op: BinOp, s: string, p: Precedence, left: Expression, afterLeft: string,
                    afterOp: string, right: Expression, rest: string)
    requires PrecedenceOf(op) >= p
    requires ParseExpr(s, PrecedenceOf(op) + 1) == Some((left, afterLeft))
    requires ParseAtom(Early, Operator(op), afterLeft) == Some(afterOp)
    requires ParseExpr(afterOp, p) == Some((right, rest))
    ensures BinWith(op, s, p) == Some((BinExpr(op, left, right), rest))
  {
  }

  lemma CallStep(s: string, p: Precedence, name: Ident, afterName: string, afterOpen: string,
                 args: seq<Expression>, afterArgs: string, rest: string)
    requires ParseIdent(s) == Some((name, afterName))
    requires ParseAtom(Early, LParen, afterName) == Some(afterOpen)
    requires Args(afterOpen, p) == (args, afterArgs)
    requires ParseAtom(Early, RParen, afterArgs) == Some(rest)
    ensures ParseCall(s, p) == Some((FnCall(name, args), rest))
  {
  }

  lemma ArgsNone(s: string, p: Precedence)
    requires ParseExpr(s, p).None?
    ensures Args(s, p) == ([], s)
  {
  }

  lemma ArgsStep(s: string, p: Precedence, first: Expression, afterFirst: string)
    requires ParseExpr(s, p) == Some((first, afterFirst))
    ensures Args(s, p) == ([first] + ArgsTail(afterFirst, p).0, ArgsTail(afterFirst, p).1)
  {
  }

  lemma TailNone(s: string, p: Precedence)
    requires ParseAtom(Early, Comma, s).None?
    ensures ArgsTail(s, p) == ([], s)
  {
  }

  lemma TailStep(s: string, p: Precedence, afterComma: string, arg: Expression, afterArg: string)
    requires ParseAtom(Early, Comma, s) == Some(afterComma)
    requires ParseExpr(afterComma, p) == Some((arg, afterArg))
    ensures ArgsTail(s, p) == ([arg] + ArgsTail(afterArg, p).0, ArgsTail(afterArg, p).1)
  {
  }

  lemma CallNoClose(s: string, p: Precedence, name: Ident, afterName: string, afterOpen: string,
                    args: seq<Expression>, afterArgs: string)
    requires ParseIdent(s) == Some((name, afterName))
    requires ParseAtom(Early, LParen, afterName) == Some(afterOpen)
    requires Args(afterOpen, p) == (args, afterArgs)
    requires ParseAtom(Early, RParen, afterArgs).None?
    ensures ParseCall(s, p).None?
  {
  }

  lemma ArgsSingle(s: string, p: Precedence, first: Expression, afterFirst: string)
    requires ParseExpr(s, p) == Some((first, afterFirst))
    requires ParseAtom(Early, Comma, afterFirst).None?
    ensures Args(s, p) == ([first], afterFirst)
  {
    assert ArgsTail(afterFirst, p) == ([], afterFirst);
    assert [first] + [] == [first];
  }

  lemma BinWithNoLeft(op: BinOp, s: string, p: Precedence)
    requires ParseExpr(s, PrecedenceOf(op) + 1).None?
    ensures BinWith(op, s, p).None?
  {
  }
}

=== FILE: expr_examples.dfy ===
/**
  The expression examples of `src/parser/bin_ops.rs` and
  `src/parser/expr.rs`, each derived from the round-trip lemmas of
  `ExprRender`, and the call-argument threshold at work on a small input.
 */
module ExprExamples {
  import opened Combinators
  import opened Idents
  import opened SyntaxElements
  import opened NumberLit
  import opened Expressions
  import opened ExprRender

  function Num(n: nat): Expression {
    NumLit(n as real)
  }

  /** A one-digit number is rendered as that digit. */
  lemma ShowDigit(n: nat)
    requires 1 <= n <= 9
    ensures Show(Num(n)) == [('0' as nat + n) as char]
    ensures WellPrec(Num(n), AboveAll)
  {
    assert (n as real).Floor == n;
  }

  /** The end of the input ends an expression at every threshold. */
  lemma EndOfInput(p: Precedence)
    ensures ExprBoundary("", p)
  {
    SkipWhitespaceOfSolid("");
  }

  /** `1 + 1` is one addition. */
  lemma OnePlusOne()
    ensures ParseBinExpr("1 + 1") == Some((BinExpr(Add, Num(1), Num(1)), ""))
    ensures Whole(ParseBinExpr("1 + 1")) == Some(BinExpr(Add, Num(1), Num(1)))
  {
    var e := BinExpr(Add, Num(1), Num(1));
    ShowDigit(1);
    var text := Show(e) + "";
    assert text == "1 + 1";
    EndOfInput(MinPrecedence);
    BinAltsUpTo(Add, Num(1), Num(1), MinPrecedence, "", 0);
  }

  /** `1 + 2 * 3 / 4`: multiplication binds tighter than addition, and the multiplication chain nests to the right. */
  lemma MixedPrecedence()
    ensures ParseBinExpr("1 + 2 * 3 / 4")
         == Some((BinExpr(Add, Num(1), BinExpr(Mul, Num(2), BinExpr(Div, Num(3), Num(4)))), ""))
  {
    var mul := BinExpr(Mul, Num(2), BinExpr(Div, Num(3), Num(4)));
    MixedShown();
    MixedWellPlaced();
    EndOfInput(MinPrecedence);
    BinAltsUpTo(Add, Num(1), mul, MinPrecedence, "", 0);
  }

  lemma ProductShown()
    ensures Show(BinExpr(Mul, Num(2), BinExpr(Div, Num(3), Num(4)))) == "2 * 3 / 4"
  {
    ShowDigit(2); ShowDigit(3); ShowDigit(4);
    assert Show(BinExpr(Div, Num(3), Num(4))) == "3 / 4";
  }

  lemma MixedShown()
    ensures Show(BinExpr(Add, Num(1), BinExpr(Mul, Num(2), BinExpr(Div, Num(3), Num(4))))) + "" == "1 + 2 * 3 / 4"
  {
    ShowDigit(1);
    ProductShown();
  }

  lemma MixedWellPlaced()
    ensures WellPrec(BinExpr(Add, Num(1), BinExpr(Mul, Num(2), BinExpr(Div, Num(3), Num(4)))), MinPrecedence)
  {
    ShowDigit(1); ShowDigit(2); ShowDigit(3); ShowDigit(4);
  }

  /** `3 + 2 - 1` nests to the right: the subtraction is the addition's right operand. */
  lemma SameLevelChain()
    ensures ParseBinExpr("3 + 2 - 1") == Some((BinExpr(Add, Num(3), BinExpr(Sub, Num(2), Num(1))), ""))
  {
    var sub := BinExpr(Sub, Num(2), Num(1));
    ShowDigit(1); ShowDigit(2); ShowDigit(3);
    assert Show(sub) == "2 - 1";
    var text := Show(BinExpr(Add, Num(3), sub)) + "";
    assert text == "3 + 2 - 1";
    EndOfInput(MinPrecedence);
    BinAltsUpTo(Add, Num(3), sub, MinPrecedence, "", 0);
  }

  /** The tree the source expects for `1 * 2 + 3 * 4 + 5 == 6`. */
  function SumsTree(): Expression {
    BinExpr(Equals,
            BinExpr(Add, BinExpr(Mul, Num(1), Num(2)),
                         BinExpr(Add, BinExpr(Mul, Num(3), Num(4)), Num(5))),
            Num(6))
  }

  lemma SumsTreeShown()
    ensures Show(SumsTree()) + "" == "1 * 2 + 3 * 4 + 5 == 6"
  {
    var e := SumsTree();
    SumsShown();
    ShowDigit(6);
    assert Show(e) + "" == "1 * 2 + 3 * 4 + 5" + " == " + "6";
  }

  /** The left operand of the equality. */
  lemma SumsShown()
    ensures Show(SumsTree().left) == "1 * 2 + 3 * 4 + 5"
  {
    var e := SumsTree().left;
    ShowDigit(1); ShowDigit(2);
    assert Show(e.left) == "1 * 2";
    SecondSumShown();
  }

  lemma SecondSumShown()
    ensures Show(SumsTree().left.right) == "3 * 4 + 5"
  {
    var e := SumsTree().left.right;
    ShowDigit(3); ShowDigit(4); ShowDigit(5);
    assert Show(e.left) == "3 * 4";
  }

  lemma SumsTreeWellPlaced()
    ensures WellPrec(SumsTree(), MinPrecedence)
  {
    ShowDigit(1); ShowDigit(2); ShowDigit(3); ShowDigit(4); ShowDigit(5); ShowDigit(6);
  }

  /** `1 * 2 + 3 * 4 + 5 == 6` through the expression parser: `==` at the top, the sums nested to the right. */
  lemma EqualityOfSums()
    ensures ParseExpression("1 * 2 + 3 * 4 + 5 == 6") == Some((SumsTree(), ""))
  {
    SumsTreeShown();
    SumsTreeWellPlaced();
    EndOfInput(MinPrecedence);
    ExprRoundTrip(SumsTree(), MinPrecedence, "");
  }

  /** `simple_test(123)` is a call with one numeric argument. */
  lemma CallExample()
    ensures ParseCall("simple_test(123)", MinPrecedence) == Some((FnCall(Ident("simple_test"), [Num(123)]), ""))
  {
    var name := Ident("simple_test");
    CallExampleShown();
    assert IsIdentText(name.name);
    SkipWhitespaceOfSolid("");
    CallRoundTrip(name, [Num(123)], MinPrecedence, "");
  }

  lemma CallExampleShown()
    ensures Show(FnCall(Ident("simple_test"), [Num(123)])) + "" == "simple_test(123)"
    ensures WellPrec(Num(123), AboveAll)
  {
    ArgumentShown();
    assert "simple_test" + "(" == "simple_test(";
    assert "simple_test(" + "123" == "simple_test(123";
  }

  lemma ArgumentShown()
    ensures ShowArgs([Num(123)]) == "123"
    ensures WellPrec(Num(123), AboveAll)
  {
    assert ToDigits(10, 123) == "123";
    assert (123 as real).Floor == 123;
    assert [Num(123)][1..] == [];
  }

  /**
    `f(1 + 2) * 3`: the argument's addition keeps the call from standing
    left of the multiplication, so the expression ends after the call and
    `* 3` is left unread; the input as a whole is not an expression.
   */
  lemma CallThenMultiply()
    ensures ParseExpression("f(1 + 2) * 3")
         == Some((FnCall(Ident("f"), [BinExpr(Add, Num(1), Num(2))]), "* 3"))
    ensures Whole(ParseExpression("f(1 + 2) * 3")).None?
  {
    CallThenMultiplyText();
    assert IsIdentText("f");
    CallThenTighter(Ident("f"), Add, Num(1), Num(2), Mul, "3", MinPrecedence);
  }

  lemma CallThenMultiplyText()
    ensures Show(FnCall(Ident("f"), [BinExpr(Add, Num(1), Num(2))])) + (" " + OpSpelling(Mul) + " " + "3")
         == "f(1 + 2) * 3"
  {
    var arg := BinExpr(Add, Num(1), Num(2));
    ShowDigit(1); ShowDigit(2);
    assert ShowArgs([arg]) == "1 + 2" by {
      assert [arg][1..] == [];
    }
  }
}

=== FILE: expr_render.dfy ===
/**
  Rendering expressions as source text, and the round trip through the
  precedence engine.

  The rendering puts single spaces around binary operators and `, `
  between call arguments. It reads back as itself whenever the tree is
  well placed for the threshold it is parsed at: a binary node's operator
  reaches the threshold, its left operand has no operator at its top that
  binds as loosely, and its right operand has none that binds more loosely.
  So chains of one precedence level read back nested to the right, and a
  tighter operator always sits below a looser one.

  Call arguments are parsed at the threshold in force where the call
  stands, and a call standing left of an operator is tried at every
  threshold above that one. The round trip therefore restricts call
  arguments to expressions with no operator at their top.
 */
module ExprRender {
  import opened Combinators
  import opened Idents
  import opened SyntaxElements
  import opened NumberLit
  import opened StringLiterals
  import opened Expressions

  /** A threshold no operator reaches. */
  const AboveAll: Precedence := 4

  /** Number values the decimal rendering writes: positive whole numbers (zero has no readable spelling). */
  predicate ValidNumber(v: real) {
    v.Floor >= 1 && v == v.Floor as real
  }

  /** `e` is read back from its rendering at threshold `p`. */
  predicate WellPrec(e: Expression, p: Precedence)
    decreases e
  {
    match e
    case BinExpr(op, l, r) =>
      PrecedenceOf(op) >= p && WellPrec(l, PrecedenceOf(op) + 1) && WellPrec(r, PrecedenceOf(op))
    case NumLit(v) => ValidNumber(v)
    case StringLit(_) => true
    case FnCall(name, args) =>
      IsIdentText(name.name) && forall i :: 0 <= i < |args| ==> WellPrec(args[i], AboveAll)
  }

  function Show(e: Expression): string
    decreases e
  {
    match e
    case BinExpr(op, l, r) => Show(l) + " " + OpSpelling(op) + " " + Show(r)
    case NumLit(v) => if v.Floor >= 1 then ToDigits(10, v.Floor) else "0"
    case StringLit(t) => "\"" + Quote(t) + "\""
    case FnCall(name, args) => name.name + "(" + ShowArgs(args) + ")"
  }

  /** Call arguments separated by `, `. */
  function ShowArgs(args: seq<Expression>): string
    decreases args
  {
    if |args| == 0 then "" else Show(args[0]) + ShowMore(args[1..])
  }

  /** Further arguments, each after `, `. */
  function ShowMore(args: seq<Expression>): string
    decreases args
  {
    if |args| == 0 then "" else ", " + Show(args[0]) + ShowMore(args[1..])
  }

  /** Whether the rendering ends with a call's closing parenthesis, which swallows the whitespace after it. */
  predicate EndsWithCall(e: Expression) {
    match e
    case BinExpr(_, _, r) => EndsWithCall(r)
    case FnCall(_, _) => true
    case _ => false
  }

  /** What the parser leaves after reading `e`'s rendering followed by `rest`. */
  function AfterExpr(e: Expression, rest: string): string {
    if EndsWithCall(e) then SkipWhitespace(rest) else rest
  }

  /** After any whitespace, `rest` does not start with an operator the threshold admits. */
  predicate NoOperatorAhead(rest: string, p: Precedence) {
    var t := SkipWhitespace(rest);
    forall op: BinOp :: PrecedenceOf(op) >= p ==> |t| == 0 || t[0] != OpSpelling(op)[0]
  }

  /** Nothing in `rest` continues an expression read at threshold `p`. */
  predicate ExprBoundary(rest: string, p: Precedence) {
    !StartsWithDigit(10, rest) && NoFraction(rest) && NoOperatorAhead(rest, p)
  }

  /** Where each operator stands in the order the engine tries them. */
  function OpIndex(op: BinOp): (i: nat)
    ensures i < |OperatorOrder| && OperatorOrder[i] == op
  {
    match op
    case Equals => 0
    case Add => 1
    case Sub => 2
    case Mul => 3
    case Div => 4
  }

  /** An operator tried before `op` is another operator that binds at most as tightly. */
  lemma EarlierOperator(op: BinOp, i: nat)
    requires i < OpIndex(op)
    ensures OperatorOrder[i] != op && PrecedenceOf(OperatorOrder[i]) <= PrecedenceOf(op)
  {
    OperatorOrderSorted();
  }

  lemma WellPrecLower(e: Expression, p: Precedence, q: Precedence)
    requires WellPrec(e, p) && q <= p
    ensures WellPrec(e, q)
  {
  }

  /** Without an operator at the top, being well placed does not depend on the threshold. */
  lemma AtomWellPrec(e: Expression, p: Precedence, q: Precedence)
    requires !e.BinExpr? && WellPrec(e, p)
    ensures WellPrec(e, q)
  {
  }

  /** A call argument has no operator at its top, so it is well placed at every threshold. */
  lemma ArgWellPrec(e: Expression, q: Precedence)
    requires WellPrec(e, AboveAll)
    ensures WellPrec(e, q)
  {
    if e.BinExpr? {
      PrecedenceTable(e.op);
    }
  }

  lemma ArgsAnywhere(args: seq<Expression>, p: Precedence)
    requires forall i :: 0 <= i < |args| ==> WellPrec(args[i], AboveAll)
    ensures forall i :: 0 <= i < |args| ==> WellPrec(args[i], p)
  {
    forall i | 0 <= i < |args|
      ensures WellPrec(args[i], p)
    {
      ArgWellPrec(args[i], p);
    }
  }

  lemma BoundaryRaise(rest: string, p: Precedence, q: Precedence)
    requires ExprBoundary(rest, p) && p <= q
    ensures ExprBoundary(rest, q)
  {
  }

  /** A rendering is never empty and starts with a character an expression can start with. */
  lemma {:induction false} ShowStart(e: Expression, p: Precedence)
    requires WellPrec(e, p)
    ensures |Show(e)| > 0 && ExprStart(Show(e)[0]) && !IsWhitespace(Show(e)[0])
    decreases e
  {
    match e
    case BinExpr(op, l, r) =>
      ShowStart(l, PrecedenceOf(op) + 1);
      assert Show(e)[0] == Show(l)[0];
    case NumLit(v) =>
      ToDigitsCorrect(10, v.Floor);
      assert IsDigit(10, Show(e)[0]);
      assert DigitValue(Show(e)[0]) < 10;
    case StringLit(t) =>
    case FnCall(name, args) =>
      assert Show(e)[0] == name.name[0];
  }

  /** Skipping whitespace after what an expression leaves is skipping it after the original rest. */
  lemma AfterExprSkip(e: Expression, rest: string)
    ensures SkipWhitespace(AfterExpr(e, rest)) == SkipWhitespace(rest)
  {
    if EndsWithCall(e) {
      assert AfterExpr(e, rest) == SkipWhitespace(rest);
      SkipWhitespaceOfSolid(SkipWhitespace(rest));
    } else {
      assert AfterExpr(e, rest) == rest;
    }
  }

  /** What an expression leaves in front of solid text is that text. */
  lemma AfterExprSolid(e: Expression, rest: string)
    requires StartsSolid(rest)
    ensures AfterExpr(e, rest) == rest
  {
    if EndsWithCall(e) {
      SkipWhitespaceOfSolid(rest);
    }
  }

  /** An operator the threshold admits is not found after an expression followed by a boundary. */
  lemma NotAnOperator(e: Expression, rest: string, p: Precedence, op: BinOp)
    ensures NoOperatorAhead(rest, p) && PrecedenceOf(op) >= p ==> ParseAtom(Early, Operator(op), AfterExpr(e, rest)).None?
  {
    if NoOperatorAhead(rest, p) && PrecedenceOf(op) >= p {
      AfterExprSkip(e, rest);
      AtomMismatch(Early, Operator(op), AfterExpr(e, rest));
    }
  }

  /** The text after the left operand of `op`: the operator between single spaces, then the right operand. */
  function AfterLeft(op: BinOp, r: Expression, rest: string): string {
    " " + Spelling(Operator(op)) + " " + (Show(r) + rest)
  }

  lemma BinShape(op: BinOp, l: Expression, r: Expression, rest: string)
    ensures Show(BinExpr(op, l, r)) + rest == Show(l) + AfterLeft(op, r, rest)
  {
    assert Spelling(Operator(op)) == OpSpelling(op);
    BinText(Show(l), OpSpelling(op), Show(r), rest);
  }

  lemma BinText(a: string, o: string, b: string, rest: string)
    ensures a + " " + o + " " + b + rest == a + (" " + o + " " + (b + rest))
  {
    Assoc(a + " " + o + " ", b, rest);
    Assoc(a + " " + o, " ", b + rest);
    Assoc(a + " ", o, " " + (b + rest));
    Assoc(a, " ", o + (" " + (b + rest)));
    Assoc(" ", o, " " + (b + rest));
    Assoc(" " + o, " ", b + rest);
  }

  lemma Regroup(a: string, b: string, c: string, d: string)
    ensures a + b + c + d == a + (b + (c + d))
  {
    Assoc(a + b, c, d);
    Assoc(a, b, c + d);
  }

  /** The operator text after a left operand ends the operand at any threshold above the operator. */
  lemma LeftBoundary(op: BinOp, r: Expression, rest: string)
    ensures ExprBoundary(AfterLeft(op, r, rest), PrecedenceOf(op) + 1)
    ensures SkipWhitespace(AfterLeft(op, r, rest)) == Spelling(Operator(op)) + " " + (Show(r) + rest)
  {
    OperatorAhead(op, Show(r) + rest);
  }

  /** After a spaced operator nothing tighter, no digit and no dot comes next; skipping the space leaves the operator. */
  lemma OperatorAhead(op: BinOp, y: string)
    ensures ExprBoundary(" " + Spelling(Operator(op)) + " " + y, PrecedenceOf(op) + 1)
    ensures SkipWhitespace(" " + Spelling(Operator(op)) + " " + y) == Spelling(Operator(op)) + " " + y
  {
    var t := Spelling(Operator(op)) + " " + y;
    OperatorSkip(op, y);
    assert t[0] == OpSpelling(op)[0];
    forall op2: BinOp | PrecedenceOf(op2) >= PrecedenceOf(op) + 1
      ensures t[0] != OpSpelling(op2)[0]
    {
      OperatorSpellingsDistinct(op, op2);
    }
  }

  lemma OperatorSkip(op: BinOp, y: string)
    ensures SkipWhitespace(" " + Spelling(Operator(op)) + " " + y) == Spelling(Operator(op)) + " " + y
  {
    var sp := Spelling(Operator(op));
    Assoc(" " + sp, " ", y);
    Assoc(" ", sp, " " + y);
    Assoc(sp, " ", y);
    SolidFront(sp, " " + y);
    assert AllWhitespace(" ");
    SkipWhitespaceOfConcat(" ", sp + (" " + y));
  }

  /** Another operator is not found after a left operand that stops in front of `op`. */
  lemma OtherOperatorAfterLeft(l: Expression, op: BinOp, op2: BinOp, r: Expression, rest: string)
    requires op != op2
    ensures ParseAtom(Early, Operator(op2), AfterExpr(l, AfterLeft(op, r, rest))).None?
  {
    LeftBoundary(op, r, rest);
    AfterExprSkip(l, AfterLeft(op, r, rest));
    OperatorSpellingsDistinct(op, op2);
    AtomMismatch(Early, Operator(op2), AfterExpr(l, AfterLeft(op, r, rest)));
  }

  /** The operator itself is found after the left operand, and leaves the right operand's rendering. */
  lemma OperatorAfterLeft(l: Expression, op: BinOp, r: Expression, rest: string)
    requires StartsSolid(Show(r) + rest)
    ensures ParseAtom(Early, Operator(op), AfterExpr(l, AfterLeft(op, r, rest))) == Some(Show(r) + rest)
  {
    LeftBoundary(op, r, rest);
    if EndsWithCall(l) {
      AtomThenWhitespace(Early, Operator(op), " ", Show(r) + rest);
    } else {
      AtomPaddingPolicy(Early, Operator(op), " ", " ", Show(r) + rest);
    }
  }

  /**
    Round trip through the precedence engine: a tree well placed for the
    threshold, rendered and followed by text that cannot continue it, is
    read back as exactly that tree. A trailing call's closing parenthesis
    also takes the whitespace after it.
   */
  lemma {:induction false} ExprRoundTrip(e: Expression, p: Precedence, rest: string)
    requires WellPrec(e, p) && ExprBoundary(rest, p)
    ensures ParseExpr(Show(e) + rest, p) == Some((e, AfterExpr(e, rest)))
    decreases e, 256 - p, 2, 0
  {
    var s := Show(e) + rest;
    if e.BinExpr? {
      assert BinAlts(s, p, 0) == Some((e, AfterExpr(e, rest))) by {
        BinAltsUpTo(e.op, e.left, e.right, p, rest, 0);
      }
      ExprOfBin(s, p);
    } else {
      AtomRoundTrip(e, p, rest);
    }
  }

  /** The round trip stated as an implication, for callers that hold its premises as plain facts. */
  lemma {:induction false} ReadBack(e: Expression, p: Precedence, rest: string)
    ensures WellPrec(e, p) && ExprBoundary(rest, p) ==> ParseExpr(Show(e) + rest, p) == Some((e, AfterExpr(e, rest)))
    decreases e, 256 - p, 2, 1
  {
    if WellPrec(e, p) && ExprBoundary(rest, p) {
      ExprRoundTrip(e, p, rest);
    }
  }

  /** The round trip for a tree with no operator at its top: the binary alternatives all fail first. */
  lemma {:induction false} AtomRoundTrip(e: Expression, p: Precedence, rest: string)
    requires !e.BinExpr? && WellPrec(e, p) && ExprBoundary(rest, p)
    ensures ParseExpr(Show(e) + rest, p) == Some((e, AfterExpr(e, rest)))
    decreases e, 256 - p, 1, 6
  {
    assert BinAlts(Show(e) + rest, p, 0).None? by { AtomAltsFail(e, p, rest, 0); }
    match e
    case NumLit(v) => NumberInExpr(v, p, rest);
    case StringLit(t) => StringInExpr(t, p, rest);
    case FnCall(name, args) => CallInExpr(name, args, p, rest);
  }

  lemma {:induction false} CallInExpr(name: Ident, args: seq<Expression>, p: Precedence, rest: string)
    requires WellPrec(FnCall(name, args), p)
    requires BinAlts(Show(FnCall(name, args)) + rest, p, 0).None?
    ensures ParseExpr(Show(FnCall(name, args)) + rest, p) == Some((FnCall(name, args), SkipWhitespace(rest)))
    decreases FnCall(name, args), 256 - p, 1, 5
  {
    var s := Show(FnCall(name, args)) + rest;
    assert ParseNumLit(s).None? && ParseStringLit(s).None? by {
      CallIsNoLiteral(name, args, rest);
    }
    assert ParseCall(s, p) == Some((FnCall(name, args), SkipWhitespace(rest))) by {
      ArgsAnywhere(args, p);
      CallRoundTrip(name, args, p, rest);
    }
    ExprOfCall(s, p);
  }

  lemma NumberInExpr(v: real, p: Precedence, rest: string)
    requires ValidNumber(v) && ExprBoundary(rest, p)
    requires BinAlts(Show(NumLit(v)) + rest, p, 0).None?
    ensures ParseExpr(Show(NumLit(v)) + rest, p) == Some((NumLit(v), rest))
  {
    NumberShown(v, rest);
    ExprOfNum(Show(NumLit(v)) + rest, p, v, rest);
  }

  lemma NumberShown(v: real, rest: string)
    requires ValidNumber(v) && !StartsWithDigit(10, rest) && NoFraction(rest)
    ensures ParseNumLit(Show(NumLit(v)) + rest) == Some((v, rest))
  {
    assert Show(NumLit(v)) == ToDigits(10, v.Floor);
    DecimalRoundTrip(v.Floor, rest);
  }

  lemma StringInExpr(t: string, p: Precedence, rest: string)
    requires BinAlts(Show(StringLit(t)) + rest, p, 0).None?
    ensures ParseExpr(Show(StringLit(t)) + rest, p) == Some((StringLit(t), rest))
  {
    var s := Show(StringLit(t)) + rest;
    assert ParseNumLit(s).None? by {
      assert s[0] == '"';
      if ParseNumLit(s).Some? {
        NumLitStartsWithDigit(s);
      }
    }
    StringRoundTrip(t, rest);
    ExprOfString(s, p, t, rest);
  }

  /** Before a tree without an operator at its top, every binary alternative fails. */
  lemma {:induction false} AtomAltsFail(e: Expression, p: Precedence, rest: string, i: nat)
    requires !e.BinExpr? && WellPrec(e, p) && ExprBoundary(rest, p) && i <= |OperatorOrder|
    ensures BinAlts(Show(e) + rest, p, i).None?
    decreases e, 256 - p, 1, 1
  {
    forall op: BinOp
      ensures BinWith(op, Show(e) + rest, p).None?
    {
      AtomWith(e, p, rest, op);
    }
    AltsAllFail(Show(e) + rest, p, i);
  }

  lemma {:induction false} AtomWith(e: Expression, p: Precedence, rest: string, op: BinOp)
    requires !e.BinExpr? && WellPrec(e, p) && ExprBoundary(rest, p)
    ensures BinWith(op, Show(e) + rest, p).None?
    decreases e, 256 - p, 1, 0
  {
    var s := Show(e) + rest;
    if PrecedenceOf(op) < p {
      BinWithBelow(op, s, p);
    } else {
      AtomWellPrec(e, p, PrecedenceOf(op) + 1);
      WholeThenNoOperator(e, p, rest, op);
    }
  }

  /**
    An operator whose left operand is read as the whole of `e`: after `e`
    comes no operator at `p`, so the operator finds nothing.
   */
  lemma {:induction false} WholeThenNoOperator(e: Expression, p: Precedence, rest: string, op: BinOp)
    requires p <= PrecedenceOf(op) && WellPrec(e, PrecedenceOf(op) + 1) && ExprBoundary(rest, p)
    ensures BinWith(op, Show(e) + rest, p).None?
    decreases e, 256 - p, 0, 1
  {
    OperandThenNoOperator(e, p, rest, op);
    var a :| ParseExpr(Show(e) + rest, PrecedenceOf(op) + 1) == Some((e, a)) && ParseAtom(Early, Operator(op), a).None?;
    BinWithNoOperator(op, Show(e) + rest, p, e, a);
  }

  /** Read as the left operand of `op`, the whole of `e` is followed by text where `op` does not occur. */
  lemma {:induction false} OperandThenNoOperator(e: Expression, p: Precedence, rest: string, op: BinOp)
    requires p <= PrecedenceOf(op) && WellPrec(e, PrecedenceOf(op) + 1) && ExprBoundary(rest, p)
    ensures exists a :: ParseExpr(Show(e) + rest, PrecedenceOf(op) + 1) == Some((e, a)) && ParseAtom(Early, Operator(op), a).None?
    decreases e, 256 - p, 0, 0
  {
    WholeRead(e, p, rest, PrecedenceOf(op) + 1);
    NotAnOperator(e, rest, p, op);
  }

  /** A tree is read back at any threshold it is well placed at, above the one its boundary holds for. */
  lemma {:induction false} WholeRead(e: Expression, p: Precedence, rest: string, q: Precedence)
    ensures p < q && WellPrec(e, q) && ExprBoundary(rest, p) ==> ParseExpr(Show(e) + rest, q) == Some((e, AfterExpr(e, rest)))
    decreases e, 255 - p, 3, 0
  {
    if p < q && WellPrec(e, q) && ExprBoundary(rest, p) {
      BoundaryRaise(rest, p, q);
      ExprRoundTrip(e, q, rest);
    }
  }

  /**
    The binary alternatives from position `i` up to the tree's own operator:
    those before it fail, and its own reads the tree back.
   */
  lemma {:induction false} BinAltsUpTo(op: BinOp, l: Expression, r: Expression, p: Precedence, rest: string, i: nat)
    requires WellPrec(BinExpr(op, l, r), p) && ExprBoundary(rest, p) && i <= OpIndex(op)
    ensures BinAlts(Show(BinExpr(op, l, r)) + rest, p, i) == Some((BinExpr(op, l, r), AfterExpr(BinExpr(op, l, r), rest)))
    decreases BinExpr(op, l, r), 256 - p, 1, |OperatorOrder| - i
  {
    var e := BinExpr(op, l, r);
    var s := Show(e) + rest;
    if i == OpIndex(op) {
      assert BinWith(op, s, p) == Some((e, AfterExpr(e, rest))) by {
        BinHit(op, l, r, p, rest);
      }
      AltsHit(s, p, i);
    } else {
      assert BinWith(OperatorOrder[i], s, p).None? by {
        EarlierOperator(op, i);
        EarlierAltFails(op, l, r, p, rest, OperatorOrder[i]);
      }
      AltsSkip(s, p, i);
      BinAltsUpTo(op, l, r, p, rest, i + 1);
    }
  }

  /**
    An operator tried before the tree's own fails: a looser one finds the
    whole tree and then no operator after it, and another one of the same
    precedence finds the left operand and then the tree's own operator.
   */
  lemma {:induction false} EarlierAltFails(op: BinOp, l: Expression, r: Expression, p: Precedence, rest: string, op2: BinOp)
    requires WellPrec(BinExpr(op, l, r), p) && ExprBoundary(rest, p)
    requires op2 != op && PrecedenceOf(op2) <= PrecedenceOf(op)
    ensures BinWith(op2, Show(BinExpr(op, l, r)) + rest, p).None?
    decreases BinExpr(op, l, r), 256 - p, 0, 2
  {
    if PrecedenceOf(op2) < p {
      BinWithBelow(op2, Show(BinExpr(op, l, r)) + rest, p);
    } else if PrecedenceOf(op2) < PrecedenceOf(op) {
      BinWellPrecRaise(op, l, r, p, PrecedenceOf(op2) + 1);
      WholeThenNoOperator(BinExpr(op, l, r), p, rest, op2);
    } else {
      SamePrecedenceAltFails(op, l, r, p, rest, op2);
    }
  }

  lemma BinWellPrecRaise(op: BinOp, l: Expression, r: Expression, p: Precedence, q: Precedence)
    requires WellPrec(BinExpr(op, l, r), p) && q <= PrecedenceOf(op)
    ensures WellPrec(BinExpr(op, l, r), q)
  {
  }

  /** Another operator of the same precedence reads the left operand and then finds the tree's own operator. */
  lemma {:induction false} SamePrecedenceAltFails(op: BinOp, l: Expression, r: Expression, p: Precedence, rest: string, op2: BinOp)
    requires WellPrec(BinExpr(op, l, r), p)
    requires op2 != op && p <= PrecedenceOf(op2) == PrecedenceOf(op)
    ensures BinWith(op2, Show(BinExpr(op, l, r)) + rest, p).None?
    decreases BinExpr(op, l, r), 256 - p, 0, 0
  {
    LeftRead(op, l, r, rest);
    OtherOperatorAfterLeft(l, op, op2, r, rest);
    BinWithNoOperator(op2, Show(BinExpr(op, l, r)) + rest, p, l, AfterExpr(l, AfterLeft(op, r, rest)));
  }

  /** The tree's own operator: left operand one level tighter, the operator, right operand at the threshold. */
  lemma {:induction false} BinHit(op: BinOp, l: Expression, r: Expression, p: Precedence, rest: string)
    requires WellPrec(BinExpr(op, l, r), p) && ExprBoundary(rest, p)
    ensures BinWith(op, Show(BinExpr(op, l, r)) + rest, p) == Some((BinExpr(op, l, r), AfterExpr(BinExpr(op, l, r), rest)))
    decreases BinExpr(op, l, r), 256 - p, 0, 0
  {
    var afterL := AfterLeft(op, r, rest);
    LeftRead(op, l, r, rest);
    OperatorRead(l, op, r, rest);
    RightRead(op, l, r, p, rest);
    BinWithStep(op, Show(BinExpr(op, l, r)) + rest, p, l, AfterExpr(l, afterL), Show(r) + rest, r, AfterExpr(r, rest));
  }

  /** The left operand of a rendered tree is read at one above the operator's precedence, up to the operator. */
  lemma {:induction false} LeftRead(op: BinOp, l: Expression, r: Expression, rest: string)
    requires WellPrec(l, PrecedenceOf(op) + 1)
    ensures ParseExpr(Show(BinExpr(op, l, r)) + rest, PrecedenceOf(op) + 1) == Some((l, AfterExpr(l, AfterLeft(op, r, rest))))
    decreases BinExpr(op, l, r), 0, 0, 1
  {
    BinShape(op, l, r, rest);
    LeftOfBinRead(op, l, r, rest);
  }

  /** The left operand, followed by the spaced operator and the rest, reads back as itself. */
  lemma {:induction false} LeftOfBinRead(op: BinOp, l: Expression, r: Expression, rest: string)
    requires WellPrec(l, PrecedenceOf(op) + 1)
    ensures ParseExpr(Show(l) + AfterLeft(op, r, rest), PrecedenceOf(op) + 1) == Some((l, AfterExpr(l, AfterLeft(op, r, rest))))
    decreases BinExpr(op, l, r), 0, 0, 0
  {
    LeftBeforeOperator(op, l, Show(r) + rest);
  }

  /** The left operand of `op`, followed by the spaced operator and anything, reads back as itself. */
  lemma {:induction false} LeftBeforeOperator(op: BinOp, l: Expression, y: string)
    requires WellPrec(l, PrecedenceOf(op) + 1)
    ensures ParseExpr(Show(l) + (" " + Spelling(Operator(op)) + " " + y), PrecedenceOf(op) + 1)
         == Some((l, AfterExpr(l, " " + Spelling(Operator(op)) + " " + y)))
    decreases l, 256 - (PrecedenceOf(op) + 1), 2, 2
  {
    OperatorBoundary(op, y);
    ReadBack(l, PrecedenceOf(op) + 1, " " + Spelling(Operator(op)) + " " + y);
  }

  /** The boundary half of `OperatorAhead` on its own. */
  lemma OperatorBoundary(op: BinOp, y: string)
    ensures ExprBoundary(" " + Spelling(Operator(op)) + " " + y, PrecedenceOf(op) + 1)
  {
    OperatorAhead(op, y);
  }

  lemma OperatorRead(l: Expression, op: BinOp, r: Expression, rest: string)
    requires WellPrec(r, PrecedenceOf(op))
    ensures ParseAtom(Early, Operator(op), AfterExpr(l, AfterLeft(op, r, rest))) == Some(Show(r) + rest)
  {
    ShowStart(r, PrecedenceOf(op));
    assert (Show(r) + rest)[0] == Show(r)[0];
    OperatorAfterLeft(l, op, r, rest);
  }

  /** The right operand is read at the caller's threshold. */
  lemma {:induction false} RightRead(op: BinOp, l: Expression, r: Expression, p: Precedence, rest: string)
    requires WellPrec(r, PrecedenceOf(op)) && p <= PrecedenceOf(op) && ExprBoundary(rest, p)
    ensures ParseExpr(Show(r) + rest, p) == Some((r, AfterExpr(r, rest)))
    decreases BinExpr(op, l, r), 0, 0, 0
  {
    WellPrecLower(r, PrecedenceOf(op), p);
    ExprRoundTrip(r, p, rest);
  }

  /** A padded atom followed by arbitrary text leaves that text without its leading whitespace. */
  lemma AtomThenAnything(a: Atom, rest: string)
    ensures ParseAtom(Early, a, Spelling(a) + rest) == Some(SkipWhitespace(rest))
  {
    var ws := LeadingWhitespace(rest);
    AtomThenWhitespace(Early, a, ws, SkipWhitespace(rest));
    Assoc(Spelling(a), ws, SkipWhitespace(rest));
  }

  lemma LeadingWhitespace(rest: string) returns (ws: string)
    ensures AllWhitespace(ws) && rest == ws + SkipWhitespace(rest)
  {
    var t := SkipWhitespace(rest);
    ws := rest[..|rest| - |t|];
    assert rest == ws + t;
  }

  lemma CallShape(name: Ident, args: seq<Expression>, rest: string)
    ensures Show(FnCall(name, args)) + rest == name.name + (Spelling(LParen) + (ShowArgs(args) + (Spelling(RParen) + rest)))
  {
  }

  /** A call with well-formed arguments reads back, and its closing parenthesis takes the whitespace after it. */
  lemma {:induction false} CallRoundTrip(name: Ident, args: seq<Expression>, p: Precedence, rest: string)
    requires IsIdentText(name.name) && forall i :: 0 <= i < |args| ==> WellPrec(args[i], p)
    ensures ParseCall(Show(FnCall(name, args)) + rest, p) == Some((FnCall(name, args), SkipWhitespace(rest)))
    decreases FnCall(name, args), 256 - p, 1, 0
  {
    var close := Spelling(RParen) + rest;
    var afterOpen := ShowArgs(args) + close;
    var afterName := Spelling(LParen) + afterOpen;
    var s := Show(FnCall(name, args)) + rest;
    assert s == name.name + afterName by {
      CallShape(name, args, rest);
    }
    assert ParseIdent(s) == Some((name, afterName)) by {
      assert afterName[0] == '(';
      IdentRoundTrip(name.name, afterName);
    }
    assert ParseAtom(Early, LParen, afterName) == Some(afterOpen) by {
      ArgsStart(args, p, close);
      AtomOfConcat(Early, LParen, afterOpen);
    }
    assert Args(afterOpen, p) == (args, close) by {
      CallArgs(name, args, p, rest);
    }
    AtomThenAnything(RParen, rest);
    CallStep(s, p, name, afterName, afterOpen, args, close, SkipWhitespace(rest));
  }

  /** The argument list of a well-formed call starts solid. */
  lemma ArgsStart(args: seq<Expression>, p: Precedence, close: string)
    requires forall i :: 0 <= i < |args| ==> WellPrec(args[i], p)
    requires |close| > 0 && close[0] == ')'
    ensures StartsSolid(ShowArgs(args) + close)
  {
    if |args| > 0 {
      ShowStart(args[0], p);
      assert (ShowArgs(args) + close)[0] == Show(args[0])[0];
    }
  }

  lemma {:induction false} CallArgs(name: Ident, args: seq<Expression>, p: Precedence, rest: string)
    requires forall i :: 0 <= i < |args| ==> WellPrec(args[i], p)
    ensures Args(ShowArgs(args) + (Spelling(RParen) + rest), p) == (args, Spelling(RParen) + rest)
    decreases FnCall(name, args), 256 - p, 0, 0
  {
    assert (Spelling(RParen) + rest)[0] == ')';
    ArgsRoundTrip(args, p, Spelling(RParen) + rest);
  }

  /** The text after a call argument ends it at any threshold. */
  lemma ArgBoundary(tail: string, p: Precedence)
    requires |tail| > 0 && (tail[0] == ',' || tail[0] == ')')
    ensures ExprBoundary(tail, p)
  {
    SkipWhitespaceOfSolid(tail);
  }

  lemma {:induction false} ArgsRoundTrip(args: seq<Expression>, p: Precedence, tail: string)
    requires forall i :: 0 <= i < |args| ==> WellPrec(args[i], p)
    requires |tail| > 0 && tail[0] == ')'
    ensures Args(ShowArgs(args) + tail, p) == (args, tail)
    decreases args, 256 - p, 1, 0
  {
    if |args| == 0 {
      assert ShowArgs(args) + tail == tail;
      assert ParseExpr(tail, p).None?;
      ArgsNone(tail, p);
    } else {
      var first := args[0];
      var after := ShowMore(args[1..]) + tail;
      assert ShowArgs(args) + tail == Show(first) + after;
      assert ParseExpr(Show(first) + after, p) == Some((first, after)) by {
        ArgStep(first, p, args[1..], tail);
      }
      ArgsStep(Show(first) + after, p, first, after);
      assert ArgsTail(after, p) == (args[1..], tail) by {
        DropFirst(args, p);
        MoreRoundTrip(args[1..], p, tail);
      }
      ConsTail(args);
    }
  }

  lemma DropFirst(args: seq<Expression>, p: Precedence)
    requires |args| > 0 && forall i :: 0 <= i < |args| ==> WellPrec(args[i], p)
    ensures WellPrec(args[0], p) && forall i :: 0 <= i < |args[1..]| ==> WellPrec(args[1..][i], p)
  {
  }

  lemma ConsTail(args: seq<Expression>)
    requires |args| > 0
    ensures [args[0]] + args[1..] == args
  {
  }

  /** The rendering of the further arguments, followed by `)`, begins with `,` or `)`. */
  lemma MoreStart(more: seq<Expression>, tail: string)
    requires |tail| > 0 && tail[0] == ')'
    ensures |ShowMore(more) + tail| > 0 && ((ShowMore(more) + tail)[0] == ',' || (ShowMore(more) + tail)[0] == ')')
  {
  }

  /** One argument reads back in front of the rest of the argument list. */
  lemma {:induction false} ArgStep(first: Expression, p: Precedence, more: seq<Expression>, tail: string)
    requires WellPrec(first, p)
    requires |tail| > 0 && tail[0] == ')'
    ensures ParseExpr(Show(first) + (ShowMore(more) + tail), p) == Some((first, ShowMore(more) + tail))
    decreases first, 256 - p, 3, 0
  {
    var after := ShowMore(more) + tail;
    MoreStart(more, tail);
    ArgBoundary(after, p);
    AfterExprSolid(first, after);
    ExprRoundTrip(first, p, after);
  }

  lemma {:induction false} MoreRoundTrip(more: seq<Expression>, p: Precedence, tail: string)
    requires forall i :: 0 <= i < |more| ==> WellPrec(more[i], p)
    requires |tail| > 0 && tail[0] == ')'
    ensures ArgsTail(ShowMore(more) + tail, p) == (more, tail)
    decreases more, 256 - p, 0, 0
  {
    if |more| == 0 {
      assert ShowMore(more) + tail == tail;
      AtomMismatch(Early, Comma, tail);
      TailNone(tail, p);
    } else {
      var first := more[0];
      var after := ShowMore(more[1..]) + tail;
      var s := ShowMore(more) + tail;
      assert ParseAtom(Early, Comma, s) == Some(Show(first) + after) by {
        MoreShape(more, tail);
        ShowStart(first, p);
        assert (Show(first) + after)[0] == Show(first)[0];
        AtomThenWhitespace(Early, Comma, " ", Show(first) + after);
      }
      assert ParseExpr(Show(first) + after, p) == Some((first, after)) by {
        ArgStep(first, p, more[1..], tail);
      }
      TailStep(s, p, Show(first) + after, first, after);
      assert ArgsTail(after, p) == (more[1..], tail) by {
        DropFirst(more, p);
        MoreRoundTrip(more[1..], p, tail);
      }
      ConsTail(more);
    }
  }

  lemma MoreShape(more: seq<Expression>, tail: string)
    requires |more| > 0
    ensures ShowMore(more) + tail == Spelling(Comma) + " " + (Show(more[0]) + (ShowMore(more[1..]) + tail))
  {
    ShowMoreFront(more);
    CommaText(Show(more[0]), ShowMore(more[1..]), tail);
  }

  lemma ShowMoreFront(more: seq<Expression>)
    requires |more| > 0
    ensures ShowMore(more) == ", " + Show(more[0]) + ShowMore(more[1..])
  {
  }

  lemma CommaText(a: string, b: string, tail: string)
    ensures ", " + a + b + tail == Spelling(Comma) + " " + (a + (b + tail))
  {
    assert Spelling(Comma) + " " == ", ";
    Regroup(", ", a, b, tail);
  }

  /** Every tree the round trip covers has the shape of a parse result. */
  lemma {:induction false} WellPrecShaped(e: Expression, p: Precedence)
    requires WellPrec(e, p)
    ensures Shaped(e, p)
    decreases e
  {
    match e
    case BinExpr(op, l, r) =>
      WellPrecShaped(l, PrecedenceOf(op) + 1);
      WellPrecLower(r, PrecedenceOf(op), p);
      WellPrecShaped(r, p);
    case NumLit(_) =>
    case StringLit(_) =>
    case FnCall(_, args) =>
      forall i | 0 <= i < |args|
        ensures Shaped(args[i], p)
      {
        ArgWellPrec(args[i], p);
        WellPrecShaped(args[i], p);
      }
  }

  /**
    Call arguments inherit the threshold in force where the call stands. A
    call whose argument has the binary operator `op` at its top is read at
    any threshold up to `op`'s precedence, and is not read at any threshold
    above it: the argument then stops in front of `op`, where neither a
    comma nor the closing parenthesis is found.
   */
  lemma CallArgumentThreshold(name: Ident, op: BinOp, a: Expression, b: Expression,
                              p: Precedence, q: Precedence, rest: string)
    requires IsIdentText(name.name)
    requires WellPrec(BinExpr(op, a, b), p)
    requires WellPrec(a, q) && PrecedenceOf(op) < q
    ensures ParseCall(Show(FnCall(name, [BinExpr(op, a, b)])) + rest, p)
         == Some((FnCall(name, [BinExpr(op, a, b)]), SkipWhitespace(rest)))
    ensures ParseCall(Show(FnCall(name, [BinExpr(op, a, b)])) + rest, q).None?
  {
    CallRoundTrip(name, [BinExpr(op, a, b)], p, rest);
    CallUnreadAbove(name, op, a, b, q, rest);
  }

  lemma CallUnreadAbove(name: Ident, op: BinOp, a: Expression, b: Expression, q: Precedence, rest: string)
    requires IsIdentText(name.name) && WellPrec(a, q) && PrecedenceOf(op) < q
    ensures ParseCall(Show(FnCall(name, [BinExpr(op, a, b)])) + rest, q).None?
  {
    var close := Spelling(RParen) + rest;
    var afterA := AfterLeft(op, b, close);
    var afterOpen := Show(a) + afterA;
    var afterName := Spelling(LParen) + afterOpen;
    var s := Show(FnCall(name, [BinExpr(op, a, b)])) + rest;
    CallArgText(name, op, a, b, rest);
    OperandFront(a, q, afterA);
    CallHead(name, afterOpen);
    LeftOperandRead(op, a, b, close, q);
    NeitherCommaNorClose(a, op, b, close);
    ArgsSingle(afterOpen, q, a, AfterExpr(a, afterA));
    CallNoClose(s, q, name, afterName, afterOpen, [a], AfterExpr(a, afterA));
  }

  /** The rendering of a call whose one argument has `op` at its top, split where the parser reads it. */
  lemma CallArgText(name: Ident, op: BinOp, a: Expression, b: Expression, rest: string)
    ensures Show(FnCall(name, [BinExpr(op, a, b)])) + rest
         == name.name + (Spelling(LParen) + (Show(a) + AfterLeft(op, b, Spelling(RParen) + rest)))
  {
    var arg := BinExpr(op, a, b);
    CallShape(name, [arg], rest);
    SingleArgText(arg);
    BinShape(op, a, b, Spelling(RParen) + rest);
  }

  lemma SingleArgText(arg: Expression)
    ensures ShowArgs([arg]) == Show(arg)
  {
    assert ShowArgs([arg]) == Show(arg) + ShowMore([]);
  }

  lemma OperandFront(a: Expression, q: Precedence, afterA: string)
    requires WellPrec(a, q)
    ensures StartsSolid(Show(a) + afterA)
  {
    ShowStart(a, q);
    SolidFront(Show(a), afterA);
  }

  /** A call's name and opening parenthesis are read in front of solid text. */
  lemma CallHead(name: Ident, afterOpen: string)
    requires IsIdentText(name.name) && StartsSolid(afterOpen)
    ensures ParseIdent(name.name + (Spelling(LParen) + afterOpen)) == Some((name, Spelling(LParen) + afterOpen))
    ensures ParseAtom(Early, LParen, Spelling(LParen) + afterOpen) == Some(afterOpen)
  {
    NameBeforeParen(name, afterOpen);
    AtomOfConcat(Early, LParen, afterOpen);
  }

  lemma NameBeforeParen(name: Ident, afterOpen: string)
    requires IsIdentText(name.name)
    ensures ParseIdent(name.name + (Spelling(LParen) + afterOpen)) == Some((name, Spelling(LParen) + afterOpen))
  {
    assert (Spelling(LParen) + afterOpen)[0] == '(';
    IdentRoundTrip(name.name, Spelling(LParen) + afterOpen);
  }

  /** The left operand of `op` is read alone at a threshold above `op`. */
  lemma LeftOperandRead(op: BinOp, a: Expression, b: Expression, tail: string, q: Precedence)
    requires WellPrec(a, q) && PrecedenceOf(op) < q
    ensures ParseExpr(Show(a) + AfterLeft(op, b, tail), q) == Some((a, AfterExpr(a, AfterLeft(op, b, tail))))
  {
    LeftBoundary(op, b, tail);
    BoundaryRaise(AfterLeft(op, b, tail), PrecedenceOf(op) + 1, q);
    ExprRoundTrip(a, q, AfterLeft(op, b, tail));
  }

  /** After a left operand comes its operator, which is neither a comma nor a closing parenthesis. */
  lemma NeitherCommaNorClose(a: Expression, op: BinOp, b: Expression, tail: string)
    ensures ParseAtom(Early, Comma, AfterExpr(a, AfterLeft(op, b, tail))).None?
    ensures ParseAtom(Early, RParen, AfterExpr(a, AfterLeft(op, b, tail))).None?
  {
    var left := AfterExpr(a, AfterLeft(op, b, tail));
    assert SkipWhitespace(left) == Spelling(Operator(op)) + " " + (Show(b) + tail) by {
      LeftBoundary(op, b, tail);
      AfterExprSkip(a, AfterLeft(op, b, tail));
    }
    assert SkipWhitespace(left)[0] == OpSpelling(op)[0];
    AtomMismatch(Early, Comma, left);
    AtomMismatch(Early, RParen, left);
  }

  /** The call of `CallArgumentThreshold` as a whole expression: at a threshold above its argument's operator, nothing is read. */
  lemma CallUnreadExpr(name: Ident, op: BinOp, a: Expression, b: Expression, q: Precedence, rest: string)
    requires IsIdentText(name.name) && WellPrec(a, AboveAll) && PrecedenceOf(op) < q
    ensures ParseExpr(Show(FnCall(name, [BinExpr(op, a, b)])) + rest, q).None?
  {
    CallIsNoLiteral(name, [BinExpr(op, a, b)], rest);
    CallUnreadFrom(name, op, a, b, q, rest);
    NothingReadFrom(Show(FnCall(name, [BinExpr(op, a, b)])) + rest, q);
  }

  /** The call is not read at `q`, nor at any threshold above it. */
  lemma CallUnreadFrom(name: Ident, op: BinOp, a: Expression, b: Expression, q: Precedence, rest: string)
    requires IsIdentText(name.name) && WellPrec(a, AboveAll) && PrecedenceOf(op) < q
    ensures forall q': Precedence :: q <= q' ==> ParseCall(Show(FnCall(name, [BinExpr(op, a, b)])) + rest, q').None?
  {
    forall q': Precedence | q <= q'
      ensures ParseCall(Show(FnCall(name, [BinExpr(op, a, b)])) + rest, q').None?
    {
      ArgWellPrec(a, q');
      CallUnreadAbove(name, op, a, b, q', rest);
    }
  }

  /**
    A call whose argument has `op` at its top, followed by a tighter
    operator: the expression ends after the call, and the tighter operator
    with its operand is left unread, because the reading that would take
    the call as that operator's left operand needs the call at a threshold
    above `op`.
   */
  lemma {:induction false} CallThenTighter(name: Ident, op: BinOp, a: Expression, b: Expression,
                                           op2: BinOp, more: string, p: Precedence)
    requires IsIdentText(name.name) && WellPrec(a, AboveAll) && WellPrec(b, PrecedenceOf(op))
    requires p <= PrecedenceOf(op) < PrecedenceOf(op2)
    ensures ParseExpr(Show(FnCall(name, [BinExpr(op, a, b)])) + (" " + OpSpelling(op2) + " " + more), p)
         == Some((FnCall(name, [BinExpr(op, a, b)]), OpSpelling(op2) + " " + more))
    decreases PrecedenceOf(op) + 1 - p, 2
  {
    var c := FnCall(name, [BinExpr(op, a, b)]);
    var rest := " " + OpSpelling(op2) + " " + more;
    var s := Show(c) + rest;
    var after := OpSpelling(op2) + " " + more;
    forall op1: BinOp | p <= PrecedenceOf(op1)
      ensures ParseExpr(s, PrecedenceOf(op1) + 1).None? ||
        (ParseExpr(s, PrecedenceOf(op1) + 1) == Some((c, after)) && ParseAtom(Early, Operator(op1), after).None?)
    {
      CallThenTighterLeft(name, op, a, b, op2, more, p, op1);
    }
    CallThenTighterAtoms(name, op, a, b, op2, more, p);
    OnlyCallRead(s, p, c, after);
  }

  /** What an operator tried on the call followed by a tighter operator finds as its left operand. */
  lemma {:induction false} CallThenTighterLeft(name: Ident, op: BinOp, a: Expression, b: Expression,
                                               op2: BinOp, more: string, p: Precedence, op1: BinOp)
    requires IsIdentText(name.name) && WellPrec(a, AboveAll) && WellPrec(b, PrecedenceOf(op))
    requires p <= PrecedenceOf(op) < PrecedenceOf(op2) && p <= PrecedenceOf(op1)
    ensures var s := Show(FnCall(name, [BinExpr(op, a, b)])) + (" " + OpSpelling(op2) + " " + more);
      var q := PrecedenceOf(op1) + 1;
      ParseExpr(s, q).None? ||
        (ParseExpr(s, q) == Some((FnCall(name, [BinExpr(op, a, b)]), OpSpelling(op2) + " " + more)) &&
         ParseAtom(Early, Operator(op1), OpSpelling(op2) + " " + more).None?)
    decreases PrecedenceOf(op) + 1 - p, 0
  {
    var q := PrecedenceOf(op1) + 1;
    if q > PrecedenceOf(op) {
      CallUnreadExpr(name, op, a, b, q, " " + OpSpelling(op2) + " " + more);
    } else {
      ReadBeforeTighter(name, op, a, b, op2, more, q, op1);
    }
  }

  /** At a threshold no looser than the argument's operator, the call is read and the operator tried next is not there. */
  lemma {:induction false} ReadBeforeTighter(name: Ident, op: BinOp, a: Expression, b: Expression,
                                             op2: BinOp, more: string, q: Precedence, op1: BinOp)
    requires IsIdentText(name.name) && WellPrec(a, AboveAll) && WellPrec(b, PrecedenceOf(op))
    requires q <= PrecedenceOf(op) < PrecedenceOf(op2) && op1 != op2
    ensures ParseExpr(Show(FnCall(name, [BinExpr(op, a, b)])) + (" " + OpSpelling(op2) + " " + more), q)
         == Some((FnCall(name, [BinExpr(op, a, b)]), OpSpelling(op2) + " " + more))
    ensures ParseAtom(Early, Operator(op1), OpSpelling(op2) + " " + more).None?
    decreases PrecedenceOf(op) + 1 - q, 3
  {
    CallThenTighter(name, op, a, b, op2, more, q);
    OperatorMismatch(op1, op2, more);
  }

  lemma CallThenTighterAtoms(name: Ident, op: BinOp, a: Expression, b: Expression, op2: BinOp, more: string, p: Precedence)
    requires IsIdentText(name.name) && WellPrec(a, AboveAll) && WellPrec(b, PrecedenceOf(op))
    requires p <= PrecedenceOf(op)
    ensures var s := Show(FnCall(name, [BinExpr(op, a, b)])) + (" " + OpSpelling(op2) + " " + more);
      ParseNumLit(s).None? && ParseStringLit(s).None? &&
      ParseCall(s, p) == Some((FnCall(name, [BinExpr(op, a, b)]), OpSpelling(op2) + " " + more))
  {
    CallIsNoLiteral(name, [BinExpr(op, a, b)], " " + OpSpelling(op2) + " " + more);
    CallBeforeOperator(name, op, a, b, op2, more, p);
  }

  /** Another operator's atom is not found where `op2` stands. */
  lemma OperatorMismatch(op1: BinOp, op2: BinOp, more: string)
    requires op1 != op2
    ensures ParseAtom(Early, Operator(op1), OpSpelling(op2) + " " + more).None?
  {
    var after := OpSpelling(op2) + " " + more;
    assert after[0] == OpSpelling(op2)[0];
    SkipWhitespaceOfSolid(after);
    OperatorSpellingsDistinct(op1, op2);
    AtomMismatch(Early, Operator(op1), after);
  }

  /** The call itself reads back at any threshold its argument's operator admits, and leaves the operator after it. */
  lemma CallBeforeOperator(name: Ident, op: BinOp, a: Expression, b: Expression, op2: BinOp, more: string, p: Precedence)
    requires IsIdentText(name.name) && WellPrec(a, AboveAll) && WellPrec(b, PrecedenceOf(op))
    requires p <= PrecedenceOf(op)
    ensures ParseCall(Show(FnCall(name, [BinExpr(op, a, b)])) + (" " + OpSpelling(op2) + " " + more), p)
         == Some((FnCall(name, [BinExpr(op, a, b)]), OpSpelling(op2) + " " + more))
  {
    var after := OpSpelling(op2) + " " + more;
    var rest := " " + OpSpelling(op2) + " " + more;
    assert WellPrec(BinExpr(op, a, b), p) by {
      ArgWellPrec(a, PrecedenceOf(op) + 1);
    }
    assert SkipWhitespace(rest) == after by {
      SpaceThenOperator(op2, more);
    }
    assert ParseCall(Show(FnCall(name, [BinExpr(op, a, b)])) + rest, p)
        == Some((FnCall(name, [BinExpr(op, a, b)]), SkipWhitespace(rest))) by {
      CallRoundTrip(name, [BinExpr(op, a, b)], p, rest);
    }
  }

  lemma SpaceThenOperator(op: BinOp, more: string)
    ensures SkipWhitespace(" " + OpSpelling(op) + " " + more) == OpSpelling(op) + " " + more
  {
    var after := OpSpelling(op) + " " + more;
    assert " " + OpSpelling(op) + " " + more == " " + after;
    assert after[0] == OpSpelling(op)[0];
    SkipWhitespaceOfConcat(" ", after);
  }

  /** A rendered call starts with its name, so neither literal parser reads it. */
  lemma CallIsNoLiteral(name: Ident, args: seq<Expression>, rest: string)
    requires IsIdentText(name.name)
    ensures ParseNumLit(Show(FnCall(name, args)) + rest).None?
    ensures ParseStringLit(Show(FnCall(name, args)) + rest).None?
  {
    var s := Show(FnCall(name, args)) + rest;
    assert s[0] == name.name[0];
    if ParseNumLit(s).Some? {
      NumLitStartsWithDigit(s);
    }
  }
}

=== FILE: ident.dfy ===
/**
  Identifiers (`text::ident()`) and whole-identifier keywords (`text::keyword`).

  Identifiers are ASCII: a letter or `_`, then letters, digits and `_`.
 */
module Idents {
  import opened Combinators

  /** A name token; the wrapped text is always identifier-shaped when it comes from the parser. */
  datatype Ident = Ident(name: string)

  predicate IsIdentStart(c: char) {
    'a' <= c <= 'z' || 'A' <= c <= 'Z' || c == '_'
  }

  predicate IsIdentContinue(c: char) {
    IsIdentStart(c) || '0' <= c <= '9'
  }

  /** `s` is a complete identifier: a start character followed by continue characters. */
  predicate IsIdentText(s: string) {
    |s| > 0 && IsIdentStart(s[0]) && forall i :: 1 <= i < |s| ==> IsIdentContinue(s[i])
  }

  /** Nothing in `rest` could extend an identifier that ends just before it. */
  predicate IdentBoundary(rest: string) {
    |rest| == 0 || !IsIdentContinue(rest[0])
  }

  /**
    `ident()`: the longest identifier at the start of the input. The result
    is identifier text, it is a prefix of the input, and it cannot be
    extended; the parser fails exactly when the input does not begin with
    an identifier start character (so a digit or whitespace in front fails).
   */
  function ParseIdent(s: string): (r: Parsed<Ident>)
    ensures r.Some? <==> |s| > 0 && IsIdentStart(s[0])
    ensures r.Some? ==> IsIdentText(r.value.0.name) && IdentBoundary(r.value.1)
    ensures r.Some? ==> s == r.value.0.name + r.value.1
  {
    if |s| > 0 && IsIdentStart(s[0]) then
      var n := 1 + Span(IsIdentContinue, s[1..]);
      assert s == s[..n] + s[n..];
      Some((Ident(s[..n]), s[n..]))
    else
      None
  }

  /** Rendering an identifier and parsing it back gives the same identifier and leaves the rest alone. */
  lemma IdentRoundTrip(name: string, rest: string)
    requires IsIdentText(name) && IdentBoundary(rest)
    ensures ParseIdent(name + rest) == Some((Ident(name), rest))
  {
    var s := name + rest;
    assert s[1..] == name[1..] + rest;
    SpanOfConcat(IsIdentContinue, name[1..], rest);
    assert s[..|name|] == name && s[|name|..] == rest;
  }

  /** A parsed identifier always consumes input. */
  lemma ParseIdentConsumes(s: string)
    requires ParseIdent(s).Some?
    ensures IsSuffix(ParseIdent(s).value.1, s) && |ParseIdent(s).value.1| < |s|
  {
    SuffixOfConcat(ParseIdent(s).value.0.name, ParseIdent(s).value.1);
  }

  /**
    `keyword(k)`: parse a whole identifier and accept it only if it is `k`.
    The keyword is found exactly when the identifier at the start of the
    input is `k` itself, so `letmut` is not the keyword `let`.
   */
  function Keyword(k: string, s: string): (rest: Option<string>)
    ensures rest.Some? <==> ParseIdent(s).Some? && ParseIdent(s).value.0.name == k
    ensures rest.Some? ==> s == k + rest.value && IdentBoundary(rest.value)
  {
    match ParseIdent(s)
    case Some((id, r)) => if id.name == k then Some(r) else None
    case None => None
  }

  /** A keyword written out and followed by a non-identifier character is recognised. */
  lemma KeywordRoundTrip(k: string, rest: string)
    requires IsIdentText(k) && IdentBoundary(rest)
    ensures Keyword(k, k + rest) == Some(rest)
  {
    IdentRoundTrip(k, rest);
  }

  /** A keyword immediately followed by identifier characters is not the keyword. */
  lemma KeywordNeedsBoundary(k: string, more: string)
    requires IsIdentText(k) && |more| > 0 && IsIdentContinue(more[0])
    ensures Keyword(k, k + more).None?
  {
    var s := k + more;
    assert s[1..][..|k|] == k[1..] + [more[0]];
    SpanAtLeast(IsIdentContinue, s[1..], |k|);
    assert |ParseIdent(s).value.0.name| > |k|;
  }

  /** A keyword always consumes input. */
  lemma KeywordConsumes(k: string, s: string)
    requires Keyword(k, s).Some?
    ensures IsSuffix(Keyword(k, s).value, s) && |Keyword(k, s).value| < |s|
  {
    ParseIdentConsumes(s);
  }
}

=== FILE: number.dfy ===
/**
  Numeric literals: an optional base prefix, leading zeros that are
  skipped, an integer part, and an optional fraction after a dot.

  The value is kept exact as a `real`: the integer part plus the fraction's
  digits divided by the base raised to the number of fraction digits. The
  source converts through `u64`, `u32` and `f64`; `ConversionOverflows`
  says where that conversion fails instead of returning a value.
  Digits are the ones `char::is_digit(radix)` accepts: `0`-`9`, then letters
  of either case from 10 upward.
 */
module NumberLit {
  import opened Combinators
  import opened SyntaxElements

  /** The radix range `text::int` accepts. */
  type Radix = b: nat | 2 <= b <= 36 witness 10

  /** The four literal forms, in the order the parser tries them. */
  datatype NumBase = Hex | Bin | Oct | Dec

  function RadixOf(nb: NumBase): Radix {
    match nb
    case Hex => 16
    case Bin => 2
    case Oct => 8
    case Dec => 10
  }

  function Prefix(nb: NumBase): string {
    match nb
    case Hex => "0x"
    case Bin => "0b"
    case Oct => "0o"
    case Dec => ""
  }

  /** The numeric value of a digit character, 36 for anything that is not a digit in any radix. */
  function DigitValue(c: char): (d: nat)
    ensures d <= 36
  {
    if '0' <= c <= '9' then c as nat - '0' as nat
    else if 'a' <= c <= 'z' then c as nat - 'a' as nat + 10
    else if 'A' <= c <= 'Z' then c as nat - 'A' as nat + 10
    else 36
  }

  predicate IsDigit(base: Radix, c: char) {
    DigitValue(c) < base
  }

  function BaseDigit(base: Radix): char -> bool {
    c => IsDigit(base, c)
  }

  predicate IsZeroDigit(c: char) {
    c == '0'
  }

  predicate AllDigits(base: Radix, t: string) {
    forall i :: 0 <= i < |t| ==> IsDigit(base, t[i])
  }

  /** The value of a digit string, most significant digit first. */
  function DigitsValue(base: Radix, t: string): nat {
    if |t| == 0 then 0 else DigitsValue(base, t[..|t| - 1]) * base + DigitValue(t[|t| - 1])
  }

  function Pow(b: nat, k: nat): (r: nat)
    ensures b > 0 ==> r > 0
  {
    if k == 0 then 1 else b * Pow(b, k - 1)
  }

  /**
    `based_float_literal_to_value`: the integer part alone when there is no
    fraction, otherwise the integer part plus the fraction shifted behind the
    point by as many places as it has digits.
   */
  function BasedFloatValue(base: Radix, whole: string, frac: string): real {
    if |frac| == 0 then DigitsValue(base, whole) as real
    else DigitsValue(base, whole) as real + DigitsValue(base, frac) as real / Pow(base, |frac|) as real
  }

  /** A fraction is a proper fraction: the value lies between the integer part and the next integer. */
  lemma FractionBelowOne(base: Radix, whole: string, frac: string)
    requires AllDigits(base, frac)
    ensures DigitsValue(base, whole) as real <= BasedFloatValue(base, whole, frac) < DigitsValue(base, whole) as real + 1.0
  {
    if |frac| > 0 {
      DigitsBelowPow(base, frac);
      ProperRatio(DigitsValue(base, frac) as real, Pow(base, |frac|) as real);
    }
  }

  lemma ProperRatio(d: real, p: real)
    requires 0.0 <= d < p
    ensures 0.0 <= d / p < 1.0
  {
    assert d / p * p == d;
  }

  lemma MulMono(a: nat, b: nat, c: nat)
    requires a <= b
    ensures a * c <= b * c
  {
  }

  lemma MulPred(p: int, b: int)
    ensures (p - 1) * b == p * b - b
  {
  }

  lemma {:induction false} DigitsBelowPow(base: Radix, t: string)
    requires AllDigits(base, t)
    ensures DigitsValue(base, t) < Pow(base, |t|)
  {
    if |t| > 0 {
      var init := t[..|t| - 1];
      assert AllDigits(base, init) by {
        forall i | 0 <= i < |init| ensures IsDigit(base, init[i]) {
          assert init[i] == t[i];
        }
      }
      DigitsBelowPow(base, init);
      var v := DigitsValue(base, init);
      var p := Pow(base, |init|);
      var d := DigitValue(t[|t| - 1]);
      assert d < base by { assert IsDigit(base, t[|t| - 1]); }
      assert DigitsValue(base, t) == v * base + d;
      MulMono(v, p - 1, base);
      MulPred(p, base);
      assert Pow(base, |t|) == base * p;
    }
  }

  /** The largest values of the integer types the conversion goes through. */
  const U64Max: nat := 0xFFFF_FFFF_FFFF_FFFF
  const U32Max: nat := 0xFFFF_FFFF

  /**
    Where `based_float_literal_to_value` does not return a value: a part
    that does not fit a `u64` makes `from_str_radix(..).unwrap()` panic, and
    a fraction whose scale `base.pow(len)` does not fit a `u32` overflows.
    The parser functions below compute the exact value regardless.
   */
  predicate ConversionOverflows(base: Radix, whole: string, frac: string) {
    DigitsValue(base, whole) > U64Max
    || (|frac| > 0 && (DigitsValue(base, frac) > U64Max || Pow(base, |frac|) > U32Max))
  }

  lemma {:induction false} PowMono(b: nat, j: nat, k: nat)
    requires b >= 1 && j <= k
    ensures Pow(b, j) <= Pow(b, k)
    decreases k
  {
    if j < k {
      PowMono(b, j, k - 1);
      MulMono(1, b, Pow(b, k - 1));
    }
  }

  /** Digits that do not start with zero are worth at least the base to the power of one less than their count. */
  lemma {:induction false} DigitsAbovePow(base: Radix, t: string)
    requires |t| > 0 && AllDigits(base, t) && t[0] != '0'
    ensures DigitsValue(base, t) >= Pow(base, |t| - 1)
  {
    if |t| == 1 {
      SingleDigitValue(base, t);
    } else {
      var init := t[..|t| - 1];
      InitDigits(base, t);
      DigitsAbovePow(base, init);
      DigitsValueGrows(base, t);
      MulMono(Pow(base, |init| - 1), DigitsValue(base, init), base);
      PowStep(base, |init| - 1);
    }
  }

  lemma SingleDigitValue(base: Radix, t: string)
    requires |t| == 1 && IsDigit(base, t[0]) && t[0] != '0'
    ensures DigitsValue(base, t) >= Pow(base, 0)
  {
    assert t[..0] == "";
    assert DigitsValue(base, t) == DigitValue(t[0]);
  }

  /** The digits before the last one are digits too, with the same first one. */
  lemma InitDigits(base: Radix, t: string)
    requires |t| > 1 && AllDigits(base, t)
    ensures AllDigits(base, t[..|t| - 1]) && t[..|t| - 1][0] == t[0]
  {
    var init := t[..|t| - 1];
    forall i | 0 <= i < |init| ensures IsDigit(base, init[i]) {
      assert init[i] == t[i];
    }
  }

  lemma DigitsValueGrows(base: Radix, t: string)
    requires |t| > 0
    ensures DigitsValue(base, t) >= DigitsValue(base, t[..|t| - 1]) * base
  {
  }

  lemma PowStep(b: nat, k: nat)
    ensures Pow(b, k) * b == Pow(b, k + 1)
  {
  }

  lemma DecimalPowers()
    ensures Pow(10, 9) <= U32Max < Pow(10, 10)
    ensures Pow(10, 19) <= U64Max < Pow(10, 20)
  {
  }

  /**
    When the source's conversion fails for a decimal literal: an integer
    part of 21 or more digits does not fit a `u64`, and a fraction of ten or
    more digits overflows the `u32` scale; with at most 19 integer digits
    and at most nine fraction digits every step fits.
   */
  lemma DecimalOverflowBounds(whole: string, frac: string)
    requires IsIntText(10, whole) && AllDigits(10, frac)
    ensures |whole| >= 21 ==> ConversionOverflows(10, whole, frac)
    ensures |frac| >= 10 ==> ConversionOverflows(10, whole, frac)
    ensures |whole| <= 19 && |frac| <= 9 ==> !ConversionOverflows(10, whole, frac)
  {
    DecimalPowers();
    if |whole| >= 21 {
      DigitsAbovePow(10, whole);
      PowMono(10, 20, |whole| - 1);
    }
    if |frac| >= 10 {
      PowMono(10, 10, |frac|);
    }
    if |whole| <= 19 && |frac| <= 9 {
      DigitsBelowPow(10, whole);
      PowMono(10, |whole|, 19);
      DigitsBelowPow(10, frac);
      PowMono(10, |frac|, 9);
    }
  }

  /** What `text::int(base)` accepts: a lone `0`, or a non-zero digit followed by digits. */
  predicate IsIntText(base: Radix, t: string) {
    |t| > 0 && AllDigits(base, t) && (t[0] != '0' || |t| == 1)
  }

  predicate StartsWithDigit(base: Radix, s: string) {
    |s| > 0 && IsDigit(base, s[0])
  }

  /**
    `text::int(base)`: a non-zero digit and every digit after it, or else a
    single `0`. It fails exactly when the input does not start with a digit,
    and apart from the lone zero it never stops in front of a digit.
   */
  function TextInt(base: Radix, s: string): (r: Parsed<string>)
    ensures r.Some? <==> StartsWithDigit(base, s)
    ensures r.Some? ==> IsIntText(base, r.value.0) && s == r.value.0 + r.value.1
    ensures r.Some? && r.value.0 != "0" ==> !StartsWithDigit(base, r.value.1)
  {
    if |s| > 0 && IsDigit(base, s[0]) && s[0] != '0' then
      var n := 1 + Span(BaseDigit(base), s[1..]);
      assert s == s[..n] + s[n..];
      Some((s[..n], s[n..]))
    else if |s| > 0 && s[0] == '0' then
      assert s == "0" + s[1..];
      Some(("0", s[1..]))
    else
      None
  }

  /** The digits `text::int` stops at: the end, a non-digit, or anything after a lone zero. */
  predicate IntBoundary(base: Radix, t: string, rest: string) {
    t == "0" || !StartsWithDigit(base, rest)
  }

  lemma TextIntOfConcat(base: Radix, t: string, rest: string)
    requires IsIntText(base, t) && IntBoundary(base, t, rest)
    ensures TextInt(base, t + rest) == Some((t, rest))
  {
    var s := t + rest;
    if t[0] != '0' {
      assert s[1..] == t[1..] + rest;
      SpanOfConcat(BaseDigit(base), t[1..], rest);
      assert s[..|t|] == t && s[|t|..] == rest;
    } else {
      assert t == "0";
      assert s[1..] == rest;
    }
  }

  /** `just('0').repeated()`: drop every leading zero. */
  function SkipZeros(s: string): (rest: string)
    ensures IsSuffix(rest, s)
    ensures |rest| == 0 || rest[0] != '0'
  {
    var n := Span(IsZeroDigit, s);
    if n == 0 then s else s[n..]
  }

  predicate AllZeros(z: string) {
    forall i :: 0 <= i < |z| ==> z[i] == '0'
  }

  lemma SkipZerosOfConcat(z: string, s: string)
    requires AllZeros(z) && (|s| == 0 || s[0] != '0')
    ensures SkipZeros(z + s) == s
  {
    SpanOfConcat(IsZeroDigit, z, s);
    assert (z + s)[|z|..] == s;
  }

  /**
    The optional fraction: a padded dot followed by `text::int`; it
    backtracks as a whole. The dot is the early tree's padded one; the
    current crate's number parser is not part of this model and is assumed
    to be the same.
   */
  function Fraction(base: Radix, s: string): (r: Parsed<string>)
    ensures r.Some? ==> IsSuffix(r.value.1, s) && IsIntText(base, r.value.0)
  {
    match ParseAtom(Early, Dot, s)
    case None => None
    case Some(afterDot) =>
      match TextInt(base, afterDot)
      case None => None
      case Some((f, rest)) =>
        SuffixOfConcat(f, rest);
        SuffixTransitive(rest, afterDot, s);
        Some((f, rest))
  }

  /** Prefix, skipped zeros and the integer digits of one literal form. */
  function IntegerPart(nb: NumBase, s: string): (r: Parsed<string>)
    ensures r.Some? ==> IsSuffix(r.value.1, s) && |r.value.1| < |s|
    ensures r.Some? ==> IsIntText(RadixOf(nb), r.value.0)
  {
    match Just(Prefix(nb), s)
    case None => None
    case Some(afterPrefix) =>
      var digits := SkipZeros(afterPrefix);
      match TextInt(RadixOf(nb), digits)
      case None => None
      case Some((whole, afterInt)) =>
        SuffixOfConcat(Prefix(nb), afterPrefix);
        SuffixTransitive(digits, afterPrefix, s);
        SuffixOfConcat(whole, afterInt);
        SuffixTransitive(afterInt, digits, s);
        Some((whole, afterInt))
  }

  /** A literal's value is never negative. */
  lemma ValueNonNegative(base: Radix, whole: string, frac: string)
    ensures BasedFloatValue(base, whole, frac) >= 0.0
  {
    if |frac| > 0 {
      var d := DigitsValue(base, frac) as real;
      var p := Pow(base, |frac|) as real;
      assert d / p * p == d;
    }
  }

  /**
    `NumLit::raw_base_parser`: prefix, skipped zeros, integer part, optional
    fraction. A fraction in a radix above ten is refused, which fails this
    alternative as a whole.
   */
  function RawBaseParser(nb: NumBase, s: string): (r: Parsed<real>)
    ensures r.Some? ==> IsSuffix(r.value.1, s) && |r.value.1| < |s|
    ensures r.Some? ==> r.value.0 >= 0.0
  {
    match IntegerPart(nb, s)
    case None => None
    case Some((whole, afterInt)) =>
      match Fraction(RadixOf(nb), afterInt)
      case Some((frac, rest)) =>
        if RadixOf(nb) > 10 then None
        else
          SuffixTransitive(rest, afterInt, s);
          ValueNonNegative(RadixOf(nb), whole, frac);
          Some((BasedFloatValue(RadixOf(nb), whole, frac), rest))
      case None =>
        ValueNonNegative(RadixOf(nb), whole, "");
        Some((BasedFloatValue(RadixOf(nb), whole, ""), afterInt))
  }

  /** Every literal form starts with a decimal digit. */
  lemma RawBaseStartsWithDigit(nb: NumBase, s: string)
    requires RawBaseParser(nb, s).Some?
    ensures |s| > 0 && '0' <= s[0] <= '9'
  {
    IntegerPartStarts(nb, s);
  }

  lemma IntegerPartStarts(nb: NumBase, s: string)
    requires IntegerPart(nb, s).Some?
    ensures |s| > 0 && '0' <= s[0] <= '9'
  {
    if nb == Dec {
      DecimalStarts(s);
    } else {
      assert s == Prefix(nb) + Just(Prefix(nb), s).value;
      assert s[0] == Prefix(nb)[0];
    }
  }

  lemma DecimalStarts(s: string)
    requires TextInt(10, SkipZeros(s)).Some?
    ensures |s| > 0 && '0' <= s[0] <= '9'
  {
    if |s| == 0 || s[0] != '0' {
      NoZerosToSkip(s);
    }
  }

  lemma NoZerosToSkip(s: string)
    requires |s| == 0 || s[0] != '0'
    ensures SkipZeros(s) == s
  {
    assert Span(IsZeroDigit, s) == 0;
  }

  /** `NumLit::parser`: hexadecimal, binary, octal, then decimal; the first success wins. */
  function ParseNumLit(s: string): (r: Parsed<real>)
    ensures r.Some? ==> IsSuffix(r.value.1, s) && |r.value.1| < |s|
    ensures r.Some? ==> r.value.0 >= 0.0
  {
    if RawBaseParser(Hex, s).Some? then RawBaseParser(Hex, s)
    else if RawBaseParser(Bin, s).Some? then RawBaseParser(Bin, s)
    else if RawBaseParser(Oct, s).Some? then RawBaseParser(Oct, s)
    else RawBaseParser(Dec, s)
  }

  /** The digit character for a digit value, upper-case letters from ten upward. */
  function DigitChar(d: nat): (c: char)
    requires d < 36
    ensures DigitValue(c) == d
  {
    if d < 10 then ('0' as nat + d) as char else ('A' as nat + d - 10) as char
  }

  /** Writing a positive number in a radix, most significant digit first, with no leading zero. */
  function ToDigits(base: Radix, n: nat): (t: string)
    requires n > 0
    decreases n
  {
    if n < base then [DigitChar(n)]
    else
      DivMod(n, base);
      ToDigits(base, n / base) + [DigitChar(n % base)]
  }

  lemma DivMod(n: nat, b: nat)
    requires 2 <= b <= n
    ensures n == (n / b) * b + n % b && n % b < b && 0 < n / b < n
  {
  }

  lemma DigitsSnoc(base: Radix, t: string, c: char)
    ensures DigitsValue(base, t + [c]) == DigitsValue(base, t) * base + DigitValue(c)
  {
    assert (t + [c])[..|t|] == t;
  }

  /** `ToDigits` is an inverse of `DigitsValue`, and what it writes is exactly what `text::int` reads. */
  lemma {:induction false} ToDigitsCorrect(base: Radix, n: nat)
    requires n > 0
    ensures IsIntText(base, ToDigits(base, n)) && ToDigits(base, n)[0] != '0'
    ensures DigitsValue(base, ToDigits(base, n)) == n
  {
    var t := ToDigits(base, n);
    if n < base {
      assert DigitsValue(base, t) == DigitsValue(base, []) * base + n by {
        DigitsSnoc(base, [], DigitChar(n));
        assert [] + [DigitChar(n)] == t;
      }
    } else {
      DivMod(n, base);
      var hi := ToDigits(base, n / base);
      ToDigitsCorrect(base, n / base);
      DigitsSnoc(base, hi, DigitChar(n % base));
      assert t[0] == hi[0];
      assert forall i :: 0 <= i < |hi| ==> t[i] == hi[i];
    }
  }

  /** No fraction follows: after any whitespace there is no dot. */
  predicate NoFraction(rest: string) {
    var t := SkipWhitespace(rest);
    |t| == 0 || t[0] != '.'
  }

  /** The forms `NumLit::parser` tries before `nb`. */
  predicate TriedBefore(m: NumBase, nb: NumBase) {
    match nb
    case Hex => false
    case Bin => m == Hex
    case Oct => m == Hex || m == Bin
    case Dec => m != Dec
  }

  /** Ordered choice: the first form that succeeds decides the literal. */
  lemma NumLitPicks(nb: NumBase, s: string)
    requires forall m: NumBase :: TriedBefore(m, nb) ==> RawBaseParser(m, s).None?
    requires RawBaseParser(nb, s).Some? || nb == Dec
    ensures ParseNumLit(s) == RawBaseParser(nb, s)
  {
    var hex, bin, oct, dec := RawBaseParser(Hex, s), RawBaseParser(Bin, s), RawBaseParser(Oct, s), RawBaseParser(Dec, s);
    assert ParseNumLit(s) == if hex.Some? then hex else if bin.Some? then bin else if oct.Some? then oct else dec;
    match nb
    case Hex =>
    case Bin => assert TriedBefore(Hex, nb);
    case Oct => assert TriedBefore(Hex, nb) && TriedBefore(Bin, nb);
    case Dec => assert TriedBefore(Hex, nb) && TriedBefore(Bin, nb) && TriedBefore(Oct, nb);
  }

  /** The literal is rejected when every form fails. */
  lemma NumLitRejects(s: string)
    requires RawBaseParser(Hex, s).None? && RawBaseParser(Bin, s).None?
    requires RawBaseParser(Oct, s).None? && RawBaseParser(Dec, s).None?
    ensures ParseNumLit(s).None?
  {
  }

  /** A form whose prefix is absent fails. */
  lemma PrefixMismatch(nb: NumBase, s: string)
    requires Just(Prefix(nb), s).None?
    ensures RawBaseParser(nb, s).None?
  {
  }

  /** A decimal-looking input never matches a prefixed form, because the prefix letter is not a decimal digit. */
  lemma PrefixedFormsFail(s: string)
    requires StartsWithDigit(10, s)
    requires |s| >= 2 && s[0] == '0' ==> IsDigit(10, s[1]) || !IsDigit(36, s[1])
    ensures RawBaseParser(Hex, s).None? && RawBaseParser(Bin, s).None? && RawBaseParser(Oct, s).None?
  {
    if |s| >= 2 {
      assert s[..2][0] == s[0] && s[..2][1] == s[1];
    }
    assert Just("0x", s).None?;
    assert Just("0b", s).None?;
    assert Just("0o", s).None?;
    PrefixMismatch(Hex, s);
    PrefixMismatch(Bin, s);
    PrefixMismatch(Oct, s);
  }

  lemma IntegerPartOfConcat(nb: NumBase, z: string, i: string, rest: string)
    requires AllZeros(z) && IsIntText(RadixOf(nb), i) && i[0] != '0'
    requires !StartsWithDigit(RadixOf(nb), rest)
    ensures IntegerPart(nb, Prefix(nb) + z + i + rest) == Some((i, rest))
  {
    var s := Prefix(nb) + z + i + rest;
    assert s == Prefix(nb) + (z + (i + rest));
    JustOfConcat(Prefix(nb), z + (i + rest));
    SkipZerosOfConcat(z, i + rest);
    TextIntOfConcat(RadixOf(nb), i, rest);
  }

  /**
    A literal without a fraction: any prefix form, any number of leading
    zeros, then digits of the radix. The value is the digits' value and the
    parser stops right after the last digit.
   */
  lemma ParseIntegerLiteral(nb: NumBase, z: string, i: string, rest: string, s: string)
    requires AllZeros(z) && IsIntText(RadixOf(nb), i) && i[0] != '0'
    requires !StartsWithDigit(RadixOf(nb), rest) && NoFraction(rest)
    requires s == Prefix(nb) + z + i + rest
    ensures ParseNumLit(s) == Some((DigitsValue(RadixOf(nb), i) as real, rest))
  {
    IntegerForm(nb, z, i, rest, s);
    EarlierFormsFail(nb, z, i, rest);
    NumLitPicks(nb, s);
  }

  /** The form a literal without a fraction is written in reads it. */
  lemma IntegerForm(nb: NumBase, z: string, i: string, rest: string, s: string)
    requires AllZeros(z) && IsIntText(RadixOf(nb), i) && i[0] != '0'
    requires !StartsWithDigit(RadixOf(nb), rest) && NoFraction(rest)
    requires s == Prefix(nb) + z + i + rest
    ensures RawBaseParser(nb, s) == Some((DigitsValue(RadixOf(nb), i) as real, rest))
  {
    IntegerPartOfConcat(nb, z, i, rest);
    NoFractionRead(RadixOf(nb), rest);
    RawWithoutFraction(nb, s, i, rest);
  }

  lemma NoFractionRead(base: Radix, rest: string)
    requires NoFraction(rest)
    ensures Fraction(base, rest).None?
  {
    AtomMismatch(Early, Dot, rest);
  }

  /** An integer part with no fraction after it is the whole literal. */
  lemma RawWithoutFraction(nb: NumBase, s: string, whole: string, afterInt: string)
    requires IntegerPart(nb, s) == Some((whole, afterInt))
    requires Fraction(RadixOf(nb), afterInt).None?
    ensures RawBaseParser(nb, s) == Some((BasedFloatValue(RadixOf(nb), whole, ""), afterInt))
  {
  }

  /** The forms tried before the one a literal is written in all fail on it. */
  lemma EarlierFormsFail(nb: NumBase, z: string, i: string, rest: string)
    requires AllZeros(z) && IsIntText(RadixOf(nb), i) && i[0] != '0'
    ensures forall m: NumBase :: TriedBefore(m, nb) ==> RawBaseParser(m, Prefix(nb) + z + i + rest).None?
  {
    forall m: NumBase | TriedBefore(m, nb)
      ensures RawBaseParser(m, Prefix(nb) + z + i + rest).None?
    {
      if nb == Dec {
        DecimalFormFirst(z, i, rest);
      } else {
        PrefixesDiffer(m, nb, z, i, rest);
        PrefixMismatch(m, Prefix(nb) + z + i + rest);
      }
    }
  }

  lemma DecimalFormFirst(z: string, i: string, rest: string)
    requires AllZeros(z) && IsIntText(10, i) && i[0] != '0'
    ensures var s := Prefix(Dec) + z + i + rest;
      RawBaseParser(Hex, s).None? && RawBaseParser(Bin, s).None? && RawBaseParser(Oct, s).None?
  {
    DecimalText(z, i, rest);
    PrefixedFormsFail(Prefix(Dec) + z + i + rest);
  }

  /** Zeros, then digits that do not start with zero: a decimal-looking text whose second character is no prefix letter. */
  lemma DecimalText(z: string, i: string, rest: string)
    requires AllZeros(z) && IsIntText(10, i) && i[0] != '0'
    ensures var s := Prefix(Dec) + z + i + rest;
      StartsWithDigit(10, s) && (|s| >= 2 && s[0] == '0' ==> IsDigit(10, s[1]) || !IsDigit(36, s[1]))
  {
    var s := Prefix(Dec) + z + i + rest;
    assert s == z + (i + rest);
    if |z| > 0 {
      assert s[0] == z[0];
      if |z| >= 2 {
        assert s[1] == z[1];
      } else {
        assert s[1] == i[0];
      }
    } else {
      assert s[0] == i[0];
    }
  }

  /** Two different prefixes differ in their second character. */
  lemma PrefixesDiffer(m: NumBase, nb: NumBase, z: string, i: string, rest: string)
    requires m != nb && m != Dec && nb != Dec
    ensures Just(Prefix(m), Prefix(nb) + z + i + rest).None?
  {
    var s := Prefix(nb) + z + i + rest;
    assert s[..2][1] == Prefix(nb)[1];
  }

  /**
    A literal with a fraction in radix two, eight or ten: the dot may be
    surrounded by whitespace, and the value is the integer part plus the
    fraction's digits shifted behind the point.
   */
  lemma ParseFractionLiteral(nb: NumBase, z: string, i: string, ws1: string, ws2: string, f: string, rest: string)
    requires nb != Hex
    requires AllZeros(z) && IsIntText(RadixOf(nb), i) && i[0] != '0'
    requires AllWhitespace(ws1) && AllWhitespace(ws2)
    requires IsIntText(RadixOf(nb), f) && IntBoundary(RadixOf(nb), f, rest)
    ensures ParseNumLit(Prefix(nb) + z + i + ws1 + "." + ws2 + f + rest) == Some((BasedFloatValue(RadixOf(nb), i, f), rest))
  {
    var tail := ws1 + "." + ws2 + (f + rest);
    var s := Prefix(nb) + z + i + tail;
    assert s == Prefix(nb) + z + i + ws1 + "." + ws2 + f + rest;
    assert IntegerPart(nb, s) == Some((i, tail)) by {
      FractionTail(RadixOf(nb), ws1, ws2, f, rest);
      IntegerPartOfConcat(nb, z, i, tail);
    }
    assert Fraction(RadixOf(nb), tail) == Some((f, rest)) by {
      FractionTail(RadixOf(nb), ws1, ws2, f, rest);
    }
    assert RawBaseParser(nb, s) == Some((BasedFloatValue(RadixOf(nb), i, f), rest));
    EarlierFormsFail(nb, z, i, tail);
    NumLitPicks(nb, s);
  }

  /** Whitespace, a dot, whitespace and a fraction's digits: not a digit in front, and read back as exactly that fraction. */
  lemma FractionTail(base: Radix, ws1: string, ws2: string, f: string, rest: string)
    requires AllWhitespace(ws1) && AllWhitespace(ws2)
    requires IsIntText(base, f) && IntBoundary(base, f, rest)
    ensures !StartsWithDigit(base, ws1 + "." + ws2 + (f + rest))
    ensures Fraction(base, ws1 + "." + ws2 + (f + rest)) == Some((f, rest))
  {
    FractionTailStart(base, ws1, ws2, f + rest);
    assert StartsSolid(f + rest) by { assert (f + rest)[0] == f[0]; }
    DotSpelling(ws1, ws2, f + rest);
    AtomPaddingPolicy(Early, Dot, ws1, ws2, f + rest);
    TextIntOfConcat(base, f, rest);
  }

  lemma FractionTailStart(base: Radix, ws1: string, ws2: string, t: string)
    requires AllWhitespace(ws1)
    ensures !StartsWithDigit(base, ws1 + "." + ws2 + t)
  {
    var tail := ws1 + "." + ws2 + t;
    if |ws1| > 0 { assert tail[0] == ws1[0]; } else { assert tail[0] == '.'; }
  }

  lemma DotSpelling(ws1: string, ws2: string, t: string)
    ensures ws1 + Spelling(Dot) + ws2 + t == ws1 + "." + ws2 + t
  {
    assert Spelling(Dot) == ".";
  }

  /** Round trip: a positive number written in any of the four forms parses back to itself. */
  lemma NumRoundTrip(nb: NumBase, n: nat, rest: string)
    requires n > 0
    requires !StartsWithDigit(RadixOf(nb), rest) && NoFraction(rest)
    ensures ParseNumLit(Prefix(nb) + ToDigits(RadixOf(nb), n) + rest) == Some((n as real, rest))
  {
    ToDigitsCorrect(RadixOf(nb), n);
    NoZeros(Prefix(nb), ToDigits(RadixOf(nb), n), rest);
    ParseIntegerLiteral(nb, "", ToDigits(RadixOf(nb), n), rest, Prefix(nb) + ToDigits(RadixOf(nb), n) + rest);
  }

  /** The decimal form has no prefix: the digits alone parse back. */
  lemma DecimalRoundTrip(n: nat, rest: string)
    requires n > 0
    requires !StartsWithDigit(10, rest) && NoFraction(rest)
    ensures ParseNumLit(ToDigits(10, n) + rest) == Some((n as real, rest))
  {
    ToDigitsCorrect(10, n);
    DecimalDigitsLiteral(ToDigits(10, n), rest);
  }

  lemma DecimalDigitsLiteral(i: string, rest: string)
    requires IsIntText(10, i) && i[0] != '0'
    requires !StartsWithDigit(10, rest) && NoFraction(rest)
    ensures ParseNumLit(i + rest) == Some((DigitsValue(10, i) as real, rest))
  {
    UnprefixedText(i, rest);
    ParseIntegerLiteral(Dec, "", i, rest, i + rest);
  }

  /** The decimal form read as a prefixed form with an empty prefix and no leading zeros. */
  lemma UnprefixedText(i: string, rest: string)
    requires IsIntText(10, i) && !StartsWithDigit(10, rest)
    ensures i + rest == Prefix(Dec) + "" + i + rest
    ensures RadixOf(Dec) == 10 && AllZeros("") && IsIntText(RadixOf(Dec), i) && !StartsWithDigit(RadixOf(Dec), rest)
  {
    assert Prefix(Dec) + "" == "";
  }

  lemma NoZeros(p: string, t: string, rest: string)
    ensures p + "" + t + rest == p + t + rest
  {
  }

  /** A hexadecimal literal with a fraction is rejected by every alternative. */
  lemma HexFractionRejected(z: string, i: string, ws1: string, ws2: string, f: string, rest: string)
    requires AllZeros(z) && IsIntText(16, i) && i[0] != '0'
    requires AllWhitespace(ws1) && AllWhitespace(ws2)
    requires IsIntText(16, f) && IntBoundary(16, f, rest)
    ensures ParseNumLit("0x" + z + i + ws1 + "." + ws2 + f + rest).None?
  {
    var t := z + i + (ws1 + "." + ws2 + (f + rest));
    HexFractionText(z, i, ws1, ws2, f, rest);
    HexFormRefusesFraction(z, i, ws1, ws2, f, rest);
    OnlyHexAfterHexPrefix(t);
    NumLitRejects("0x" + t);
  }

  lemma HexFractionText(z: string, i: string, ws1: string, ws2: string, f: string, rest: string)
    ensures "0x" + (z + i + (ws1 + "." + ws2 + (f + rest))) == "0x" + z + i + ws1 + "." + ws2 + f + rest
  {
    var d := ws1 + "." + ws2;
    Assoc(d, f, rest);
    Assoc(z + i, d, f + rest);
    Assoc("0x", z + i, d + f + rest);
    Assoc("0x" + z, i, d + f + rest);
  }

  lemma HexFormRefusesFraction(z: string, i: string, ws1: string, ws2: string, f: string, rest: string)
    requires AllZeros(z) && IsIntText(16, i) && i[0] != '0'
    requires AllWhitespace(ws1) && AllWhitespace(ws2)
    requires IsIntText(16, f) && IntBoundary(16, f, rest)
    ensures RawBaseParser(Hex, "0x" + (z + i + (ws1 + "." + ws2 + (f + rest)))).None?
  {
    var tail := ws1 + "." + ws2 + (f + rest);
    var s := Prefix(Hex) + z + i + tail;
    assert "0x" + (z + i + tail) == s;
    assert IntegerPart(Hex, s) == Some((i, tail)) by {
      FractionTail(16, ws1, ws2, f, rest);
      IntegerPartOfConcat(Hex, z, i, tail);
    }
    assert Fraction(16, tail).Some? by {
      FractionTail(16, ws1, ws2, f, rest);
    }
  }

  /** Behind `0x` only the hexadecimal form can succeed: the decimal form reads the zero and stops at `x`. */
  lemma OnlyHexAfterHexPrefix(t: string)
    ensures RawBaseParser(Bin, "0x" + t).None? && RawBaseParser(Oct, "0x" + t).None?
    ensures RawBaseParser(Dec, "0x" + t).None?
  {
    HexPrefixNotOther(Bin, t);
    HexPrefixNotOther(Oct, t);
    HexPrefixNotDecimal(t);
  }

  lemma HexPrefixNotOther(m: NumBase, t: string)
    requires m == Bin || m == Oct
    ensures RawBaseParser(m, "0x" + t).None?
  {
    var s := "0x" + t;
    assert s[..2][1] == 'x';
    PrefixMismatch(m, s);
  }

  lemma HexPrefixNotDecimal(t: string)
    ensures RawBaseParser(Dec, "0x" + t).None?
  {
    HexZeroSkipped(t);
    DecimalNeedsDigit("0x" + t);
  }

  /** Skipping zeros in front of `0x` stops at the `x`. */
  lemma HexZeroSkipped(t: string)
    ensures !StartsWithDigit(10, SkipZeros("0x" + t))
  {
    var s := "0x" + t;
    assert s == "0" + s[1..];
    assert s[1..][0] == 'x';
    SkipZerosOfConcat("0", s[1..]);
  }

  /** The decimal form fails when no digit follows the skipped zeros. */
  lemma DecimalNeedsDigit(s: string)
    requires !StartsWithDigit(10, SkipZeros(s))
    ensures RawBaseParser(Dec, s).None?
  {
    DecimalIntegerPartNone(s);
  }

  lemma DecimalIntegerPartNone(s: string)
    requires !StartsWithDigit(10, SkipZeros(s))
    ensures IntegerPart(Dec, s).None?
  {
    assert Prefix(Dec) == "" && RadixOf(Dec) == 10;
    assert Just(Prefix(Dec), s) == Some(s);
    assert TextInt(10, SkipZeros(s)).None?;
  }

  /**
    Zeros alone are not a literal: skipping them leaves nothing for the
    integer part. So `0`, `000` and `0.5` are all rejected.
   */
  lemma ZerosOnlyRejected(z: string, rest: string)
    requires |z| > 0 && AllZeros(z)
    requires !StartsWithDigit(36, rest)
    ensures ParseNumLit(z + rest).None?
  {
    var s := z + rest;
    ZerosNoPrefix(z, rest);
    PrefixMismatch(Hex, s);
    PrefixMismatch(Bin, s);
    PrefixMismatch(Oct, s);
    ZerosNoDigits(z, rest);
    NumLitRejects(s);
  }

  /** Zeros followed by something other than a letter or digit carry no base prefix. */
  lemma ZerosNoPrefix(z: string, rest: string)
    requires |z| > 0 && AllZeros(z)
    requires !StartsWithDigit(36, rest)
    ensures Just(Prefix(Hex), z + rest).None? && Just(Prefix(Bin), z + rest).None? && Just(Prefix(Oct), z + rest).None?
  {
    var s := z + rest;
    if |s| >= 2 {
      if |z| >= 2 {
        assert s[..2][1] == z[1];
      } else {
        assert s[..2][1] == rest[0];
      }
    }
  }

  /** After the zeros are skipped there is no digit left for the decimal form. */
  lemma ZerosNoDigits(z: string, rest: string)
    requires |z| > 0 && AllZeros(z)
    requires !StartsWithDigit(36, rest)
    ensures RawBaseParser(Dec, z + rest).None?
  {
    var s := z + rest;
    assert Just(Prefix(Dec), s) == Some(s);
    SkipZerosOfConcat(z, rest);
  }

  /** Every number literal starts with a decimal digit, whatever its radix. */
  lemma NumLitStartsWithDigit(s: string)
    requires ParseNumLit(s).Some?
    ensures |s| > 0 && '0' <= s[0] <= '9'
  {
    if RawBaseParser(Hex, s).Some? {
      RawBaseStartsWithDigit(Hex, s);
    } else if RawBaseParser(Bin, s).Some? {
      RawBaseStartsWithDigit(Bin, s);
    } else if RawBaseParser(Oct, s).Some? {
      RawBaseStartsWithDigit(Oct, s);
    } else {
      RawBaseStartsWithDigit(Dec, s);
    }
  }
}

=== FILE: number_examples.dfy ===
/**
  The numeric-literal examples of `src/parser/literals/number.rs`, each
  derived from the general lemmas of `NumberLit`.
 */
module NumberExamples {
  import opened Combinators
  import opened NumberLit

  lemma Value123()
    ensures DigitsValue(10, "123") == 123 && DigitsValue(10, "321") == 321
  {
    assert "123"[..2] == "12" && "12"[..1] == "1" && "1"[..0] == "";
    assert "321"[..2] == "32" && "32"[..1] == "3" && "3"[..0] == "";
  }

  /** `based_float_literal_to_value(10, "123", "321")` is 123.321. */
  lemma DecimalValueExample()
    ensures BasedFloatValue(10, "123", "321") == 123.321
  {
    Value123();
    assert Pow(10, 3) == 1000;
  }

  /** Hexadecimal integer parts, with and without a leading zero digit. */
  lemma HexValueExamples()
    ensures BasedFloatValue(16, "ff", "") == 255.0
    ensures BasedFloatValue(16, "0f", "") == 15.0
  {
    assert "ff"[..1] == "f" && "f"[..0] == "";
    assert "0f"[..1] == "0" && "0"[..0] == "";
  }

  /** Sixteen sixteenths: `0x0.f` and `0x0.1` add up to one. */
  lemma HexFractionsSum()
    ensures BasedFloatValue(16, "0", "f") + BasedFloatValue(16, "0", "1") == 1.0
  {
    assert "0"[..0] == "" && "f"[..0] == "" && "1"[..0] == "";
    assert Pow(16, 1) == 16;
  }

  /** `1234.4321` is read in full. */
  lemma ParseDecimalFraction()
    ensures ParseNumLit("1234.4321") == Some((1234.4321, ""))
  {
    DecimalFractionValue();
    DecimalFractionText();
    ParseFractionLiteral(Dec, "", "1234", "", "", "4321", "");
  }

  lemma DecimalFractionValue()
    ensures BasedFloatValue(10, "1234", "4321") == 1234.4321
  {
    assert "1234"[..3] == "123" && "123"[..2] == "12" && "12"[..1] == "1" && "1"[..0] == "";
    assert "4321"[..3] == "432" && "432"[..2] == "43" && "43"[..1] == "4" && "4"[..0] == "";
    assert Pow(10, 4) == 10000;
  }

  lemma DecimalFractionText()
    ensures Prefix(Dec) + "" + "1234" + "" + "." + "" + "4321" + "" == "1234.4321"
    ensures RadixOf(Dec) == 10 && IsIntText(10, "1234") && IsIntText(10, "4321")
  {
  }

  /** Leading zeros are skipped and trailing fraction zeros only scale the fraction: `00743.6400` is 743.64. */
  lemma ParseLeadingZeros()
    ensures ParseNumLit("00743.6400") == Some((743.64, ""))
  {
    LeadingZerosValue();
    LeadingZerosText();
    ParseFractionLiteral(Dec, "00", "743", "", "", "6400", "");
  }

  lemma LeadingZerosValue()
    ensures BasedFloatValue(10, "743", "6400") == 743.64
  {
    assert "743"[..2] == "74" && "74"[..1] == "7" && "7"[..0] == "";
    assert "6400"[..3] == "640" && "640"[..2] == "64" && "64"[..1] == "6" && "6"[..0] == "";
    assert Pow(10, 4) == 10000;
  }

  lemma LeadingZerosText()
    ensures Prefix(Dec) + "00" + "743" + "" + "." + "" + "6400" + "" == "00743.6400"
    ensures RadixOf(Dec) == 10 && IsIntText(10, "743") && IsIntText(10, "6400") && AllZeros("00")
  {
  }

  /** `0b101011.0` is 43: a lone zero is a valid fraction. */
  lemma ParseBinaryWithZeroFraction()
    ensures ParseNumLit("0b101011.0") == Some((43.0, ""))
  {
    BinaryZeroFractionValue();
    BinaryZeroFractionText();
    ParseFractionLiteral(Bin, "", "101011", "", "", "0", "");
  }

  lemma BinaryZeroFractionValue()
    ensures BasedFloatValue(2, "101011", "0") == 43.0
  {
    assert "101011"[..5] == "10101" && "10101"[..4] == "1010" && "1010"[..3] == "101";
    assert "101"[..2] == "10" && "10"[..1] == "1" && "1"[..0] == "" && "0"[..0] == "";
  }

  lemma BinaryZeroFractionText()
    ensures Prefix(Bin) + "" + "101011" + "" + "." + "" + "0" + "" == "0b101011.0"
    ensures RadixOf(Bin) == 2 && IsIntText(2, "101011") && IsIntText(2, "0")
  {
  }

  /** `0xFF3B` is 65339. */
  lemma ParseHexInteger()
    ensures ParseNumLit("0xFF3B") == Some((65339.0, ""))
  {
    assert DigitsValue(16, "FF3B") == 65339 by {
      assert "FF3B"[..3] == "FF3" && "FF3"[..2] == "FF" && "FF"[..1] == "F" && "F"[..0] == "";
    }
    var text := Prefix(Hex) + "" + "FF3B" + "";
    assert text == "0xFF3B";
    assert ParseNumLit(text) == Some((65339.0, "")) by {
      assert IsIntText(16, "FF3B");
      ParseIntegerLiteral(Hex, "", "FF3B", "", text);
    }
  }

  /** `0x123.FF` is rejected: there are no hexadecimal fractions. */
  lemma RejectHexFraction()
    ensures ParseNumLit("0x123.FF").None?
  {
    var text := "0x" + "" + "123" + "" + "." + "" + "FF" + "";
    assert text == "0x123.FF";
    assert ParseNumLit(text).None? by {
      assert IsIntText(16, "123") && IsIntText(16, "FF");
      HexFractionRejected("", "123", "", "", "FF", "");
    }
  }

  /** `0b1013` is 5: the digit 3 is not binary and ends the literal. */
  lemma ParseBinaryStopsAtBadDigit()
    ensures ParseNumLit("0b1013") == Some((5.0, "3"))
  {
    assert DigitsValue(2, "101") == 5 by {
      assert "101"[..2] == "10" && "10"[..1] == "1" && "1"[..0] == "";
    }
    var text := Prefix(Bin) + "" + "101" + "3";
    assert text == "0b1013";
    assert ParseNumLit(text) == Some((5.0, "3")) by {
      assert IsIntText(2, "101");
      assert SkipWhitespace("3") == "3" by { SkipWhitespaceOfSolid("3"); }
      ParseIntegerLiteral(Bin, "", "101", "3", text);
    }
  }

  /** `0b101.103` is 5.5: the fraction stops at the non-binary 3 as well. */
  lemma ParseBinaryFraction()
    ensures ParseNumLit("0b101.103") == Some((5.5, "3"))
  {
    assert BasedFloatValue(2, "101", "10") == 5.5 by {
      assert "101"[..2] == "10" && "10"[..1] == "1" && "1"[..0] == "";
      assert Pow(2, 2) == 4;
    }
    var text := Prefix(Bin) + "" + "101" + "" + "." + "" + "10" + "3";
    assert text == "0b101.103";
    assert ParseNumLit(text) == Some((5.5, "3")) by {
      assert IsIntText(2, "101") && IsIntText(2, "10");
      ParseFractionLiteral(Bin, "", "101", "", "", "10", "3");
    }
  }

  /** Zero skipping as written: `0` and `0.5` leave no digit for the integer part. */
  lemma LoneZeroRejected()
    ensures ParseNumLit("0").None?
    ensures ParseNumLit("0.5").None?
  {
    var zero, half := "0" + "", "0" + ".5";
    assert zero == "0" && half == "0.5";
    assert ParseNumLit(zero).None? by { ZerosOnlyRejected("0", ""); }
    assert ParseNumLit(half).None? by { ZerosOnlyRejected("0", ".5"); }
  }

  /** In `1.05` the fraction is the lone `0`, so the value is 1 and the `5` is left over. */
  lemma FractionStopsAfterZero()
    ensures ParseNumLit("1.05") == Some((1.0, "5"))
  {
    assert BasedFloatValue(10, "1", "0") == 1.0 by {
      assert "1"[..0] == "" && "0"[..0] == "";
    }
    var text := Prefix(Dec) + "" + "1" + "" + "." + "" + "0" + "5";
    assert text == "1.05";
    assert ParseNumLit(text) == Some((1.0, "5")) by {
      assert IsIntText(10, "1") && IsIntText(10, "0");
      ParseFractionLiteral(Dec, "", "1", "", "", "0", "5");
    }
  }
}

=== FILE: statement.dfy ===
/**
  Statements and declarations: `let`, the `;`-terminated statement, code
  scopes, `fn` and `struct` definitions, the `pub` wrapper and the choice of
  top-level statement.

  The early tree and the current crate differ here in three ways: a
  top-level `let` needs no `;` in the early tree and needs one in the
  current crate; only the current crate has `struct` definitions; and type
  annotations are bare identifiers in the early tree (see `Bindings`).

  `CodeScope` belongs to the expression file of the early tree; it is
  defined here because it is made of statements.
 */
module Statements {
  import opened Combinators
  import opened Idents
  import opened SyntaxElements
  import opened Types
  import opened Bindings
  import opened Expressions

  datatype Let = Let(isMut: bool, left: IdentWithOptionalType, right: Expression)

  /** Something that cannot return a value; only `let` so far. */
  datatype Statement = LetStatement(binding: Let)

  /** A block: statements, then exactly one tail expression. */
  datatype CodeScope = CodeScope(statements: seq<Statement>, expr: Expression)

  datatype FnDef = FnDef(name: Ident, params: seq<IdentWithType>, returnType: TypeLiteral, body: CodeScope)

  datatype StructDef = StructDef(name: Ident, fields: seq<IdentWithType>)

  datatype RawTopLevelStatement =
    | TopLet(binding: Let)
    | TopFn(fnDef: FnDef)
    | TopStruct(structDef: StructDef)

  datatype MaybePublic<T> = MaybePublic(isPub: bool, inner: T)

  type TopLevelStatement = MaybePublic<RawTopLevelStatement>

  datatype Ast = Ast(statements: seq<TopLevelStatement>)

  /** `k.padded()` for a keyword atom. */
  function PaddedKeyword(k: KeywordAtom, s: string): (rest: Option<string>)
    ensures rest.Some? ==> IsSuffix(rest.value, s) && |rest.value| < |s|
  {
    var t := SkipWhitespace(s);
    match ParseKeyword(k, t)
    case None => None
    case Some(r) =>
      SuffixTransitive(r, t, s);
      SuffixTransitive(SkipWhitespace(r), r, s);
      Some(SkipWhitespace(r))
  }

  /** `MutModifier.padded().or_not()`: whether `mut` is there, and the input after it. */
  function MutFlag(s: string): (r: (bool, string))
    ensures IsSuffix(r.1, s)
  {
    match PaddedKeyword(MutModifier, s)
    case Some(rest) => (true, rest)
    case None => (false, s)
  }

  /**
    `Let::parser`: the `let` keyword (not padded), an optional padded `mut`,
    a padded optional binding, `=`, and an expression at the minimum
    threshold. No `;` is consumed.
   */
  function ParseLet(snap: Snapshot, s: string): (r: Parsed<Let>)
    ensures r.Some? ==> IsSuffix(r.value.1, s) && |r.value.1| < |s|
  {
    match ParseKeyword(LetKeyword, s)
    case None => None
    case Some(afterLet) =>
      match LetBinding(snap, afterLet)
      case None => None
      case Some(((isMut, left), afterLeft)) =>
        match LetValue(snap, afterLeft)
        case None => None
        case Some((right, rest)) =>
          SuffixTransitive(afterLeft, afterLet, s);
          SuffixTransitive(rest, afterLeft, s);
          Some((Let(isMut, left, right), rest))
  }

  /** The part of a `let` after the keyword and before `=`: the optional `mut` and the binding. */
  function LetBinding(snap: Snapshot, s: string): (r: Parsed<(bool, IdentWithOptionalType)>)
    ensures r.Some? ==> IsSuffix(r.value.1, s)
  {
    var (isMut, afterMut) := MutFlag(s);
    var u := SkipWhitespace(afterMut);
    match ParseIdentWithOptionalType(snap, u)
    case None => None
    case Some((left, rest)) =>
      SuffixTransitive(u, afterMut, s);
      SuffixTransitive(rest, u, s);
      Some(((isMut, left), rest))
  }

  /** The part of a `let` from `=` on: the padded `=` and the expression. */
  function LetValue(snap: Snapshot, s: string): (r: Parsed<Expression>)
    ensures r.Some? ==> IsSuffix(r.value.1, s) && |r.value.1| < |s|
  {
    var v := SkipWhitespace(s);
    match ParseAtom(snap, AssignmentOp, v)
    case None => None
    case Some(afterAssign) =>
      match ParseExpression(afterAssign)
      case None => None
      case Some((right, rest)) =>
        SuffixTransitive(afterAssign, v, s);
        SuffixTransitive(rest, afterAssign, s);
        Some((right, rest))
  }

  /** `Statement::parser`: a `let` and a `;`. */
  function ParseStatement(snap: Snapshot, s: string): (r: Parsed<Statement>)
    ensures r.Some? ==> IsSuffix(r.value.1, s) && |r.value.1| < |s|
  {
    match ParseLet(snap, s)
    case None => None
    case Some((l, afterLet)) =>
      match ParseAtom(snap, Semicolon, afterLet)
      case None => None
      case Some(rest) =>
        SuffixTransitive(rest, afterLet, s);
        Some((LetStatement(l), rest))
  }

  /**
    `Statement::parser().repeated()`: greedy, never fails, and stops at the
    first position where no statement parses; a statement that fails
    half-way gives back what it read.
   */
  function ParseStatements(snap: Snapshot, s: string): (r: (seq<Statement>, string))
    ensures IsSuffix(r.1, s)
    decreases |s|
  {
    match ParseStatement(snap, s)
    case None => ([], s)
    case Some((st, afterFirst)) =>
      var (sts, rest) := ParseStatements(snap, afterFirst);
      SuffixTransitive(rest, afterFirst, s);
      ([st] + sts, rest)
  }

  /** `CodeScope::parser`: `{`, statements, one tail expression, `}`. */
  function ParseScope(snap: Snapshot, s: string): (r: Parsed<CodeScope>)
    ensures r.Some? ==> IsSuffix(r.value.1, s) && |r.value.1| < |s|
  {
    match ParseAtom(snap, LCurly, s)
    case None => None
    case Some(afterOpen) =>
      var (sts, afterStatements) := ParseStatements(snap, afterOpen);
      match ParseExpression(afterStatements)
      case None => None
      case Some((e, afterExpr)) =>
        match ParseAtom(snap, RCurly, afterExpr)
        case None => None
        case Some(rest) =>
          SuffixTransitive(afterStatements, afterOpen, s);
          SuffixTransitive(afterExpr, afterStatements, s);
          SuffixTransitive(rest, afterExpr, s);
          Some((CodeScope(sts, e), rest))
  }

  /**
    `IdentWithType::parser().separated_by(Comma)`, with `.allow_trailing()`
    when `trailing` is set. Zero items when the first binding fails. A comma
    not followed by a binding is given back, unless trailing commas are
    allowed, in which case it stays consumed.
   */
  function ParseBindingList(snap: Snapshot, trailing: bool, s: string): (r: (seq<IdentWithType>, string))
    ensures IsSuffix(r.1, s)
    ensures |r.0| == 0 ==> r.1 == s
  {
    match ParseIdentWithType(snap, s)
    case None => ([], s)
    case Some((b, afterFirst)) =>
      var (bs, rest) := BindingListTail(snap, trailing, afterFirst);
      SuffixTransitive(rest, afterFirst, s);
      ([b] + bs, rest)
  }

  function BindingListTail(snap: Snapshot, trailing: bool, s: string): (r: (seq<IdentWithType>, string))
    ensures IsSuffix(r.1, s)
    decreases |s|
  {
    match ParseAtom(snap, Comma, s)
    case None => ([], s)
    case Some(afterComma) =>
      match ParseIdentWithType(snap, afterComma)
      case None => if trailing then ([], afterComma) else ([], s)
      case Some((b, afterItem)) =>
        var (bs, rest) := BindingListTail(snap, trailing, afterItem);
        SuffixTransitive(rest, afterItem, afterComma);
        SuffixTransitive(rest, afterComma, s);
        ([b] + bs, rest)
  }

  /** The head of `FnDef::parser`: `fn`, whitespace, the name, and the parenthesised parameters. */
  function ParseFnHead(snap: Snapshot, s: string): (r: Parsed<(Ident, seq<IdentWithType>)>)
    ensures r.Some? ==> IsSuffix(r.value.1, s) && |r.value.1| < |s|
  {
    match ParseKeyword(FnKeyword, s)
    case None => None
    case Some(afterFn) =>
      var t := SkipWhitespace(afterFn);
      match ParseIdent(t)
      case None => None
      case Some((name, afterName)) =>
        match ParseAtom(snap, LParen, afterName)
        case None => None
        case Some(afterOpen) =>
          var (params, afterParams) := ParseBindingList(snap, false, afterOpen);
          match ParseAtom(snap, RParen, afterParams)
          case None => None
          case Some(rest) =>
            SuffixTransitive(t, afterFn, s);
            SuffixTransitive(afterName, t, s);
            SuffixTransitive(afterOpen, afterName, s);
            SuffixTransitive(afterParams, afterOpen, s);
            SuffixTransitive(rest, afterParams, s);
            Some(((name, params), rest))
  }

  /** The tail of `FnDef::parser`: a padded `->`, then the return type and the body scope. */
  function ParseFnTail(snap: Snapshot, s: string): (r: Parsed<(TypeLiteral, CodeScope)>)
    ensures r.Some? ==> IsSuffix(r.value.1, s) && |r.value.1| < |s|
  {
    var t := SkipWhitespace(s);
    match ParseAtom(snap, ReturnTypeOp, t)
    case None => None
    case Some(afterArrow) =>
      match FnResult(snap, SkipWhitespace(afterArrow))
      case None => None
      case Some((x, rest)) =>
        SuffixTransitive(afterArrow, t, s);
        SuffixTransitive(SkipWhitespace(afterArrow), afterArrow, s);
        SuffixTransitive(rest, SkipWhitespace(afterArrow), s);
        Some((x, rest))
  }

  /** The return type and the body scope of a function definition. */
  function FnResult(snap: Snapshot, s: string): (r: Parsed<(TypeLiteral, CodeScope)>)
    ensures r.Some? ==> IsSuffix(r.value.1, s) && |r.value.1| < |s|
  {
    match ParseAnnotation(snap, s)
    case None => None
    case Some((ret, afterRet)) =>
      match ParseScope(snap, afterRet)
      case None => None
      case Some((body, rest)) =>
        SuffixTransitive(rest, afterRet, s);
        Some(((ret, body), rest))
  }

  /**
    `FnDef::parser`: `fn`, whitespace, the name, `(`, typed parameters
    separated by commas (no trailing comma), `)`, a padded `->`, the return
    type and the body scope. The arrow and the return type are mandatory.
   */
  function ParseFnDef(snap: Snapshot, s: string): (r: Parsed<FnDef>)
    ensures r.Some? ==> IsSuffix(r.value.1, s) && |r.value.1| < |s|
  {
    match ParseFnHead(snap, s)
    case None => None
    case Some(((name, params), afterHead)) =>
      match ParseFnTail(snap, afterHead)
      case None => None
      case Some(((ret, body), rest)) =>
        SuffixTransitive(rest, afterHead, s);
        Some((FnDef(name, params, ret, body), rest))
  }

  /**
    `StructDef::parser` (current crate only): `struct`, the padded name,
    `{`, typed fields separated by commas with an optional trailing comma,
    `}`.
   */
  function ParseStructDef(s: string): (r: Parsed<StructDef>)
    ensures r.Some? ==> IsSuffix(r.value.1, s) && |r.value.1| < |s|
  {
    match ParseKeyword(StructKeyword, s)
    case None => None
    case Some(afterKeyword) =>
      var t := SkipWhitespace(afterKeyword);
      match ParseIdent(t)
      case None => None
      case Some((name, afterName)) =>
        var u := SkipWhitespace(afterName);
        match ParseAtom(Current, LCurly, u)
        case None => None
        case Some(afterOpen) =>
          var (fields, afterFields) := ParseBindingList(Current, true, afterOpen);
          match ParseAtom(Current, RCurly, afterFields)
          case None => None
          case Some(rest) =>
            SuffixTransitive(t, afterKeyword, s);
            SuffixTransitive(afterName, t, s);
            SuffixTransitive(u, afterName, s);
            SuffixTransitive(afterOpen, u, s);
            SuffixTransitive(afterFields, afterOpen, s);
            SuffixTransitive(rest, afterFields, s);
            Some((StructDef(name, fields), rest))
  }

  /** A top-level `let`: bare in the early tree, followed by `;` in the current crate. */
  function TopLevelLet(snap: Snapshot, s: string): (r: Parsed<RawTopLevelStatement>)
    ensures r.Some? ==> IsSuffix(r.value.1, s) && |r.value.1| < |s| && r.value.0.TopLet?
  {
    match snap
    case Early =>
      (match ParseLet(Early, s)
       case Some((l, rest)) => Some((TopLet(l), rest))
       case None => None)
    case Current =>
      (match ParseStatement(Current, s)
       case Some((st, rest)) => Some((TopLet(st.binding), rest))
       case None => None)
  }

  /**
    The alternatives of `RawTopLevelStatement::parser`, in order: `let`,
    then `fn`, then (current crate only) `struct`; the first that parses
    wins.
   */
  function TopLevelChoice(snap: Snapshot, s: string): (r: Parsed<RawTopLevelStatement>)
    ensures r.Some? ==> IsSuffix(r.value.1, s) && |r.value.1| < |s|
    ensures r.Some? && r.value.0.TopStruct? ==> snap == Current
  {
    match TopLevelLet(snap, s)
    case Some(x) => Some(x)
    case None =>
      match ParseFnDef(snap, s)
      case Some((f, rest)) => Some((TopFn(f), rest))
      case None =>
        if snap == Current then
          match ParseStructDef(s)
          case Some((d, rest)) => Some((TopStruct(d), rest))
          case None => None
        else
          None
  }

  /** `RawTopLevelStatement::parser`: the choice, padded. */
  function ParseRawTopLevel(snap: Snapshot, s: string): (r: Parsed<RawTopLevelStatement>)
    ensures r.Some? ==> IsSuffix(r.value.1, s) && |r.value.1| < |s| && StartsSolid(r.value.1)
  {
    var t := SkipWhitespace(s);
    match TopLevelChoice(snap, t)
    case None => None
    case Some((x, r)) =>
      SuffixTransitive(r, t, s);
      SuffixTransitive(SkipWhitespace(r), r, s);
      Some((x, SkipWhitespace(r)))
  }

  /**
    `MaybePublic::<RawTopLevelStatement>::parser`: an optional `pub`
    keyword (not padded), then the statement. The flag is set exactly when
    the keyword was there, and the statement is what the inner parser reads
    after it.
   */
  function ParseTopLevel(snap: Snapshot, s: string): (r: Parsed<TopLevelStatement>)
    ensures r.Some? ==> IsSuffix(r.value.1, s) && |r.value.1| < |s|
  {
    var (isPub, afterPub) :=
      match ParseKeyword(PubModifier, s)
      case Some(r) => (true, r)
      case None => (false, s);
    match ParseRawTopLevel(snap, afterPub)
    case None => None
    case Some((inner, rest)) =>
      SuffixTransitive(rest, afterPub, s);
      Some((MaybePublic(isPub, inner), rest))
  }

  /**
    `Ast::parser`: top-level statements repeated greedily. It never fails;
    it stops at the first position where no top-level statement parses.
   */
  function ParseAstFrom(snap: Snapshot, s: string): (r: (seq<TopLevelStatement>, string))
    ensures IsSuffix(r.1, s)
    decreases |s|
  {
    match ParseTopLevel(snap, s)
    case None => ([], s)
    case Some((x, afterFirst)) =>
      var (xs, rest) := ParseAstFrom(snap, afterFirst);
      SuffixTransitive(rest, afterFirst, s);
      ([x] + xs, rest)
  }

  function ParseAst(snap: Snapshot, s: string): (r: Parsed<Ast>)
    ensures r.Some?
  {
    var (xs, rest) := ParseAstFrom(snap, s);
    Some((Ast(xs), rest))
  }

  // What each parser's success says about the text it read.

  /** A `let` starts with the keyword, and it is mutable exactly when a padded `mut` follows the keyword. */
  lemma LetShape(snap: Snapshot, s: string)
    requires ParseLet(snap, s).Some?
    ensures ParseKeyword(LetKeyword, s).Some?
    ensures ParseLet(snap, s).value.0.isMut <==> PaddedKeyword(MutModifier, ParseKeyword(LetKeyword, s).value).Some?
  {
    var afterLet := ParseKeyword(LetKeyword, s).value;
    assert LetBinding(snap, afterLet).Some?;
  }

  /** A statement is exactly a `let` followed by a `;`. */
  lemma StatementIsLet(snap: Snapshot, s: string)
    ensures ParseStatement(snap, s).Some?
        <==> ParseLet(snap, s).Some? && ParseAtom(snap, Semicolon, ParseLet(snap, s).value.1).Some?
    ensures ParseStatement(snap, s).Some? ==> ParseStatement(snap, s).value.0 == LetStatement(ParseLet(snap, s).value.0)
  {
    if ParseLet(snap, s).Some? {
      var (l, afterLet) := ParseLet(snap, s).value;
      StatementOfLet(snap, s, l, afterLet);
    }
  }

  lemma StatementOfLet(snap: Snapshot, s: string, l: Let, afterLet: string)
    requires ParseLet(snap, s) == Some((l, afterLet))
    ensures ParseStatement(snap, s) == if ParseAtom(snap, Semicolon, afterLet).Some? then Some((LetStatement(l), ParseAtom(snap, Semicolon, afterLet).value)) else None
  {
  }

  /**
    The repetition of statements is maximal: no statement parses where it
    stops, and it reads none exactly when the first statement fails.
   */
  lemma {:induction false} StatementsMaximal(snap: Snapshot, s: string)
    ensures ParseStatement(snap, ParseStatements(snap, s).1).None?
    ensures |ParseStatements(snap, s).0| == 0 <==> ParseStatement(snap, s).None?
    decreases |s|
  {
    match ParseStatement(snap, s)
    case None =>
      StatementsStop(snap, s);
    case Some((st, after)) =>
      StatementsStep(snap, s, st, after);
      StatementsMaximal(snap, after);
  }

  /** A function definition starts with the `fn` keyword. */
  lemma FnDefShape(snap: Snapshot, s: string)
    requires ParseFnDef(snap, s).Some?
    ensures ParseKeyword(FnKeyword, s).Some?
  {
    assert ParseFnHead(snap, s).Some?;
  }

  /** A top-level `let` starts with the `let` keyword, in both trees. */
  lemma TopLevelLetShape(snap: Snapshot, s: string)
    requires TopLevelLet(snap, s).Some?
    ensures ParseKeyword(LetKeyword, s).Some?
  {
    if snap == Current {
      StatementIsLet(Current, s);
    }
    LetShape(snap, s);
  }

  /** A structure definition starts with the `struct` keyword. */
  lemma StructShape(s: string)
    requires ParseStructDef(s).Some?
    ensures ParseKeyword(StructKeyword, s).Some?
  {
  }

  /**
    Each alternative of the top-level choice starts with its own keyword,
    and a structure is only ever read by the current crate.
   */
  lemma TopLevelChoiceShape(snap: Snapshot, s: string)
    requires TopLevelChoice(snap, s).Some?
    ensures TopLevelChoice(snap, s).value.0.TopLet? ==> ParseKeyword(LetKeyword, s).Some?
    ensures TopLevelChoice(snap, s).value.0.TopFn? ==> ParseKeyword(FnKeyword, s).Some?
    ensures TopLevelChoice(snap, s).value.0.TopStruct? ==> snap == Current && ParseKeyword(StructKeyword, s).Some?
  {
    if TopLevelLet(snap, s).Some? {
      TopLevelLetShape(snap, s);
    } else if ParseFnDef(snap, s).Some? {
      FnDefShape(snap, s);
    } else {
      StructShape(s);
    }
  }

  /**
    A top-level statement is public exactly when the text starts with
    `pub`, and the statement itself is what the raw parser reads after the
    keyword, or from the start when there is none.
   */
  lemma TopLevelShape(snap: Snapshot, s: string)
    requires ParseTopLevel(snap, s).Some?
    ensures ParseTopLevel(snap, s).value.0.isPub <==> ParseKeyword(PubModifier, s).Some?
    ensures var after := if ParseKeyword(PubModifier, s).Some? then ParseKeyword(PubModifier, s).value else s;
            ParseRawTopLevel(snap, after) == Some((ParseTopLevel(snap, s).value.0.inner, ParseTopLevel(snap, s).value.1))
  {
  }

  /**
    The repetition of top-level statements is maximal: none parses where it
    stops, and it reads none exactly when the first one fails.
   */
  lemma {:induction false} AstMaximal(snap: Snapshot, s: string)
    ensures ParseTopLevel(snap, ParseAstFrom(snap, s).1).None?
    ensures |ParseAstFrom(snap, s).0| == 0 <==> ParseTopLevel(snap, s).None?
    decreases |s|
  {
    match ParseTopLevel(snap, s)
    case None =>
      AstStop(snap, s);
    case Some((x, after)) =>
      AstStep(snap, s, x, after);
      AstMaximal(snap, after);
  }

  // One unfolding of each parser, for the proofs about rendered text.

  lemma MutPresent(ws: string, ws2: string, t: string)
    requires AllWhitespace(ws) && AllWhitespace(ws2) && StartsSolid(t) && IdentBoundary(ws2 + t)
    ensures MutFlag(ws + "mut" + ws2 + t) == (true, t)
  {
    assert ws + "mut" + ws2 + t == ws + ("mut" + (ws2 + t));
    SkipWhitespaceOfConcat(ws, "mut" + (ws2 + t));
    KeywordAtomRoundTrip(MutModifier, ws2 + t);
    SkipWhitespaceOfConcat(ws2, t);
  }

  lemma MutAbsent(s: string)
    requires ParseKeyword(MutModifier, SkipWhitespace(s)).None?
    ensures MutFlag(s) == (false, s)
  {
  }

  lemma LetStep(snap: Snapshot, s: string, afterLet: string, isMut: bool, left: IdentWithOptionalType,
                afterLeft: string, right: Expression, rest: string)
    requires ParseKeyword(LetKeyword, s) == Some(afterLet)
    requires LetBinding(snap, afterLet) == Some(((isMut, left), afterLeft))
    requires LetValue(snap, afterLeft) == Some((right, rest))
    ensures ParseLet(snap, s) == Some((Let(isMut, left, right), rest))
  {
  }

  lemma LetBindingStep(snap: Snapshot, s: string, isMut: bool, afterMut: string, left: IdentWithOptionalType, rest: string)
    requires MutFlag(s) == (isMut, afterMut)
    requires ParseIdentWithOptionalType(snap, SkipWhitespace(afterMut)) == Some((left, rest))
    ensures LetBinding(snap, s) == Some(((isMut, left), rest))
  {
  }

  lemma LetValueStep(snap: Snapshot, s: string, afterAssign: string, right: Expression, rest: string)
    requires ParseAtom(snap, AssignmentOp, SkipWhitespace(s)) == Some(afterAssign)
    requires ParseExpression(afterAssign) == Some((right, rest))
    ensures LetValue(snap, s) == Some((right, rest))
  {
  }

  lemma LetNoBinding(snap: Snapshot, s: string, afterLet: string)
    requires ParseKeyword(LetKeyword, s) == Some(afterLet)
    requires ParseIdentWithOptionalType(snap, SkipWhitespace(MutFlag(afterLet).1)).None?
    ensures ParseLet(snap, s).None?
  {
    assert LetBinding(snap, afterLet).None?;
  }

  lemma LetNoExpression(snap: Snapshot, s: string, afterLet: string, left: IdentWithOptionalType, afterLeft: string, afterAssign: string)
    requires ParseKeyword(LetKeyword, s) == Some(afterLet)
    requires LetBinding(snap, afterLet) == Some(((MutFlag(afterLet).0, left), afterLeft))
    requires ParseAtom(snap, AssignmentOp, SkipWhitespace(afterLeft)) == Some(afterAssign)
    requires ParseExpression(afterAssign).None?
    ensures ParseLet(snap, s).None?
  {
    assert LetValue(snap, afterLeft).None?;
  }

  lemma StatementStep(snap: Snapshot, s: string, l: Let, afterLet: string, rest: string)
    requires ParseLet(snap, s) == Some((l, afterLet))
    requires ParseAtom(snap, Semicolon, afterLet) == Some(rest)
    ensures ParseStatement(snap, s) == Some((LetStatement(l), rest))
  {
  }

  lemma StatementNoSemicolon(snap: Snapshot, s: string, l: Let, afterLet: string)
    requires ParseLet(snap, s) == Some((l, afterLet))
    requires ParseAtom(snap, Semicolon, afterLet).None?
    ensures ParseStatement(snap, s).None?
  {
  }

  lemma StatementsStep(snap: Snapshot, s: string, st: Statement, after: string)
    requires ParseStatement(snap, s) == Some((st, after))
    ensures ParseStatements(snap, s) == ([st] + ParseStatements(snap, after).0, ParseStatements(snap, after).1)
  {
  }

  lemma StatementsStop(snap: Snapshot, s: string)
    requires ParseStatement(snap, s).None?
    ensures ParseStatements(snap, s) == ([], s)
  {
  }

  lemma ScopeStep(snap: Snapshot, s: string, afterOpen: string, e: Expression, afterExpr: string, rest: string)
    requires ParseAtom(snap, LCurly, s) == Some(afterOpen)
    requires ParseExpression(ParseStatements(snap, afterOpen).1) == Some((e, afterExpr))
    requires ParseAtom(snap, RCurly, afterExpr) == Some(rest)
    ensures ParseScope(snap, s) == Some((CodeScope(ParseStatements(snap, afterOpen).0, e), rest))
  {
  }

  lemma ScopeNoExpression(snap: Snapshot, s: string, afterOpen: string)
    requires ParseAtom(snap, LCurly, s) == Some(afterOpen)
    requires ParseExpression(ParseStatements(snap, afterOpen).1).None?
    ensures ParseScope(snap, s).None?
  {
  }

  lemma ListFirst(snap: Snapshot, trailing: bool, s: string, b: IdentWithType, after: string)
    requires ParseIdentWithType(snap, s) == Some((b, after))
    ensures ParseBindingList(snap, trailing, s)
         == ([b] + BindingListTail(snap, trailing, after).0, BindingListTail(snap, trailing, after).1)
  {
  }

  lemma ListEmpty(snap: Snapshot, trailing: bool, s: string)
    requires ParseIdentWithType(snap, s).None?
    ensures ParseBindingList(snap, trailing, s) == ([], s)
  {
  }

  lemma TailItem(snap: Snapshot, trailing: bool, s: string, afterComma: string, b: IdentWithType, after: string)
    requires ParseAtom(snap, Comma, s) == Some(afterComma)
    requires ParseIdentWithType(snap, afterComma) == Some((b, after))
    ensures BindingListTail(snap, trailing, s)
         == ([b] + BindingListTail(snap, trailing, after).0, BindingListTail(snap, trailing, after).1)
  {
  }

  lemma TailNoComma(snap: Snapshot, trailing: bool, s: string)
    requires ParseAtom(snap, Comma, s).None?
    ensures BindingListTail(snap, trailing, s) == ([], s)
  {
  }

  lemma TailLoneComma(snap: Snapshot, trailing: bool, s: string, afterComma: string)
    requires ParseAtom(snap, Comma, s) == Some(afterComma)
    requires ParseIdentWithType(snap, afterComma).None?
    ensures BindingListTail(snap, trailing, s) == ([], if trailing then afterComma else s)
  {
  }

  lemma FnHeadStep(snap: Snapshot, s: string, afterFn: string, name: Ident, afterName: string, afterOpen: string, rest: string)
    requires ParseKeyword(FnKeyword, s) == Some(afterFn)
    requires ParseIdent(SkipWhitespace(afterFn)) == Some((name, afterName))
    requires ParseAtom(snap, LParen, afterName) == Some(afterOpen)
    requires ParseAtom(snap, RParen, ParseBindingList(snap, false, afterOpen).1) == Some(rest)
    ensures ParseFnHead(snap, s) == Some(((name, ParseBindingList(snap, false, afterOpen).0), rest))
  {
  }

  lemma FnHeadNoClose(snap: Snapshot, s: string, afterFn: string, name: Ident, afterName: string, afterOpen: string)
    requires ParseKeyword(FnKeyword, s) == Some(afterFn)
    requires ParseIdent(SkipWhitespace(afterFn)) == Some((name, afterName))
    requires ParseAtom(snap, LParen, afterName) == Some(afterOpen)
    requires ParseAtom(snap, RParen, ParseBindingList(snap, false, afterOpen).1).None?
    ensures ParseFnHead(snap, s).None?
    ensures ParseFnDef(snap, s).None?
  {
  }

  lemma FnTailStep(snap: Snapshot, s: string, afterArrow: string, ret: TypeLiteral, body: CodeScope, rest: string)
    requires ParseAtom(snap, ReturnTypeOp, SkipWhitespace(s)) == Some(afterArrow)
    requires FnResult(snap, SkipWhitespace(afterArrow)) == Some(((ret, body), rest))
    ensures ParseFnTail(snap, s) == Some(((ret, body), rest))
  {
  }

  lemma FnResultStep(snap: Snapshot, s: string, ret: TypeLiteral, afterRet: string, body: CodeScope, rest: string)
    requires ParseAnnotation(snap, s) == Some((ret, afterRet))
    requires ParseScope(snap, afterRet) == Some((body, rest))
    ensures FnResult(snap, s) == Some(((ret, body), rest))
  {
  }

  lemma FnDefStep(snap: Snapshot, s: string, name: Ident, params: seq<IdentWithType>, afterHead: string,
                  ret: TypeLiteral, body: CodeScope, rest: string)
    requires ParseFnHead(snap, s) == Some(((name, params), afterHead))
    requires ParseFnTail(snap, afterHead) == Some(((ret, body), rest))
    ensures ParseFnDef(snap, s) == Some((FnDef(name, params, ret, body), rest))
  {
  }

  lemma StructStep(s: string, afterKeyword: string, name: Ident, afterName: string, afterOpen: string, rest: string)
    requires ParseKeyword(StructKeyword, s) == Some(afterKeyword)
    requires ParseIdent(SkipWhitespace(afterKeyword)) == Some((name, afterName))
    requires ParseAtom(Current, LCurly, SkipWhitespace(afterName)) == Some(afterOpen)
    requires ParseAtom(Current, RCurly, ParseBindingList(Current, true, afterOpen).1) == Some(rest)
    ensures ParseStructDef(s) == Some((StructDef(name, ParseBindingList(Current, true, afterOpen).0), rest))
  {
  }

  lemma TopLevelOfLet(snap: Snapshot, s: string, x: RawTopLevelStatement, rest: string)
    requires TopLevelLet(snap, s) == Some((x, rest))
    ensures TopLevelChoice(snap, s) == Some((x, rest))
  {
  }

  lemma TopLevelOfFn(snap: Snapshot, s: string, f: FnDef, rest: string)
    requires ParseFnDef(snap, s) == Some((f, rest))
    ensures TopLevelChoice(snap, s) == Some((TopFn(f), rest))
  {
    FnDefShape(snap, s);
    KeywordsExclusive(LetKeyword, FnKeyword, s);
    if TopLevelLet(snap, s).Some? {
      TopLevelLetShape(snap, s);
    }
  }

  lemma TopLevelOfStruct(s: string, d: StructDef, rest: string)
    requires ParseStructDef(s) == Some((d, rest))
    ensures TopLevelChoice(Current, s) == Some((TopStruct(d), rest))
  {
    assert TopLevelLet(Current, s).None? by {
      StructShape(s);
      KeywordsExclusive(LetKeyword, StructKeyword, s);
      if TopLevelLet(Current, s).Some? {
        TopLevelLetShape(Current, s);
      }
    }
    assert ParseFnDef(Current, s).None? by {
      StructShape(s);
      KeywordsExclusive(FnKeyword, StructKeyword, s);
      if ParseFnDef(Current, s).Some? {
        FnDefShape(Current, s);
      }
    }
  }

  lemma RawStep(snap: Snapshot, s: string, x: RawTopLevelStatement, r: string)
    requires TopLevelChoice(snap, SkipWhitespace(s)) == Some((x, r))
    ensures ParseRawTopLevel(snap, s) == Some((x, SkipWhitespace(r)))
  {
  }

  lemma TopLevelStep(snap: Snapshot, s: string, isPub: bool, after: string, x: RawTopLevelStatement, rest: string)
    requires isPub ==> ParseKeyword(PubModifier, s) == Some(after)
    requires !isPub ==> ParseKeyword(PubModifier, s).None? && after == s
    requires ParseRawTopLevel(snap, after) == Some((x, rest))
    ensures ParseTopLevel(snap, s) == Some((MaybePublic(isPub, x), rest))
  {
  }

  lemma AstStep(snap: Snapshot, s: string, x: TopLevelStatement, after: string)
    requires ParseTopLevel(snap, s) == Some((x, after))
    ensures ParseAstFrom(snap, s) == ([x] + ParseAstFrom(snap, after).0, ParseAstFrom(snap, after).1)
  {
  }

  lemma AstStop(snap: Snapshot, s: string)
    requires ParseTopLevel(snap, s).None?
    ensures ParseAstFrom(snap, s) == ([], s)
  {
  }
}

=== FILE: statement_examples.dfy ===
/**
  The statement examples of `src/parser/statement.rs` and
  `erebus_parser/src/statement.rs`, the scope examples of
  `src/parser/expr.rs` and the empty file of `src/parser/ast.rs`. Canonical
  text is read through the round trips of `StatementRender`; text the
  renderer does not write (no spaces around `:` and `=`, a line break in a
  scope) through one unfolding of each parser. The rejections the tests
  assert are stated as failures of the parser concerned.
 */
module StatementExamples {
  import opened Combinators
  import opened Idents
  import opened SyntaxElements
  import opened NumberLit
  import opened StringLiterals
  import opened Types
  import opened Bindings
  import opened Expressions
  import opened ExprRender
  import opened ExprExamples
  import opened Statements
  import opened StatementRender

  /** `123` is rendered as its decimal digits. */
  lemma Show123()
    ensures Show(Num(123)) == "123" && WellPrec(Num(123), MinPrecedence)
  {
    assert ToDigits(10, 123) == "123";
    assert (123 as real).Floor == 123;
  }

  /** A string value with nothing to escape is rendered between quotes as it is. */
  lemma ShowPlainString(t: string)
    requires forall i :: 0 <= i < |t| ==> IsPlain(t[i])
    ensures Show(StringLit(t)) == "\"" + t + "\""
    ensures WellPrec(StringLit(t), MinPrecedence)
  {
    QuotePlain(t);
  }

  /** `let _test = 123`: an immutable binding without annotation, in both snapshots. */
  lemma LetUntypedExample(snap: Snapshot)
    ensures Whole(ParseLet(snap, "let _test = 123")) == Some(Let(false, Untyped(Ident("_test")), Num(123)))
  {
    var l := Let(false, Untyped(Ident("_test")), Num(123));
    Show123();
    assert IsIdentText("_test");
    var text := ShowLet(l) + "";
    assert text == "let _test = 123";
    EndOfInput(MinPrecedence);
    LetRoundTrip(snap, l, "");
  }

  /** The binding `o:String` of the typed example. */
  function TypedO(): IdentWithType {
    IdentWithType(Ident("o"), Named(Ident("String")))
  }

  // Values of string literals are named, so that their renderings are
  // derived once for the name rather than unfolded character by character.

  const HelloTest: string := "helloTest"
  const SimpleLetValue: string := "simple_let"

  lemma HelloShown()
    ensures Show(StringLit(HelloTest)) == "\"" + HelloTest + "\""
    ensures WellPrec(StringLit(HelloTest), MinPrecedence)
  {
    ShowPlainString(HelloTest);
  }

  /** The text of the typed example, put together from its parts. */
  lemma HelloText(end: string)
    requires |end| == 0
    ensures "let" + (" mut " + ("o" + (":" + ("String" + ("=" + (("\"" + HelloTest + "\"") + end))))))
         == "let mut o:String=\"helloTest\""
    ensures IsIdentText("o") && IsIdentText("String") && "String" != "fn"
  {
  }

  // Text the renderer does not write: `let mut name:Type=value`.

  lemma CompactText(name: string, ty: string, v: string, e: string)
    requires |e| == 0
    ensures e + name + ":" + e + ty + (e + v) == name + (":" + (ty + v))
    ensures e + v == v
  {
  }

  /** `name:Type` with no space on either side of the colon. */
  lemma CompactTyped(snap: Snapshot, name: string, ty: string, v: string)
    requires IsIdentText(name) && IsIdentText(ty) && ty != "fn" && TypeBoundary(v)
    ensures ParseIdentWithType(snap, name + (":" + (ty + v))) == Some((IdentWithType(Ident(name), Named(Ident(ty))), v))
  {
    var e: string := [];
    CompactText(name, ty, v, e);
    TypedRoundTrip(snap, IdentWithType(Ident(name), Named(Ident(ty))), e, e, e, v);
  }

  /** A padded `mut` between single spaces. */
  lemma MutThen(t: string)
    requires StartsSolid(t)
    ensures MutFlag(" mut " + t) == (true, t)
  {
    assert " mut " + t == " " + "mut" + " " + t;
    MutPresent(" ", " ", t);
  }

  /** The first character of an identifier is not whitespace. */
  lemma NameSolid(name: string, c: string)
    requires IsIdentText(name)
    ensures SkipWhitespace(name + c) == name + c
  {
    assert (name + c)[0] == name[0];
    SkipWhitespaceOfSolid(name + c);
  }

  /** `mut`, then `name:Type`, read up to what follows the type. */
  lemma MutTyped(snap: Snapshot, name: string, ty: string, v: string)
    requires IsIdentText(name) && IsIdentText(ty) && ty != "fn" && TypeBoundary(v)
    ensures LetBinding(snap, " mut " + (name + (":" + (ty + v))))
         == Some(((true, Typed(IdentWithType(Ident(name), Named(Ident(ty))))), v))
  {
    var t := name + (":" + (ty + v));
    var b := IdentWithType(Ident(name), Named(Ident(ty)));
    MutThen(t);
    CompactTyped(snap, name, ty, v);
    NameSolid(name, ":" + (ty + v));
    OptionalOfTyped(snap, t, b, v);
    LetBindingStep(snap, " mut " + t, true, t, Typed(b), v);
  }

  /** `=` directly followed by an expression. */
  lemma AssignedValue(snap: Snapshot, e: Expression, rest: string)
    requires WellPrec(e, MinPrecedence) && ExprBoundary(rest, MinPrecedence)
    ensures LetValue(snap, "=" + (Show(e) + rest)) == Some((e, AfterExpr(e, rest)))
  {
    EqualsBefore(snap, e, rest);
    ExprRoundTrip(e, MinPrecedence, rest);
    LetValueStep(snap, "=" + (Show(e) + rest), Show(e) + rest, e, AfterExpr(e, rest));
  }

  /** `=` right before an expression is read up to the expression. */
  lemma EqualsBefore(snap: Snapshot, e: Expression, rest: string)
    requires WellPrec(e, MinPrecedence)
    ensures ParseAtom(snap, AssignmentOp, SkipWhitespace("=" + (Show(e) + rest))) == Some(Show(e) + rest)
  {
    var q := Show(e) + rest;
    SkipWhitespaceOfSolid("=" + q);
    ShowStart(e, MinPrecedence);
    assert q[0] == Show(e)[0];
    SkipWhitespaceOfSolid(q);
    PaddedAtomOf(snap, AssignmentOp, q);
  }

  lemma AssignBoundary(x: string)
    ensures TypeBoundary("=" + x)
  {
  }

  /** The `let` keyword followed by a space. */
  lemma LetThen(a: string)
    requires |a| > 0 && a[0] == ' '
    ensures ParseKeyword(LetKeyword, "let" + a) == Some(a)
  {
    KeywordAtomRoundTrip(LetKeyword, a);
  }

  /**
    `let mut name:Type=value`: spaces only after `let` and `mut`; the
    binding is mutable and keeps its annotation.
   */
  lemma CompactTypedLet(snap: Snapshot, name: string, ty: string, e: Expression, rest: string)
    requires IsIdentText(name) && IsIdentText(ty) && ty != "fn"
    requires WellPrec(e, MinPrecedence) && ExprBoundary(rest, MinPrecedence)
    ensures ParseLet(snap, "let" + (" mut " + (name + (":" + (ty + ("=" + (Show(e) + rest)))))))
         == Some((Let(true, Typed(IdentWithType(Ident(name), Named(Ident(ty)))), e), AfterExpr(e, rest)))
  {
    var v := "=" + (Show(e) + rest);
    var a := " mut " + (name + (":" + (ty + v)));
    AssignBoundary(Show(e) + rest);
    MutTyped(snap, name, ty, v);
    AssignedValue(snap, e, rest);
    LetThen(a);
    LetStep(snap, "let" + a, a, true, Typed(IdentWithType(Ident(name), Named(Ident(ty)))), v, e, AfterExpr(e, rest));
  }

  /**
    `let mut o:String="helloTest"`, written without spaces around `:` and
    `=`: `mut` is set, the annotation `String` is kept, and the value is the
    string literal.
   */
  lemma LetTypedExample(snap: Snapshot)
    ensures Whole(ParseLet(snap, "let mut o:String=\"helloTest\""))
         == Some(Let(true, Typed(TypedO()), StringLit("helloTest")))
  {
    var end: string := [];
    HelloShown();
    EndOfInput(MinPrecedence);
    HelloText(end);
    CompactTypedLet(snap, "o", "String", StringLit(HelloTest), end);
  }

  // The rejected `let`s of the tests, each an instance of a general failure.

  /** A keyword glued to the next word is one identifier, so `letmut a = 321` is no `let`. */
  lemma GluedLetKeyword(more: string)
    requires |more| > 0 && IsIdentContinue(more[0])
    ensures ParseKeyword(LetKeyword, "let" + more).None?
  {
    assert KeywordText(LetKeyword) == "let";
    KeywordNeedsBoundary("let", more);
  }

  lemma GluedKeywordRejected(snap: Snapshot, more: string)
    requires |more| > 0 && IsIdentContinue(more[0])
    ensures ParseLet(snap, "let" + more).None?
  {
    GluedLetKeyword(more);
  }

  lemma GluedKeywordExample(snap: Snapshot)
    ensures ParseLet(snap, "letmut a = 321").None?
  {
    var more := "mut a = 321";
    assert "let" + more == "letmut a = 321";
    GluedKeywordRejected(snap, more);
  }

  /** After `let mut` a character that cannot start an identifier leaves no binding, so `let mut 1 = 321` fails. */
  lemma NoBindingRejected(snap: Snapshot, t: string)
    requires |t| > 0 && StartsSolid(t) && !IsIdentStart(t[0])
    ensures ParseLet(snap, "let" + (" mut " + t)).None?
  {
    var a := " mut " + t;
    LetThen(a);
    MutThen(t);
    SkipWhitespaceOfSolid(t);
    NoBindingAt(snap, t);
    LetNoBinding(snap, "let" + a, a);
  }

  lemma NoBindingExample(snap: Snapshot)
    ensures ParseLet(snap, "let mut 1 = 321").None?
  {
    var t := "1 = 321";
    assert "let" + (" mut " + t) == "let mut 1 = 321";
    NoBindingRejected(snap, t);
  }

  /** `==` where `=` belongs: the padded `=` takes the first character and no expression starts with the second. */
  lemma DoubleEqualsText(x: string)
    ensures " == " + x == " " + ("=" + ("= " + x))
    ensures "=" + ("= " + x) == Spelling(AssignmentOp) + ("= " + x)
  {
  }

  lemma DoubleEqualsAtom(snap: Snapshot, x: string)
    ensures ParseAtom(snap, AssignmentOp, SkipWhitespace(" == " + x)) == Some("= " + x)
  {
    DoubleEqualsText(x);
    SkipWhitespaceOfConcat(" ", "=" + ("= " + x));
    PaddedAtomOf(snap, AssignmentOp, "= " + x);
    SkipWhitespaceOfSolid("= " + x);
  }

  lemma SpaceBoundary(rest: string)
    requires |rest| > 0 && rest[0] == ' '
    ensures IdentBoundary(rest) && rest[0] != ':'
  {
  }

  /** A name followed by a space has no annotation. */
  lemma UntypedName(snap: Snapshot, name: string, rest: string)
    requires IsIdentText(name) && |rest| > 0 && rest[0] == ' '
    ensures ParseIdentWithOptionalType(snap, name + rest) == Some((Untyped(Ident(name)), rest))
  {
    SpaceBoundary(rest);
    UntypedRoundTrip(snap, name, rest);
  }

  lemma UntypedBefore(snap: Snapshot, name: string, rest: string)
    requires IsIdentText(name) && |rest| > 0 && rest[0] == ' '
    ensures LetBinding(snap, " mut " + (name + rest)) == Some(((true, Untyped(Ident(name))), rest))
  {
    var t := name + rest;
    MutThen(t);
    NameSolid(name, rest);
    UntypedName(snap, name, rest);
    LetBindingStep(snap, " mut " + t, true, t, Untyped(Ident(name)), rest);
  }

  lemma NoExprAtEquals(x: string)
    ensures ParseExpression("= " + x).None?
  {
  }

  lemma DoubleEqualsRejected(snap: Snapshot, name: string, x: string)
    requires IsIdentText(name)
    ensures ParseLet(snap, "let" + (" mut " + (name + (" == " + x)))).None?
  {
    var a := " mut " + (name + (" == " + x));
    LetThen(a);
    UntypedBefore(snap, name, " == " + x);
    DoubleEqualsAtom(snap, x);
    NoExprAtEquals(x);
    MutThen(name + (" == " + x));
    LetNoExpression(snap, "let" + a, a, Untyped(Ident(name)), " == " + x, "= " + x);
  }

  lemma DoubleEqualsExample(snap: Snapshot)
    ensures ParseLet(snap, "let mut a == 321").None?
  {
    var x := "321";
    assert "let" + (" mut " + ("a" + (" == " + x))) == "let mut a == 321";
    assert IsIdentText("a");
    DoubleEqualsRejected(snap, "a", x);
  }

  // Statements.

  /** `let var = "simple_let";` */
  function SimpleLet(): Statement {
    LetStatement(Let(false, Untyped(Ident("var")), StringLit(SimpleLetValue)))
  }

  lemma SimpleLetShown()
    ensures Show(StringLit(SimpleLetValue)) == "\"" + SimpleLetValue + "\""
    ensures WellPrec(StringLit(SimpleLetValue), MinPrecedence)
  {
    ShowPlainString(SimpleLetValue);
  }

  /** The rendering of an immutable `let` without annotation. */
  lemma UntypedLetText(name: string, e: Expression)
    ensures ShowLet(Let(false, Untyped(Ident(name)), e)) == "let " + name + " = " + Show(e)
    ensures ShowStatement(LetStatement(Let(false, Untyped(Ident(name)), e))) == "let " + name + " = " + Show(e) + ";"
  {
  }

  lemma SimpleLetText(end: string)
    requires |end| == 0
    ensures "let " + "var" + " = " + ("\"" + SimpleLetValue + "\"") + ";" + end == "let var = \"simple_let\";"
    ensures SkipWhitespace(end) == end
  {
    SkipWhitespaceOfSolid(end);
  }

  lemma SimpleLetValid(snap: Snapshot)
    requires WellPrec(StringLit(SimpleLetValue), MinPrecedence)
    ensures ValidLet(snap, SimpleLet().binding)
  {
    assert IsIdentText("var");
  }

  /** `let var = "simple_let";` is one statement, in both snapshots. */
  lemma StatementExample(snap: Snapshot)
    ensures Whole(ParseStatement(snap, "let var = \"simple_let\";")) == Some(SimpleLet())
  {
    var end: string := [];
    SimpleLetShown();
    UntypedLetText("var", StringLit(SimpleLetValue));
    SimpleLetText(end);
    SimpleLetValid(snap);
    StatementRoundTrip(snap, SimpleLet(), end);
  }

  /** A `let` that ends the input is not a statement: the `;` is required. */
  lemma LetWithoutSemicolon(snap: Snapshot, l: Let)
    requires ValidLet(snap, l)
    ensures ParseLet(snap, ShowLet(l)).Some?
    ensures ParseStatement(snap, ShowLet(l)).None?
  {
    var end: string := [];
    EndOfInput(MinPrecedence);
    LetRoundTrip(snap, l, end);
    assert ShowLet(l) + end == ShowLet(l);
    SkipWhitespaceOfSolid(end);
    AtomMismatch(snap, Semicolon, end);
    StatementNoSemicolon(snap, ShowLet(l), l, end);
  }

  function MissingSemicolon(): Let {
    Let(false, Untyped(Ident("missing_semicolon")), Num(1))
  }

  lemma ShowOne()
    ensures Show(Num(1)) == "1" && WellPrec(Num(1), MinPrecedence)
  {
    ShowDigit(1);
  }

  lemma MissingSemicolonLet(snap: Snapshot)
    ensures ShowLet(MissingSemicolon()) == "let missing_semicolon = 1"
    ensures ValidLet(snap, MissingSemicolon())
  {
    ShowOne();
    assert IsIdentText("missing_semicolon");
    UntypedLetText("missing_semicolon", Num(1));
  }

  /** `let missing_semicolon = 1` is a `let` but not a statement. */
  lemma MissingSemicolonExample(snap: Snapshot)
    ensures ParseStatement(snap, "let missing_semicolon = 1").None?
  {
    MissingSemicolonLet(snap);
    LetWithoutSemicolon(snap, MissingSemicolon());
  }
}

=== FILE: statement_render.dfy ===
/**
  Canonical text for statements and declarations, and the round trips that
  read it back: `let`, statements, scopes, parameter and field lists, `fn`
  and `struct` definitions, the `pub` wrapper, and whole files.
 */
module StatementRender {
  import opened Combinators
  import opened Idents
  import opened SyntaxElements
  import opened NumberLit
  import opened Types
  import opened Bindings
  import opened Expressions
  import opened ExprRender
  import opened Statements

  function MutText(isMut: bool): string {
    if isMut then "mut " else ""
  }

  /** `let [mut ]binding = expression`. */
  function ShowLet(l: Let): string {
    "let " + MutText(l.isMut) + ShowOptional(l.left) + " = " + Show(l.right)
  }

  function ShowStatement(st: Statement): string {
    ShowLet(st.binding) + ";"
  }

  /** Each statement followed by one space. */
  function ShowStatements(sts: seq<Statement>): string
    decreases |sts|
  {
    if |sts| == 0 then "" else ShowStatement(sts[0]) + " " + ShowStatements(sts[1..])
  }

  function ShowScope(sc: CodeScope): string {
    "{ " + ShowStatements(sc.statements) + Show(sc.expr) + " }"
  }

  /** Typed bindings separated by `, `. */
  function ShowBindings(bs: seq<IdentWithType>): string {
    if |bs| == 0 then "" else ShowTyped(bs[0]) + ShowMoreBindings(bs[1..])
  }

  function ShowMoreBindings(bs: seq<IdentWithType>): string
    decreases |bs|
  {
    if |bs| == 0 then "" else ", " + ShowTyped(bs[0]) + ShowMoreBindings(bs[1..])
  }

  function ShowFnDef(f: FnDef): string {
    "fn " + f.name.name + "(" + ShowBindings(f.params) + ")" + " -> " + ShowType(f.returnType) + " " + ShowScope(f.body)
  }

  /** A struct definition, with a comma after the last field when there are fields. */
  function ShowStructDef(d: StructDef): string {
    "struct " + d.name.name + " { " + ShowBindings(d.fields) + TrailingComma(|d.fields| > 0) + " }"
  }

  /** A top-level statement: a `let` carries its `;` only in the current crate. */
  function ShowRaw(snap: Snapshot, x: RawTopLevelStatement): string {
    match x
    case TopLet(l) => if snap == Early then ShowLet(l) else ShowLet(l) + ";"
    case TopFn(f) => ShowFnDef(f)
    case TopStruct(d) => ShowStructDef(d)
  }

  function PubText(isPub: bool): string {
    if isPub then "pub " else ""
  }

  function ShowTopLevel(snap: Snapshot, x: TopLevelStatement): string {
    PubText(x.isPub) + ShowRaw(snap, x.inner)
  }

  /** Each top-level statement on a line of its own. */
  function ShowItems(snap: Snapshot, xs: seq<TopLevelStatement>): string
    decreases |xs|
  {
    if |xs| == 0 then "" else ShowTopLevel(snap, xs[0]) + "\n" + ShowItems(snap, xs[1..])
  }

  function ShowAst(snap: Snapshot, a: Ast): string {
    ShowItems(snap, a.statements)
  }

  /**
    A `let` reads back when its binding is valid, its value is an
    expression the engine reads back, and a binding named `mut` is only
    written after the `mut` keyword (otherwise it is taken for the keyword).
   */
  predicate ValidLet(snap: Snapshot, l: Let) {
    ValidOptional(snap, l.left)
    && (!l.isMut ==> l.left.ident.name != "mut")
    && WellPrec(l.right, MinPrecedence)
  }

  predicate ValidStatements(snap: Snapshot, sts: seq<Statement>) {
    forall i :: 0 <= i < |sts| ==> ValidLet(snap, sts[i].binding)
  }

  predicate ValidScope(snap: Snapshot, sc: CodeScope) {
    ValidStatements(snap, sc.statements) && WellPrec(sc.expr, MinPrecedence)
  }

  predicate ValidBindings(snap: Snapshot, bs: seq<IdentWithType>) {
    forall i :: 0 <= i < |bs| ==> ValidTyped(snap, bs[i])
  }

  predicate ValidFnDef(snap: Snapshot, f: FnDef) {
    IsIdentText(f.name.name) && ValidBindings(snap, f.params)
    && ValidAnnotation(snap, f.returnType) && ValidScope(snap, f.body)
  }

  predicate ValidStructDef(d: StructDef) {
    IsIdentText(d.name.name) && ValidBindings(Current, d.fields)
  }

  /** Struct definitions exist only in the current crate. */
  predicate ValidRaw(snap: Snapshot, x: RawTopLevelStatement) {
    match x
    case TopLet(l) => ValidLet(snap, l)
    case TopFn(f) => ValidFnDef(snap, f)
    case TopStruct(d) => snap == Current && ValidStructDef(d)
  }

  predicate ValidItems(snap: Snapshot, xs: seq<TopLevelStatement>) {
    forall i :: 0 <= i < |xs| ==> ValidRaw(snap, xs[i].inner)
  }

  /** What may follow a top-level statement: in the early tree a bare `let` must not run on into its expression. */
  predicate TopBoundary(snap: Snapshot, x: RawTopLevelStatement, rest: string) {
    snap == Early && x.TopLet? ==> ExprBoundary(rest, MinPrecedence)
  }

  // Expressions never start a statement.

  /**
    An identifier at the start of a rendered expression is a call's name,
    so it is followed by `(`.
   */
  lemma {:induction false} ExprIdentHead(e: Expression, p: Precedence, rest: string)
    requires WellPrec(e, p)
    ensures var r := ParseIdent(Show(e) + rest); r.None? || (|r.value.1| > 0 && r.value.1[0] == '(')
    decreases e
  {
    match e
    case BinExpr(op, l, r) =>
      BinShape(op, l, r, rest);
      ExprIdentHead(l, PrecedenceOf(op) + 1, AfterLeft(op, r, rest));
    case NumLit(v) =>
      ShowStart(e, p);
      ToDigitsCorrect(10, v.Floor);
      assert IsDigit(10, (Show(e) + rest)[0]);
    case StringLit(t) =>
      assert (Show(e) + rest)[0] == '"';
    case FnCall(name, args) =>
      var tail := Spelling(LParen) + (ShowArgs(args) + (Spelling(RParen) + rest));
      CallShape(name, args, rest);
      IdentRoundTrip(name.name, tail);
  }

  /** A rendered expression is not a `let`, whatever the identifier in front. */
  lemma LetFailsOnExpr(snap: Snapshot, e: Expression, p: Precedence, rest: string)
    requires WellPrec(e, p)
    ensures ParseLet(snap, Show(e) + rest).None?
    ensures ParseStatement(snap, Show(e) + rest).None?
  {
    var s := Show(e) + rest;
    match ParseKeyword(LetKeyword, s)
    case None =>
    case Some(afterLet) =>
      ExprIdentHead(e, p, rest);
      assert afterLet == ParseIdent(s).value.1;
      NoLetBeforeParen(snap, s, afterLet);
  }

  /** A `let` keyword followed by `(` does not start a `let`. */
  lemma NoLetBeforeParen(snap: Snapshot, s: string, afterLet: string)
    requires ParseKeyword(LetKeyword, s) == Some(afterLet)
    requires |afterLet| > 0 && afterLet[0] == '('
    ensures ParseLet(snap, s).None?
  {
    SkipWhitespaceOfSolid(afterLet);
    assert ParseIdent(afterLet).None?;
    MutAbsent(afterLet);
    TypedNoIdent(snap, afterLet);
    LetNoBinding(snap, s, afterLet);
  }

  // Round trips.

  lemma LetKeywordOf(more: string)
    ensures ParseKeyword(LetKeyword, "let" + (" " + more)) == Some(" " + more)
  {
    KeywordAtomRoundTrip(LetKeyword, " " + more);
  }

  /** `mut` is read exactly when it was written, and a binding named `mut` must come after it. */
  lemma MutOf(l: Let, x: string, y: string)
    requires ValidLet(Early, l) || ValidLet(Current, l)
    requires x == ShowOptional(l.left) + (" " + y)
    ensures StartsSolid(x)
    ensures MutFlag(" " + (MutText(l.isMut) + x)) == (l.isMut, if l.isMut then x else " " + x)
  {
    assert x[0] == l.left.ident.name[0];
    if l.isMut {
      assert MutText(l.isMut) == "mut" + " ";
      Assoc("mut", " ", x);
      Assoc(" ", "mut", " " + x);
      Assoc(" " + "mut", " ", x);
      MutPresent(" ", " ", x);
    } else {
      assert " " + (MutText(l.isMut) + x) == " " + x;
      SkipWhitespaceOfConcat(" ", x);
      assert ParseKeyword(MutModifier, x).None? by {
        BindingNameFirst(l.left, " " + y);
      }
      MutAbsent(" " + x);
    }
  }

  /** The identifier at the front of a rendered binding is its name. */
  lemma BindingNameFirst(o: IdentWithOptionalType, rest: string)
    requires IsIdentText(o.ident.name) && |rest| > 0 && rest[0] == ' '
    ensures ParseIdent(ShowOptional(o) + rest).Some? && ParseIdent(ShowOptional(o) + rest).value.0 == o.ident
  {
    if o.annotation.Some? {
      var t := o.annotation.value;
      var n := o.ident.name;
      Assoc(n + ": ", ShowType(t), rest);
      Assoc(n, ": ", ShowType(t) + rest);
      Assoc(": ", ShowType(t), rest);
      IdentRoundTrip(o.ident.name, ": " + ShowType(t) + rest);
    } else {
      IdentRoundTrip(o.ident.name, rest);
    }
  }

  lemma EqualsBoundary(y: string)
    requires |y| > 0 && y[0] == '='
    ensures BindingBoundary(y)
  {
  }

  /** The optional `mut` and the binding of a rendered `let`, up to the `=`. */
  lemma LetBindingOf(snap: Snapshot, l: Let, y: string)
    requires ValidLet(snap, l) && |y| > 0 && y[0] == '='
    ensures LetBinding(snap, " " + (MutText(l.isMut) + (ShowOptional(l.left) + (" " + y))))
         == Some(((l.isMut, l.left), AfterOptional(l.left, " " + y)))
  {
    var x := ShowOptional(l.left) + (" " + y);
    var afterMut := if l.isMut then x else " " + x;
    MutOf(l, x, y);
    SolidAfterSpace(x);
    LetLeftOf(snap, l, y);
    LetBindingStep(snap, " " + (MutText(l.isMut) + x), l.isMut, afterMut, l.left, AfterOptional(l.left, " " + y));
  }

  lemma SolidAfterSpace(x: string)
    requires StartsSolid(x)
    ensures SkipWhitespace(" " + x) == x && SkipWhitespace(x) == x
  {
    assert AllWhitespace(" ");
    SkipWhitespaceOfConcat(" ", x);
    SkipWhitespaceOfSolid(x);
  }

  /** The binding of a rendered `let` is read up to the `=`. */
  lemma LetLeftOf(snap: Snapshot, l: Let, y: string)
    requires ValidLet(snap, l) && |y| > 0 && y[0] == '='
    ensures ParseIdentWithOptionalType(snap, ShowOptional(l.left) + (" " + y)) == Some((l.left, AfterOptional(l.left, " " + y)))
  {
    EqualsBoundary(y);
    assert AllWhitespace(" ");
    OptionalRoundTrip(snap, l.left, " ", y);
  }

  /** The `=` and the value of a rendered `let`. */
  lemma LetValueOf(snap: Snapshot, left: IdentWithOptionalType, right: Expression, rest: string)
    requires WellPrec(right, MinPrecedence) && ExprBoundary(rest, MinPrecedence)
    ensures LetValue(snap, AfterOptional(left, " " + ("=" + (" " + (Show(right) + rest)))))
         == Some((right, AfterExpr(right, rest)))
  {
    var z := Show(right) + rest;
    var y := "=" + (" " + z);
    ShowStart(right, MinPrecedence);
    AfterOptionalSkip(left, " ", y);
    assert ParseAtom(snap, AssignmentOp, y) == Some(z) by {
      assert Spelling(AssignmentOp) == "=";
      Assoc("=", " ", z);
      AtomThenWhitespace(snap, AssignmentOp, " ", z);
    }
    ExprRoundTrip(right, MinPrecedence, rest);
    LetValueStep(snap, AfterOptional(left, " " + y), z, right, AfterExpr(right, rest));
  }

  lemma LetText(m: string, b: string, e: string, rest: string)
    ensures "let " + m + b + " = " + e + rest == "let" + (" " + (m + (b + (" " + ("=" + (" " + (e + rest)))))))
  {
    Assoc("let " + m + b + " = ", e, rest);
    Assoc("let " + m + b, " = ", e + rest);
    Assoc("let " + m, b, " = " + (e + rest));
    Assoc("let ", m, b + (" = " + (e + rest)));
    assert " = " == " " + "=" + " ";
    Assoc(" " + "=", " ", e + rest);
    Assoc(" ", "=", " " + (e + rest));
    assert "let " == "let" + " ";
    Assoc("let", " ", m + (b + (" = " + (e + rest))));
  }

  /** Round trip for `let`: the parser stops after the value, leaving what the expression engine leaves. */
  lemma LetRoundTrip(snap: Snapshot, l: Let, rest: string)
    requires ValidLet(snap, l) && ExprBoundary(rest, MinPrecedence)
    ensures ParseLet(snap, ShowLet(l) + rest) == Some((l, AfterExpr(l.right, rest)))
  {
    var y := "=" + (" " + (Show(l.right) + rest));
    var more := MutText(l.isMut) + (ShowOptional(l.left) + (" " + y));
    assert ShowLet(l) + rest == "let" + (" " + more) by {
      LetText(MutText(l.isMut), ShowOptional(l.left), Show(l.right), rest);
    }
    LetKeywordOf(more);
    LetBindingOf(snap, l, y);
    LetValueOf(snap, l.left, l.right, rest);
    LetStep(snap, ShowLet(l) + rest, " " + more, l.isMut, l.left, AfterOptional(l.left, " " + y), l.right, AfterExpr(l.right, rest));
  }

  /** The text after an expression when it is `;`, `}` or `)` behind optional whitespace. */
  lemma CloseBoundary(x: string, p: Precedence)
    requires var t := SkipWhitespace(x); |t| > 0 && (t[0] == ';' || t[0] == '}' || t[0] == ')')
    ensures ExprBoundary(x, p)
  {
    var t := SkipWhitespace(x);
    if |x| > 0 && |t| == |x| {
      assert x == t;
    } else if |x| > 0 {
      assert x[..|x| - |t|][0] == x[0];
    }
  }

  /** Round trip for statements: the `let`, its `;` and the whitespace after it. */
  lemma StatementRoundTrip(snap: Snapshot, st: Statement, rest: string)
    requires ValidLet(snap, st.binding)
    ensures ParseStatement(snap, ShowStatement(st) + rest) == Some((st, SkipWhitespace(rest)))
  {
    var l := st.binding;
    var semi := ";" + rest;
    Assoc(ShowLet(l), ";", rest);
    SkipWhitespaceOfSolid(semi);
    CloseBoundary(semi, MinPrecedence);
    LetRoundTrip(snap, l, semi);
    AfterExprSolid(l.right, semi);
    StatementOfLet(snap, ShowLet(l) + semi, l, rest);
  }

  /** A `let` followed directly by `;` is a statement, and the whitespace after the `;` is skipped. */
  lemma StatementOfLet(snap: Snapshot, text: string, l: Let, rest: string)
    requires ParseLet(snap, text) == Some((l, ";" + rest))
    ensures ParseStatement(snap, text) == Some((LetStatement(l), SkipWhitespace(rest)))
  {
    SemicolonOf(snap, rest);
    StatementStep(snap, text, l, ";" + rest, SkipWhitespace(rest));
  }

  lemma SemicolonOf(snap: Snapshot, rest: string)
    ensures ParseAtom(snap, Semicolon, ";" + rest) == Some(SkipWhitespace(rest))
  {
    assert Spelling(Semicolon) == ";";
    assert IsPadded(snap, Semicolon);
    PaddedAtomOf(snap, Semicolon, rest);
  }

  lemma StatementsStart(sts: seq<Statement>, tail: string)
    requires StartsSolid(tail)
    ensures StartsSolid(ShowStatements(sts) + tail)
  {
    if |sts| > 0 {
      assert (ShowStatements(sts) + tail)[0] == 'l';
    }
  }

  lemma StatementThenMore(snap: Snapshot, st: Statement, more: string)
    requires ValidLet(snap, st.binding) && StartsSolid(more)
    ensures ParseStatement(snap, ShowStatement(st) + (" " + more)) == Some((st, more))
  {
    StatementRoundTrip(snap, st, " " + more);
    SkipWhitespaceOfConcat(" ", more);
  }

  /**
    Round trip for a run of statements: every statement is read, and the
    repetition stops at text that is not a statement.
   */
  lemma {:induction false} StatementsRoundTrip(snap: Snapshot, sts: seq<Statement>, tail: string)
    requires ValidStatements(snap, sts) && StartsSolid(tail) && ParseStatement(snap, tail).None?
    ensures ParseStatements(snap, ShowStatements(sts) + tail) == (sts, tail)
    decreases |sts|
  {
    if |sts| == 0 {
      assert ShowStatements(sts) + tail == tail;
      StatementsStop(snap, tail);
    } else {
      var r := ShowStatements(sts[1..]);
      assert ParseStatements(snap, r + tail) == (sts[1..], tail) by {
        assert ValidStatements(snap, sts[1..]) by {
          forall i | 0 <= i < |sts[1..]| ensures ValidLet(snap, sts[1..][i].binding) {
            assert sts[1..][i] == sts[i + 1];
          }
        }
        StatementsRoundTrip(snap, sts[1..], tail);
      }
      StatementsStart(sts[1..], tail);
      StatementsPrepend(snap, r, tail, sts);
    }
  }

  lemma StatementsPrepend(snap: Snapshot, r: string, tail: string, sts: seq<Statement>)
    requires |sts| > 0 && ValidLet(snap, sts[0].binding) && StartsSolid(r + tail)
    requires ParseStatements(snap, r + tail) == (sts[1..], tail)
    ensures ParseStatements(snap, ShowStatement(sts[0]) + " " + r + tail) == (sts, tail)
  {
    StatementHead(snap, sts[0], r, tail);
    StatementsCons(snap, ShowStatement(sts[0]) + " " + r + tail, r + tail, sts, tail);
  }

  lemma StatementHead(snap: Snapshot, st: Statement, r: string, tail: string)
    requires ValidLet(snap, st.binding) && StartsSolid(r + tail)
    ensures ParseStatement(snap, ShowStatement(st) + " " + r + tail) == Some((st, r + tail))
  {
    ExprRender.Regroup(ShowStatement(st), " ", r, tail);
    StatementThenMore(snap, st, r + tail);
  }

  lemma StatementsCons(snap: Snapshot, s: string, more: string, sts: seq<Statement>, tail: string)
    requires |sts| > 0 && ParseStatement(snap, s) == Some((sts[0], more))
    requires ParseStatements(snap, more) == (sts[1..], tail)
    ensures ParseStatements(snap, s) == (sts, tail)
  {
    StatementsStep(snap, s, sts[0], more);
    ConsSplit(sts);
  }

  /** A scope does not see the whitespace in front of it. */
  lemma ScopeSkips(snap: Snapshot, s: string)
    ensures ParseScope(snap, s) == ParseScope(snap, SkipWhitespace(s))
  {
    PaddedAtomSkips(snap, LCurly, s);
  }

  lemma CloseCurlyOf(snap: Snapshot, rest: string)
    ensures ParseAtom(snap, RCurly, "}" + rest) == Some(SkipWhitespace(rest))
  {
    assert Spelling(RCurly) == "}";
    assert IsPadded(snap, RCurly);
    PaddedAtomOf(snap, RCurly, rest);
  }

  /** The tail expression of a rendered scope and the `}` after it. */
  lemma ScopeEnd(snap: Snapshot, e: Expression, rest: string)
    requires WellPrec(e, MinPrecedence)
    ensures var close := " " + ("}" + rest);
      && ParseExpression(Show(e) + close) == Some((e, AfterExpr(e, close)))
      && ParseAtom(snap, RCurly, AfterExpr(e, close)) == Some(SkipWhitespace(rest))
  {
    var close := " " + ("}" + rest);
    assert SkipWhitespace(close) == "}" + rest by {
      SkipWhitespaceOfConcat(" ", "}" + rest);
    }
    assert ParseExpression(Show(e) + close) == Some((e, AfterExpr(e, close))) by {
      CloseBoundary(close, MinPrecedence);
      ExprRoundTrip(e, MinPrecedence, close);
    }
    var afterExpr := AfterExpr(e, close);
    assert SkipWhitespace(afterExpr) == "}" + rest by {
      AfterExprSkip(e, close);
    }
    assert ParseAtom(snap, RCurly, afterExpr) == ParseAtom(snap, RCurly, "}" + rest) by {
      PaddedAtomSkips(snap, RCurly, afterExpr);
    }
    CloseCurlyOf(snap, rest);
  }

  lemma ScopeText(sc: CodeScope, rest: string)
    ensures ShowScope(sc) + rest
         == "{" + " " + (ShowStatements(sc.statements) + (Show(sc.expr) + (" " + ("}" + rest))))
  {
    var st, e := ShowStatements(sc.statements), Show(sc.expr);
    Assoc("{ " + st + e, " }", rest);
    Assoc("{ " + st, e, " }" + rest);
    Assoc("{ ", st, e + (" }" + rest));
    assert " }" == " " + "}";
    Assoc(" ", "}", rest);
    assert "{ " == "{" + " ";
  }

  lemma ScopeOf(snap: Snapshot, s: string, inner: string, t: string, sc: CodeScope, afterExpr: string, rest: string)
    requires ParseAtom(snap, LCurly, s) == Some(inner)
    requires ParseStatements(snap, inner) == (sc.statements, t)
    requires ParseExpression(t) == Some((sc.expr, afterExpr))
    requires ParseAtom(snap, RCurly, afterExpr) == Some(rest)
    ensures ParseScope(snap, s) == Some((sc, rest))
  {
    ScopeStep(snap, s, inner, sc.expr, afterExpr, rest);
  }

  /** Round trip for scopes: statements, the tail expression, `}` and the whitespace after it. */
  /** The `{` of a rendered scope and the statements behind it. */
  lemma ScopeInner(snap: Snapshot, sc: CodeScope, rest: string)
    requires ValidScope(snap, sc)
    ensures var t := Show(sc.expr) + (" " + ("}" + rest));
      var inner := ShowStatements(sc.statements) + t;
      && ParseAtom(snap, LCurly, "{" + " " + inner) == Some(inner)
      && ParseStatements(snap, inner) == (sc.statements, t)
  {
    var close := " " + ("}" + rest);
    var t := Show(sc.expr) + close;
    var inner := ShowStatements(sc.statements) + t;
    ShowStart(sc.expr, MinPrecedence);
    StatementsStart(sc.statements, t);
    assert AllWhitespace(" ");
    assert Spelling(LCurly) == "{";
    AtomThenWhitespace(snap, LCurly, " ", inner);
    LetFailsOnExpr(snap, sc.expr, MinPrecedence, close);
    StatementsRoundTrip(snap, sc.statements, t);
  }

  lemma ScopeRoundTrip(snap: Snapshot, sc: CodeScope, rest: string)
    requires ValidScope(snap, sc)
    ensures ParseScope(snap, ShowScope(sc) + rest) == Some((sc, SkipWhitespace(rest)))
  {
    var close := " " + ("}" + rest);
    var t := Show(sc.expr) + close;
    var inner := ShowStatements(sc.statements) + t;
    ScopeText(sc, rest);
    ScopeInner(snap, sc, rest);
    ScopeEnd(snap, sc.expr, rest);
    ScopeOf(snap, "{" + " " + inner, inner, t, sc, AfterExpr(sc.expr, close), SkipWhitespace(rest));
  }

  // Parameter and field lists.

  lemma TypedText(b: IdentWithType, m: string)
    ensures ShowTyped(b) + m == "" + b.ident.name + ":" + " " + ShowType(b.annotation) + ("" + m)
  {
    var n := b.ident.name;
    assert "" + n == n;
    assert "" + m == m;
    assert ": " == ":" + " ";
    Assoc(n, ":", " ");
  }

  /** A rendered binding reads back when a type boundary follows it. */
  lemma BindingOf(snap: Snapshot, b: IdentWithType, m: string)
    requires ValidTyped(snap, b) && TypeBoundary(m)
    ensures ParseIdentWithType(snap, ShowTyped(b) + m) == Some((b, m))
  {
    TypedText(b, m);
    assert "" + m == m;
    TypedRoundTrip(snap, b, "", " ", "", m);
    AfterTypeSolid(b.annotation, m);
  }

  lemma CommaOf(snap: Snapshot, x: string)
    requires StartsSolid(x)
    ensures ParseAtom(snap, Comma, ", " + x) == Some(x)
  {
    assert Spelling(Comma) == ",";
    assert IsPadded(snap, Comma);
    assert ", " == "," + " ";
    Assoc(",", " ", x);
    AtomThenWhitespace(snap, Comma, " ", x);
  }

  /** A rendered binding starts with its name, which is solid. */
  lemma TypedStart(snap: Snapshot, b: IdentWithType, m: string)
    requires ValidTyped(snap, b)
    ensures StartsSolid(ShowTyped(b) + m)
  {
    assert (ShowTyped(b) + m)[0] == b.ident.name[0];
  }


  /** Text after a binding: either the next `, binding` or the tail. */
  lemma MoreBindingsBoundary(bs: seq<IdentWithType>, tail: string)
    requires TypeBoundary(tail)
    ensures TypeBoundary(ShowMoreBindings(bs) + tail)
  {
    if |bs| > 0 {
      assert (ShowMoreBindings(bs) + tail)[0] == ',';
    }
  }

  lemma MoreText(bs: seq<IdentWithType>, tail: string)
    requires |bs| > 0
    ensures ShowMoreBindings(bs) + tail == ", " + (ShowTyped(bs[0]) + (ShowMoreBindings(bs[1..]) + tail))
  {
    var t, m := ShowTyped(bs[0]), ShowMoreBindings(bs[1..]);
    Assoc(", " + t, m, tail);
    Assoc(", ", t, m + tail);
  }

  lemma TailCons(snap: Snapshot, trailing: bool, s: string, afterComma: string, more: string, bs: seq<IdentWithType>, end: string)
    requires |bs| > 0
    requires ParseAtom(snap, Comma, s) == Some(afterComma)
    requires ParseIdentWithType(snap, afterComma) == Some((bs[0], more))
    requires BindingListTail(snap, trailing, more) == (bs[1..], end)
    ensures BindingListTail(snap, trailing, s) == (bs, end)
  {
    TailItem(snap, trailing, s, afterComma, bs[0], more);
    ConsSplit(bs);
  }

  /**
    Round trip for the `, binding` part of a list: every binding is read,
    and the list ends where it ends after the last one.
   */
  lemma {:induction false} MoreBindingsRoundTrip(snap: Snapshot, trailing: bool, bs: seq<IdentWithType>, tail: string, end: string)
    requires ValidBindings(snap, bs) && TypeBoundary(tail)
    requires BindingListTail(snap, trailing, tail) == ([], end)
    ensures BindingListTail(snap, trailing, ShowMoreBindings(bs) + tail) == (bs, end)
    decreases |bs|
  {
    if |bs| == 0 {
      assert ShowMoreBindings(bs) + tail == tail;
    } else {
      var m := ShowMoreBindings(bs[1..]) + tail;
      var x := ShowTyped(bs[0]) + m;
      assert BindingListTail(snap, trailing, m) == (bs[1..], end) by {
        assert ValidBindings(snap, bs[1..]) by {
          forall i | 0 <= i < |bs[1..]| ensures ValidTyped(snap, bs[1..][i]) {
            assert bs[1..][i] == bs[i + 1];
          }
        }
        MoreBindingsRoundTrip(snap, trailing, bs[1..], tail, end);
      }
      assert ParseAtom(snap, Comma, ", " + x) == Some(x) by {
        assert ValidTyped(snap, bs[0]);
        TypedStart(snap, bs[0], m);
        CommaOf(snap, x);
      }
      assert ParseIdentWithType(snap, x) == Some((bs[0], m)) by {
        assert ValidTyped(snap, bs[0]);
        MoreBindingsBoundary(bs[1..], tail);
        BindingOf(snap, bs[0], m);
      }
      MoreText(bs, tail);
      TailCons(snap, trailing, ", " + x, x, m, bs, end);
    }
  }

  lemma ListCons(snap: Snapshot, trailing: bool, s: string, more: string, bs: seq<IdentWithType>, end: string)
    requires |bs| > 0
    requires ParseIdentWithType(snap, s) == Some((bs[0], more))
    requires BindingListTail(snap, trailing, more) == (bs[1..], end)
    ensures ParseBindingList(snap, trailing, s) == (bs, end)
  {
    ListFirst(snap, trailing, s, bs[0], more);
    ConsSplit(bs);
  }

  /**
    Round trip for a comma-separated list of typed bindings. An empty list
    reads nothing, so the text after it must not start a binding; a
    non-empty list ends where the text after its last binding ends it.
   */
  lemma BindingsRoundTrip(snap: Snapshot, trailing: bool, bs: seq<IdentWithType>, tail: string, end: string)
    requires ValidBindings(snap, bs)
    requires |bs| == 0 ==> ParseIdentWithType(snap, tail).None? && end == tail
    requires |bs| > 0 ==> TypeBoundary(tail) && BindingListTail(snap, trailing, tail) == ([], end)
    ensures ParseBindingList(snap, trailing, ShowBindings(bs) + tail) == (bs, end)
  {
    if |bs| == 0 {
      assert ShowBindings(bs) + tail == tail;
      Statements.ListEmpty(snap, trailing, tail);
    } else {
      var m := ShowMoreBindings(bs[1..]) + tail;
      Assoc(ShowTyped(bs[0]), ShowMoreBindings(bs[1..]), tail);
      assert BindingListTail(snap, trailing, m) == (bs[1..], end) by {
        assert ValidBindings(snap, bs[1..]) by {
          forall i | 0 <= i < |bs[1..]| ensures ValidTyped(snap, bs[1..][i]) {
            assert bs[1..][i] == bs[i + 1];
          }
        }
        MoreBindingsRoundTrip(snap, trailing, bs[1..], tail, end);
      }
      assert ParseIdentWithType(snap, ShowTyped(bs[0]) + m) == Some((bs[0], m)) by {
        assert ValidTyped(snap, bs[0]);
        MoreBindingsBoundary(bs[1..], tail);
        BindingOf(snap, bs[0], m);
      }
      ListCons(snap, trailing, ShowTyped(bs[0]) + m, m, bs, end);
    }
  }

  /** No binding starts at a character that cannot start an identifier. */
  lemma NoBindingAt(snap: Snapshot, s: string)
    requires |s| > 0 && StartsSolid(s) && !IsIdentStart(s[0])
    ensures ParseIdentWithType(snap, s).None?
  {
    SkipWhitespaceOfSolid(s);
    TypedNoIdent(snap, s);
  }

  /** No comma is read at another solid character. */
  lemma NoCommaAt(snap: Snapshot, s: string)
    requires |s| > 0 && StartsSolid(s) && s[0] != ','
    ensures ParseAtom(snap, Comma, s).None?
  {
    SkipWhitespaceOfSolid(s);
    assert Spelling(Comma) == ",";
    assert IsPadded(snap, Comma);
    AtomMismatch(snap, Comma, s);
  }

  /** A closing bracket ends an empty list of bindings and a non-empty one alike. */
  lemma ListEndsAt(snap: Snapshot, trailing: bool, s: string)
    requires |s| > 0 && (s[0] == ')' || s[0] == '}')
    ensures ParseIdentWithType(snap, s).None?
    ensures BindingListTail(snap, trailing, s) == ([], s)
    ensures TypeBoundary(s)
  {
    NoBindingAt(snap, s);
    NoCommaAt(snap, s);
    TailNoComma(snap, trailing, s);
  }

  /** A parameter list as rendered: the bindings, then `)`. */
  lemma ParamsRoundTrip(snap: Snapshot, params: seq<IdentWithType>, t: string)
    requires ValidBindings(snap, params)
    ensures ParseBindingList(snap, false, ShowBindings(params) + (")" + t)) == (params, ")" + t)
  {
    ListEndsAt(snap, false, ")" + t);
    BindingsRoundTrip(snap, false, params, ")" + t, ")" + t);
  }

  /** A list of bindings as rendered, followed by solid text, starts solid. */
  lemma BindingsStartSolid(snap: Snapshot, bs: seq<IdentWithType>, t: string)
    requires ValidBindings(snap, bs) && StartsSolid(t)
    ensures StartsSolid(ShowBindings(bs) + t)
  {
    if |bs| > 0 {
      assert ValidTyped(snap, bs[0]);
      TypedStart(snap, bs[0], ShowMoreBindings(bs[1..]) + t);
      Assoc(ShowTyped(bs[0]), ShowMoreBindings(bs[1..]), t);
    } else {
      assert ShowBindings(bs) + t == t;
    }
  }

  lemma FnKeywordOf(more: string)
    ensures ParseKeyword(FnKeyword, "fn" + (" " + more)) == Some(" " + more)
  {
    KeywordAtomRoundTrip(FnKeyword, " " + more);
  }

  lemma OpenParenOf(snap: Snapshot, p: string)
    requires StartsSolid(p)
    ensures ParseAtom(snap, LParen, "(" + p) == Some(p)
  {
    assert Spelling(LParen) == "(";
    assert IsPadded(snap, LParen);
    AtomOfConcat(snap, LParen, p);
  }

  lemma CloseParenOf(snap: Snapshot, t: string)
    ensures ParseAtom(snap, RParen, ")" + t) == Some(SkipWhitespace(t))
  {
    assert Spelling(RParen) == ")";
    assert IsPadded(snap, RParen);
    PaddedAtomOf(snap, RParen, t);
  }

  lemma FnHeadFrom(snap: Snapshot, s: string, n: string, name: Ident, p: string, params: seq<IdentWithType>, t: string, rest: string)
    requires ParseKeyword(FnKeyword, s) == Some(" " + n)
    requires SkipWhitespace(" " + n) == n
    requires ParseIdent(n) == Some((name, "(" + p))
    requires ParseAtom(snap, LParen, "(" + p) == Some(p)
    requires ParseBindingList(snap, false, p) == (params, ")" + t)
    requires ParseAtom(snap, RParen, ")" + t) == Some(rest)
    ensures ParseFnHead(snap, s) == Some(((name, params), rest))
  {
    FnHeadStep(snap, s, " " + n, name, "(" + p, p, rest);
  }

  /** The head of a rendered function definition: `fn name(params)`. */
  lemma FnHeadOf(snap: Snapshot, name: Ident, params: seq<IdentWithType>, t: string)
    requires IsIdentText(name.name) && ValidBindings(snap, params)
    ensures ParseFnHead(snap, "fn" + (" " + (name.name + ("(" + (ShowBindings(params) + (")" + t))))))
         == Some(((name, params), SkipWhitespace(t)))
  {
    var p := ShowBindings(params) + (")" + t);
    var n := name.name + ("(" + p);
    FnKeywordOf(n);
    SpaceBeforeName(name, "(" + p);
    NameBeforeOpen(name, p);
    OpenBeforeBindings(snap, params, t);
    ParamsRoundTrip(snap, params, t);
    CloseParenOf(snap, t);
    FnHeadFrom(snap, "fn" + (" " + n), n, name, p, params, t, SkipWhitespace(t));
  }

  lemma SpaceBeforeName(name: Ident, after: string)
    requires IsIdentText(name.name)
    ensures SkipWhitespace(" " + (name.name + after)) == name.name + after
  {
    SolidFront(name.name, after);
    assert AllWhitespace(" ");
    SkipWhitespaceOfConcat(" ", name.name + after);
  }

  lemma NameBeforeOpen(name: Ident, p: string)
    requires IsIdentText(name.name)
    ensures ParseIdent(name.name + ("(" + p)) == Some((name, "(" + p))
  {
    assert ("(" + p)[0] == '(';
    IdentRoundTrip(name.name, "(" + p);
  }

  lemma OpenBeforeBindings(snap: Snapshot, params: seq<IdentWithType>, t: string)
    requires ValidBindings(snap, params)
    ensures ParseAtom(snap, LParen, "(" + (ShowBindings(params) + (")" + t))) == Some(ShowBindings(params) + (")" + t))
  {
    BindingsStartSolid(snap, params, ")" + t);
    OpenParenOf(snap, ShowBindings(params) + (")" + t));
  }

  /** A rendered scope starts with its `{`, which ends a type in front of it. */
  lemma ScopeFirst(sc: CodeScope, rest: string)
    ensures |ShowScope(sc) + rest| > 0 && (ShowScope(sc) + rest)[0] == '{'
    ensures TypeBoundary(ShowScope(sc) + rest)
  {
    ScopeText(sc, rest);
  }

  /** After a rendered type and one space, the rendered scope is read. */
  lemma ScopeAfterType(snap: Snapshot, ret: TypeLiteral, body: CodeScope, rest: string)
    requires ValidScope(snap, body)
    ensures ParseScope(snap, AfterType(ret, " " + (ShowScope(body) + rest))) == Some((body, SkipWhitespace(rest)))
  {
    var sc := ShowScope(body) + rest;
    ScopeFirst(body, rest);
    ScopeSkips(snap, AfterType(ret, " " + sc));
    AfterTypeSkip(ret, " ", sc);
    ScopeRoundTrip(snap, body, rest);
  }

  /** The return type and body of a rendered function definition. */
  lemma FnResultOf(snap: Snapshot, ret: TypeLiteral, body: CodeScope, rest: string)
    requires ValidAnnotation(snap, ret) && ValidScope(snap, body)
    ensures FnResult(snap, ShowType(ret) + (" " + (ShowScope(body) + rest))) == Some(((ret, body), SkipWhitespace(rest)))
  {
    var sc := ShowScope(body) + rest;
    ScopeFirst(body, rest);
    assert AllWhitespace(" ");
    AnnotationRoundTrip(snap, ret, " ", sc);
    ScopeAfterType(snap, ret, body, rest);
    FnResultStep(snap, ShowType(ret) + (" " + sc), ret, AfterType(ret, " " + sc), body, SkipWhitespace(rest));
  }

  /** The arrow of a rendered function definition is read, with the space after it. */
  lemma ArrowOf(snap: Snapshot, r: string)
    requires StartsSolid(r)
    ensures StartsSolid("->" + (" " + r))
    ensures ParseAtom(snap, ReturnTypeOp, "->" + (" " + r)) == Some(r)
  {
    assert Spelling(ReturnTypeOp) == "->";
    assert IsPadded(snap, ReturnTypeOp);
    assert AllWhitespace(" ");
    AtomThenWhitespace(snap, ReturnTypeOp, " ", r);
    Assoc("->", " ", r);
  }

  /** The tail of a rendered function definition: `-> Type { ... }`. */
  lemma FnTailOf(snap: Snapshot, ret: TypeLiteral, body: CodeScope, rest: string)
    requires ValidAnnotation(snap, ret) && ValidScope(snap, body)
    ensures StartsSolid("->" + (" " + (ShowType(ret) + (" " + (ShowScope(body) + rest)))))
    ensures ParseFnTail(snap, "->" + (" " + (ShowType(ret) + (" " + (ShowScope(body) + rest)))))
         == Some(((ret, body), SkipWhitespace(rest)))
  {
    var r := ShowType(ret) + (" " + (ShowScope(body) + rest));
    AnnotationStart(snap, ret, " " + (ShowScope(body) + rest));
    ArrowOf(snap, r);
    SkipWhitespaceOfSolid("->" + (" " + r));
    SkipWhitespaceOfSolid(r);
    FnResultOf(snap, ret, body, rest);
    FnTailStep(snap, "->" + (" " + r), r, ret, body, SkipWhitespace(rest));
  }

  lemma FnText(f: FnDef, rest: string)
    ensures ShowFnDef(f) + rest
         == "fn" + (" " + (f.name.name + ("(" + (ShowBindings(f.params) + (")" + (" " + ("->" + (" " + (ShowType(f.returnType) + (" " + (ShowScope(f.body) + rest)))))))))))
  {
    var n, b, t, sc := f.name.name, ShowBindings(f.params), ShowType(f.returnType), ShowScope(f.body);
    var r6 := t + (" " + (sc + rest));
    Assoc("fn " + n + "(" + b + ")" + " -> " + t + " ", sc, rest);
    Assoc("fn " + n + "(" + b + ")" + " -> " + t, " ", sc + rest);
    Assoc("fn " + n + "(" + b + ")" + " -> ", t, " " + (sc + rest));
    Assoc("fn " + n + "(" + b + ")", " -> ", r6);
    Assoc("fn " + n + "(" + b, ")", " -> " + r6);
    Assoc("fn " + n + "(", b, ")" + (" -> " + r6));
    Assoc("fn " + n, "(", b + (")" + (" -> " + r6)));
    Assoc("fn ", n, "(" + (b + (")" + (" -> " + r6))));
    assert " -> " == " " + "->" + " ";
    Assoc(" " + "->", " ", r6);
    Assoc(" ", "->", " " + r6);
    assert "fn " == "fn" + " ";
    Assoc("fn", " ", n + ("(" + (b + (")" + (" -> " + r6)))));
  }

  /** Round trip for function definitions: the definition reads back, and the whitespace after it is skipped. */
  lemma FnDefRoundTrip(snap: Snapshot, f: FnDef, rest: string)
    requires ValidFnDef(snap, f)
    ensures ParseFnDef(snap, ShowFnDef(f) + rest) == Some((f, SkipWhitespace(rest)))
  {
    var tl := "->" + (" " + (ShowType(f.returnType) + (" " + (ShowScope(f.body) + rest))));
    FnTailOf(snap, f.returnType, f.body, rest);
    FnDefHead(snap, f, rest);
    FnDefStep(snap, ShowFnDef(f) + rest, f.name, f.params, tl, f.returnType, f.body, SkipWhitespace(rest));
  }

  /** The head of a rendered definition ends at its arrow. */
  lemma FnDefHead(snap: Snapshot, f: FnDef, rest: string)
    requires ValidFnDef(snap, f)
    ensures ParseFnHead(snap, ShowFnDef(f) + rest)
         == Some(((f.name, f.params), "->" + (" " + (ShowType(f.returnType) + (" " + (ShowScope(f.body) + rest))))))
  {
    var tl := "->" + (" " + (ShowType(f.returnType) + (" " + (ShowScope(f.body) + rest))));
    FnText(f, rest);
    AnnotationStart(snap, f.returnType, " " + (ShowScope(f.body) + rest));
    ArrowOf(snap, ShowType(f.returnType) + (" " + (ShowScope(f.body) + rest)));
    assert AllWhitespace(" ");
    SkipWhitespaceOfConcat(" ", tl);
    FnHeadOf(snap, f.name, f.params, " " + tl);
  }

  // Structure definitions (current crate).

  lemma StructText(d: StructDef, rest: string)
    ensures ShowStructDef(d) + rest
         == "struct" + (" " + (d.name.name + (" " + ("{" + (" " + (ShowBindings(d.fields) + (TrailingComma(|d.fields| > 0) + (" " + ("}" + rest)))))))))
  {
    var n, b, c := d.name.name, ShowBindings(d.fields), TrailingComma(|d.fields| > 0);
    var r3 := b + (c + (" " + ("}" + rest)));
    Assoc("struct " + n + " { " + b + c, " }", rest);
    Assoc("struct " + n + " { " + b, c, " }" + rest);
    Assoc("struct " + n + " { ", b, c + (" }" + rest));
    Assoc("struct " + n, " { ", b + (c + (" }" + rest)));
    Assoc("struct ", n, " { " + (b + (c + (" }" + rest))));
    assert " }" == " " + "}";
    Assoc(" ", "}", rest);
    assert " { " == " " + "{" + " ";
    Assoc(" " + "{", " ", r3);
    Assoc(" ", "{", " " + r3);
    assert "struct " == "struct" + " ";
    Assoc("struct", " ", n + (" { " + r3));
  }

  lemma StructFrom(s: string, n: string, name: Ident, b: string, afterOpen: string, fields: seq<IdentWithType>, afterFields: string, rest: string)
    requires ParseKeyword(StructKeyword, s) == Some(" " + n)
    requires SkipWhitespace(" " + n) == n
    requires ParseIdent(n) == Some((name, " " + b))
    requires SkipWhitespace(" " + b) == b
    requires ParseAtom(Current, LCurly, b) == Some(afterOpen)
    requires ParseBindingList(Current, true, afterOpen) == (fields, afterFields)
    requires ParseAtom(Current, RCurly, afterFields) == Some(rest)
    ensures ParseStructDef(s) == Some((StructDef(name, fields), rest))
  {
    StructStep(s, " " + n, name, " " + b, afterOpen, rest);
  }

  lemma StructKeywordOf(more: string)
    ensures ParseKeyword(StructKeyword, "struct" + (" " + more)) == Some(" " + more)
  {
    KeywordAtomRoundTrip(StructKeyword, " " + more);
  }

  lemma OpenCurlyOf(snap: Snapshot, rest: string)
    ensures ParseAtom(snap, LCurly, "{" + rest) == Some(SkipWhitespace(rest))
  {
    assert Spelling(LCurly) == "{";
    assert IsPadded(snap, LCurly);
    PaddedAtomOf(snap, LCurly, rest);
  }

  /**
    The comma after the last field is taken as a trailing comma: the list
    ends at the `}` behind it.
   */
  lemma TrailingCommaEnd(rest: string)
    ensures TypeBoundary("," + (" " + ("}" + rest)))
    ensures BindingListTail(Current, true, "," + (" " + ("}" + rest))) == ([], "}" + rest)
  {
    var x := "}" + rest;
    CurlyFirst(rest);
    CommaOf(Current, x);
    assert ", " == "," + " ";
    Assoc(",", " ", x);
    NoBindingAt(Current, x);
    TailLoneComma(Current, true, ", " + x, x);
    CommaFirst(" " + x);
  }

  lemma CurlyFirst(rest: string)
    ensures |"}" + rest| > 0 && ("}" + rest)[0] == '}' && StartsSolid("}" + rest)
  {
  }

  lemma CommaFirst(rest: string)
    ensures TypeBoundary("," + rest)
  {
    assert ("," + rest)[0] == ',';
  }

  /** The fields of a rendered structure, up to its `}`. */
  lemma FieldsRoundTrip(fields: seq<IdentWithType>, rest: string)
    requires ValidBindings(Current, fields)
    ensures var l := ShowBindings(fields) + (TrailingComma(|fields| > 0) + (" " + ("}" + rest)));
      ParseBindingList(Current, true, SkipWhitespace(" " + l)) == (fields, "}" + rest)
  {
    var l := ShowBindings(fields) + (TrailingComma(|fields| > 0) + (" " + ("}" + rest)));
    if |fields| == 0 {
      assert l == " " + ("}" + rest);
      assert SkipWhitespace(" " + l) == "}" + rest by {
        assert "  " == " " + " ";
        Assoc(" ", " ", "}" + rest);
        SkipWhitespaceOfConcat("  ", "}" + rest);
      }
      NoBindingAt(Current, "}" + rest);
      BindingsRoundTrip(Current, true, fields, "}" + rest, "}" + rest);
    } else {
      var tail := "," + (" " + ("}" + rest));
      assert l == ShowBindings(fields) + tail;
      assert SkipWhitespace(" " + l) == l by {
        BindingsStartSolid(Current, fields, tail);
        SkipWhitespaceOfConcat(" ", l);
      }
      TrailingCommaEnd(rest);
      BindingsRoundTrip(Current, true, fields, tail, "}" + rest);
    }
  }

  /** The keyword and name of a rendered structure, up to its `{`. */
  lemma StructNameOf(name: Ident, b: string)
    requires IsIdentText(name.name) && StartsSolid(b)
    ensures var n := name.name + (" " + b);
      && ParseKeyword(StructKeyword, "struct" + (" " + n)) == Some(" " + n)
      && SkipWhitespace(" " + n) == n
      && ParseIdent(n) == Some((name, " " + b))
      && SkipWhitespace(" " + b) == b
  {
    var n := name.name + (" " + b);
    StructKeywordOf(n);
    assert n[0] == name.name[0];
    SkipWhitespaceOfConcat(" ", n);
    assert (" " + b)[0] == ' ';
    IdentRoundTrip(name.name, " " + b);
    SkipWhitespaceOfConcat(" ", b);
  }

  /** The braces and fields of a rendered structure. */
  lemma StructBodyOf(fields: seq<IdentWithType>, rest: string)
    requires ValidBindings(Current, fields)
    ensures var l := ShowBindings(fields) + (TrailingComma(|fields| > 0) + (" " + ("}" + rest)));
      && ParseAtom(Current, LCurly, "{" + (" " + l)) == Some(SkipWhitespace(" " + l))
      && ParseBindingList(Current, true, SkipWhitespace(" " + l)) == (fields, "}" + rest)
      && ParseAtom(Current, RCurly, "}" + rest) == Some(SkipWhitespace(rest))
  {
    var l := ShowBindings(fields) + (TrailingComma(|fields| > 0) + (" " + ("}" + rest)));
    OpenCurlyOf(Current, " " + l);
    FieldsRoundTrip(fields, rest);
    CloseCurlyOf(Current, rest);
  }

  /** Round trip for structure definitions, written with a comma after the last field. */
  lemma StructRoundTrip(d: StructDef, rest: string)
    requires ValidStructDef(d)
    ensures ParseStructDef(ShowStructDef(d) + rest) == Some((d, SkipWhitespace(rest)))
  {
    var l := ShowBindings(d.fields) + (TrailingComma(|d.fields| > 0) + (" " + ("}" + rest)));
    var b := "{" + (" " + l);
    var n := d.name.name + (" " + b);
    StructText(d, rest);
    SolidFront("{", " " + l);
    StructNameOf(d.name, b);
    StructBodyOf(d.fields, rest);
    StructFrom(ShowStructDef(d) + rest, n, d.name, b, SkipWhitespace(" " + l), d.fields, "}" + rest, SkipWhitespace(rest));
  }

  // Top-level statements and whole files.

  /** The text a top-level statement leaves: a bare early `let` leaves what its expression leaves. */
  function RawRest(snap: Snapshot, x: RawTopLevelStatement, rest: string): string {
    if snap == Early && x.TopLet? then AfterExpr(x.binding.right, rest) else SkipWhitespace(rest)
  }

  lemma ChoiceOfEarlyLet(l: Let, rest: string)
    requires ValidLet(Early, l) && ExprBoundary(rest, MinPrecedence)
    ensures TopLevelChoice(Early, ShowLet(l) + rest) == Some((TopLet(l), AfterExpr(l.right, rest)))
  {
    LetRoundTrip(Early, l, rest);
    assert TopLevelLet(Early, ShowLet(l) + rest) == Some((TopLet(l), AfterExpr(l.right, rest)));
    TopLevelOfLet(Early, ShowLet(l) + rest, TopLet(l), AfterExpr(l.right, rest));
  }

  lemma ChoiceOfCurrentLet(l: Let, rest: string)
    requires ValidLet(Current, l)
    ensures TopLevelChoice(Current, ShowLet(l) + ";" + rest) == Some((TopLet(l), SkipWhitespace(rest)))
  {
    var s := ShowLet(l) + ";" + rest;
    assert ParseStatement(Current, s) == Some((LetStatement(l), SkipWhitespace(rest))) by {
      assert s == ShowStatement(LetStatement(l)) + rest;
      StatementRoundTrip(Current, LetStatement(l), rest);
    }
    assert TopLevelLet(Current, s) == Some((TopLet(l), SkipWhitespace(rest)));
    TopLevelOfLet(Current, s, TopLet(l), SkipWhitespace(rest));
  }

  lemma ChoiceOfFn(snap: Snapshot, f: FnDef, rest: string)
    requires ValidFnDef(snap, f)
    ensures TopLevelChoice(snap, ShowFnDef(f) + rest) == Some((TopFn(f), SkipWhitespace(rest)))
  {
    FnDefRoundTrip(snap, f, rest);
    TopLevelOfFn(snap, ShowFnDef(f) + rest, f, SkipWhitespace(rest));
  }

  lemma ChoiceOfStruct(d: StructDef, rest: string)
    requires ValidStructDef(d)
    ensures TopLevelChoice(Current, ShowStructDef(d) + rest) == Some((TopStruct(d), SkipWhitespace(rest)))
  {
    StructRoundTrip(d, rest);
    TopLevelOfStruct(ShowStructDef(d) + rest, d, SkipWhitespace(rest));
  }

  /** Round trip for the choice of top-level statement: each form is read by its own alternative. */
  lemma ChoiceRoundTrip(snap: Snapshot, x: RawTopLevelStatement, rest: string)
    requires ValidRaw(snap, x) && TopBoundary(snap, x, rest)
    ensures TopLevelChoice(snap, ShowRaw(snap, x) + rest) == Some((x, RawRest(snap, x, rest)))
  {
    match x
    case TopLet(l) =>
      if snap == Early {
        ChoiceOfEarlyLet(l, rest);
      } else {
        ChoiceOfCurrentLet(l, rest);
      }
    case TopFn(f) =>
      ChoiceOfFn(snap, f, rest);
    case TopStruct(d) =>
      ChoiceOfStruct(d, rest);
  }

  /** The keyword a rendered top-level statement starts with. */
  function RawKeyword(x: RawTopLevelStatement): KeywordAtom {
    match x
    case TopLet(_) => LetKeyword
    case TopFn(_) => FnKeyword
    case TopStruct(_) => StructKeyword
  }

  /** What follows the keyword and its space in a rendered top-level statement. */
  function AfterKeywordText(snap: Snapshot, x: RawTopLevelStatement, rest: string): string {
    match x
    case TopLet(l) =>
      var semi := if snap == Early then "" else ";";
      MutText(l.isMut) + (ShowOptional(l.left) + (" " + ("=" + (" " + (Show(l.right) + (semi + rest))))))
    case TopFn(f) =>
      f.name.name + ("(" + (ShowBindings(f.params) + (")" + (" " + ("->" + (" " + (ShowType(f.returnType) + (" " + (ShowScope(f.body) + rest)))))))))
    case TopStruct(d) =>
      d.name.name + (" " + ("{" + (" " + (ShowBindings(d.fields) + (TrailingComma(|d.fields| > 0) + (" " + ("}" + rest)))))))
  }

  lemma RawText(snap: Snapshot, x: RawTopLevelStatement, rest: string)
    ensures ShowRaw(snap, x) + rest == KeywordText(RawKeyword(x)) + (" " + AfterKeywordText(snap, x, rest))
  {
    match x
    case TopLet(l) =>
      assert KeywordText(LetKeyword) == "let";
      var semi := if snap == Early then "" else ";";
      assert ShowRaw(snap, x) == ShowLet(l) + semi;
      Assoc(ShowLet(l), semi, rest);
      LetText(MutText(l.isMut), ShowOptional(l.left), Show(l.right), semi + rest);
    case TopFn(f) =>
      assert KeywordText(FnKeyword) == "fn";
      FnText(f, rest);
    case TopStruct(d) =>
      assert KeywordText(StructKeyword) == "struct";
      StructText(d, rest);
  }

  /** A rendered top-level statement starts with its keyword, so it does not start with `pub`. */
  lemma RawStartsWithKeyword(snap: Snapshot, x: RawTopLevelStatement, rest: string)
    ensures ParseKeyword(RawKeyword(x), ShowRaw(snap, x) + rest).Some?
    ensures ParseKeyword(PubModifier, ShowRaw(snap, x) + rest).None?
    ensures IsIdentStart((ShowRaw(snap, x) + rest)[0])
  {
    RawText(snap, x, rest);
    var more := AfterKeywordText(snap, x, rest);
    KeywordAtomRoundTrip(RawKeyword(x), " " + more);
    KeywordsExclusive(PubModifier, RawKeyword(x), ShowRaw(snap, x) + rest);
  }

  lemma RawRestSkip(snap: Snapshot, x: RawTopLevelStatement, rest: string)
    ensures SkipWhitespace(RawRest(snap, x, rest)) == SkipWhitespace(rest)
  {
    if snap == Early && x.TopLet? {
      AfterExprSkip(x.binding.right, rest);
    } else {
      SkipWhitespaceOfSolid(SkipWhitespace(rest));
    }
  }

  /** Round trip for a top-level statement behind any whitespace: the padding on both sides is read. */
  lemma RawRoundTrip(snap: Snapshot, x: RawTopLevelStatement, ws: string, rest: string)
    requires ValidRaw(snap, x) && TopBoundary(snap, x, rest) && AllWhitespace(ws)
    ensures ParseRawTopLevel(snap, ws + (ShowRaw(snap, x) + rest)) == Some((x, SkipWhitespace(rest)))
  {
    var text := ShowRaw(snap, x) + rest;
    RawAfterWhitespace(snap, x, ws, rest);
    ChoiceRoundTrip(snap, x, rest);
    RawStep(snap, ws + text, x, RawRest(snap, x, rest));
    RawRestSkip(snap, x, rest);
  }

  lemma RawAfterWhitespace(snap: Snapshot, x: RawTopLevelStatement, ws: string, rest: string)
    requires ValidRaw(snap, x) && AllWhitespace(ws)
    ensures SkipWhitespace(ws + (ShowRaw(snap, x) + rest)) == ShowRaw(snap, x) + rest
  {
    RawStartsWithKeyword(snap, x, rest);
    SkipWhitespaceOfConcat(ws, ShowRaw(snap, x) + rest);
  }

  lemma PubKeywordOf(more: string)
    ensures ParseKeyword(PubModifier, "pub" + (" " + more)) == Some(" " + more)
  {
    KeywordAtomRoundTrip(PubModifier, " " + more);
  }

  lemma TopLevelText(snap: Snapshot, x: TopLevelStatement, rest: string)
    ensures x.isPub ==> ShowTopLevel(snap, x) + rest == "pub" + (" " + (ShowRaw(snap, x.inner) + rest))
    ensures !x.isPub ==> ShowTopLevel(snap, x) + rest == "" + (ShowRaw(snap, x.inner) + rest)
    ensures !x.isPub ==> ShowTopLevel(snap, x) + rest == ShowRaw(snap, x.inner) + rest
  {
    var raw := ShowRaw(snap, x.inner);
    Assoc(PubText(x.isPub), raw, rest);
    if x.isPub {
      assert "pub " == "pub" + " ";
      Assoc("pub", " ", raw + rest);
    } else {
      assert "" + (raw + rest) == raw + rest;
    }
  }

  lemma PubRoundTrip(snap: Snapshot, x: TopLevelStatement, rest: string)
    requires x.isPub && ValidRaw(snap, x.inner) && TopBoundary(snap, x.inner, rest)
    ensures ParseTopLevel(snap, ShowTopLevel(snap, x) + rest) == Some((x, SkipWhitespace(rest)))
  {
    var text := ShowRaw(snap, x.inner) + rest;
    TopLevelText(snap, x, rest);
    PubKeywordOf(text);
    assert AllWhitespace(" ");
    RawRoundTrip(snap, x.inner, " ", rest);
    TopLevelStep(snap, ShowTopLevel(snap, x) + rest, true, " " + text, x.inner, SkipWhitespace(rest));
  }

  lemma BareRoundTrip(snap: Snapshot, x: TopLevelStatement, rest: string)
    requires !x.isPub && ValidRaw(snap, x.inner) && TopBoundary(snap, x.inner, rest)
    ensures ParseTopLevel(snap, ShowTopLevel(snap, x) + rest) == Some((x, SkipWhitespace(rest)))
  {
    var text := ShowRaw(snap, x.inner) + rest;
    TopLevelText(snap, x, rest);
    RawStartsWithKeyword(snap, x.inner, rest);
    assert AllWhitespace("");
    RawRoundTrip(snap, x.inner, "", rest);
    TopLevelStep(snap, ShowTopLevel(snap, x) + rest, false, "" + text, x.inner, SkipWhitespace(rest));
  }

  /** Round trip for a top-level statement with its optional `pub`. */
  lemma TopLevelRoundTrip(snap: Snapshot, x: TopLevelStatement, rest: string)
    requires ValidRaw(snap, x.inner) && TopBoundary(snap, x.inner, rest)
    ensures ParseTopLevel(snap, ShowTopLevel(snap, x) + rest) == Some((x, SkipWhitespace(rest)))
  {
    if x.isPub {
      PubRoundTrip(snap, x, rest);
    } else {
      BareRoundTrip(snap, x, rest);
    }
  }

  /** Text that starts a new top-level statement, or nothing, ends an expression. */
  lemma LetterBoundary(x: string, p: Precedence)
    requires var t := SkipWhitespace(x); |t| == 0 || IsIdentStart(t[0])
    ensures ExprBoundary(x, p)
  {
    var t := SkipWhitespace(x);
    if |x| > 0 && |t| == |x| {
      assert x == t;
    } else if |x| > 0 {
      assert x[..|x| - |t|][0] == x[0];
    }
  }

  /** A rendered file is empty or starts with the letter of a keyword. */
  lemma ItemsStart(snap: Snapshot, xs: seq<TopLevelStatement>)
    ensures var t := ShowItems(snap, xs); |t| == 0 || IsIdentStart(t[0])
  {
    if |xs| > 0 {
      var raw := ShowRaw(snap, xs[0].inner) + ("\n" + ShowItems(snap, xs[1..]));
      RawStartsWithKeyword(snap, xs[0].inner, "\n" + ShowItems(snap, xs[1..]));
      if xs[0].isPub {
        assert ShowItems(snap, xs)[0] == 'p';
      } else {
        assert ShowItems(snap, xs)[0] == raw[0];
      }
    }
  }

  lemma ItemsText(snap: Snapshot, xs: seq<TopLevelStatement>)
    requires |xs| > 0
    ensures ShowItems(snap, xs) == ShowTopLevel(snap, xs[0]) + ("\n" + ShowItems(snap, xs[1..]))
  {
    Assoc(ShowTopLevel(snap, xs[0]), "\n", ShowItems(snap, xs[1..]));
  }

  /** The newline after a top-level statement, and what follows it, is a boundary for it. */
  lemma ItemBoundary(snap: Snapshot, x: RawTopLevelStatement, r: string)
    requires |r| == 0 || IsIdentStart(r[0])
    ensures TopBoundary(snap, x, "\n" + r)
    ensures SkipWhitespace("\n" + r) == r
  {
    assert StartsSolid(r);
    SkipWhitespaceOfConcat("\n", r);
    LetterBoundary("\n" + r, MinPrecedence);
  }

  /** Nothing is a top-level statement at the end of the input. */
  lemma NoTopLevelAtEnd(snap: Snapshot, s: string)
    requires |s| == 0
    ensures ParseTopLevel(snap, s).None?
  {
  }

  lemma AstCons(snap: Snapshot, s: string, more: string, xs: seq<TopLevelStatement>, tail: string)
    requires |xs| > 0 && ParseTopLevel(snap, s) == Some((xs[0], more))
    requires ParseAstFrom(snap, more) == (xs[1..], tail)
    ensures ParseAstFrom(snap, s) == (xs, tail)
  {
    AstStep(snap, s, xs[0], more);
    ConsSplit(xs);
  }

  /** Round trip for a file: every top-level statement is read, up to the end. */
  lemma {:induction false} ItemsRoundTrip(snap: Snapshot, xs: seq<TopLevelStatement>)
    requires ValidItems(snap, xs)
    ensures ParseAstFrom(snap, ShowItems(snap, xs)) == (xs, "")
    decreases |xs|
  {
    if |xs| == 0 {
      NoTopLevelAtEnd(snap, ShowItems(snap, xs));
      AstStop(snap, ShowItems(snap, xs));
    } else {
      var r := ShowItems(snap, xs[1..]);
      assert ParseAstFrom(snap, r) == (xs[1..], "") by {
        assert ValidItems(snap, xs[1..]) by {
          forall i | 0 <= i < |xs[1..]| ensures ValidRaw(snap, xs[1..][i].inner) {
            assert xs[1..][i] == xs[i + 1];
          }
        }
        ItemsRoundTrip(snap, xs[1..]);
      }
      assert ParseTopLevel(snap, ShowTopLevel(snap, xs[0]) + ("\n" + r)) == Some((xs[0], r)) by {
        assert ValidRaw(snap, xs[0].inner);
        ItemsStart(snap, xs[1..]);
        ItemBoundary(snap, xs[0].inner, r);
        TopLevelRoundTrip(snap, xs[0], "\n" + r);
      }
      ItemsText(snap, xs);
      AstCons(snap, ShowTopLevel(snap, xs[0]) + ("\n" + r), r, xs, "");
    }
  }

  /** Round trip for whole files: the parser reads the whole text back into the tree it came from. */
  lemma AstRoundTrip(snap: Snapshot, a: Ast)
    requires ValidItems(snap, a.statements)
    ensures ParseAst(snap, ShowAst(snap, a)) == Some((a, ""))
    ensures Whole(ParseAst(snap, ShowAst(snap, a))) == Some(a)
  {
    ItemsRoundTrip(snap, a.statements);
  }
}

=== FILE: string_lit.dfy ===
/**
  String literals: a double quote, a body of escapes and ordinary
  characters, and a closing double quote.

  The body is a greedy repetition of one element, which is either a
  backslash followed by `n`, a backslash, a double quote or a line break
  (the last contributes nothing: a line continuation), or, when that fails,
  any single character other than a double quote or a line feed. A backslash
  before any other character therefore falls through to the second
  alternative and stands for itself. Both trees of the repository define the
  same parser; they differ only in whether trailing input is accepted, which
  is the choice between the prefix parser and `Whole`.
 */
module StringLiterals {
  import opened Combinators

  /** The character after a backslash: `Some(c)` is emitted, `None` is a line continuation. */
  function Escape(s: string): (r: Parsed<Option<char>>)
    ensures r.Some? ==> IsSuffix(r.value.1, s) && |r.value.1| < |s|
  {
    if |s| > 0 && s[0] == 'n' then Some((Some('\n'), s[1..]))
    else if |s| > 0 && s[0] == '\\' then Some((Some('\\'), s[1..]))
    else if |s| > 0 && s[0] == '"' then Some((Some('"'), s[1..]))
    else match Newline(s)
      case Some(rest) => Some((None, rest))
      case None => None
  }

  /** One body element; it consumes at least one character and emits at most one. */
  function BodyElement(s: string): (r: Parsed<Option<char>>)
    ensures r.Some? ==> IsSuffix(r.value.1, s) && |r.value.1| < |s|
    ensures r.None? <==> |s| == 0 || s[0] == '"' || s[0] == '\n'
  {
    if |s| > 0 && s[0] == '\\' && Escape(s[1..]).Some? then
      var (c, rest) := Escape(s[1..]).value;
      SuffixTransitive(rest, s[1..], s);
      Some((c, rest))
    else if |s| > 0 && s[0] != '"' && s[0] != '\n' then
      Some((Some(s[0]), s[1..]))
    else
      None
  }

  function Emit(c: Option<char>): string {
    match c
    case Some(ch) => [ch]
    case None => []
  }

  /**
    The greedy repetition of body elements. It always succeeds; it stops at
    the first position where no element parses, which is the end of the
    input, a double quote or a raw line feed. The decoded text is never
    longer than the text consumed.
   */
  function Body(s: string): (r: (string, string))
    ensures IsSuffix(r.1, s)
    ensures |r.0| <= |s| - |r.1|
    ensures BodyElement(r.1).None?
  {
    match BodyElement(s)
    case None => ([], s)
    case Some((c, rest)) =>
      var (text, stop) := Body(rest);
      SuffixTransitive(stop, rest, s);
      (Emit(c) + text, stop)
  }

  /**
    `StringLit::parser`: the decoded value and the input after the closing
    quote. A successful parse starts with a quote and is never longer than
    the body it consumed.
   */
  function ParseStringLit(s: string): (r: Parsed<string>)
    ensures r.Some? ==> |s| > 0 && s[0] == '"'
    ensures r.Some? ==> IsSuffix(r.value.1, s) && |r.value.0| + 2 <= |s| - |r.value.1|
  {
    if |s| > 0 && s[0] == '"' then
      var (text, stop) := Body(s[1..]);
      if |stop| > 0 && stop[0] == '"' then
        SuffixTransitive(stop, s[1..], s);
        SuffixTransitive(stop[1..], stop, s);
        Some((text, stop[1..]))
      else
        None
    else
      None
  }

  /** The inverse of decoding: write a value as a literal body, escaping line feeds, backslashes and quotes. */
  function Quote(v: string): string {
    if |v| == 0 then [] else QuoteChar(v[0]) + Quote(v[1..])
  }

  function QuoteChar(c: char): string {
    if c == '\n' then "\\n"
    else if c == '\\' then "\\\\"
    else if c == '"' then "\\\""
    else [c]
  }

  /** `c` needs no escaping inside a literal. */
  predicate IsPlain(c: char) {
    c != '\n' && c != '\\' && c != '"'
  }

  lemma {:induction false} QuoteAppend(a: string, b: string)
    ensures Quote(a + b) == Quote(a) + Quote(b)
  {
    if |a| == 0 {
      assert a + b == b;
    } else {
      assert (a + b)[1..] == a[1..] + b;
      QuoteAppend(a[1..], b);
    }
  }

  /** Text without line feeds, backslashes or quotes is its own literal body. */
  lemma {:induction false} QuotePlain(v: string)
    requires forall i :: 0 <= i < |v| ==> IsPlain(v[i])
    ensures Quote(v) == v
  {
    if |v| > 0 {
      QuotePlain(v[1..]);
      assert v == [v[0]] + v[1..];
    }
  }

  /** One quoted character is one body element that emits exactly that character. */
  lemma ElementOfQuoteChar(c: char, after: string)
    ensures BodyElement(QuoteChar(c) + after) == Some((Some(c), after))
  {
    var s := QuoteChar(c) + after;
    if IsPlain(c) {
      assert s[1..] == after;
    } else {
      assert s[1..] == QuoteChar(c)[1..] + after;
      assert s[1..][1..] == after;
    }
  }

  /** Unfolding the repetition by one element. */
  lemma BodyStep(s: string)
    requires BodyElement(s).Some?
    ensures Body(s) == (Emit(BodyElement(s).value.0) + Body(BodyElement(s).value.1).0, Body(BodyElement(s).value.1).1)
  {
  }

  /** Decoding a quoted body element by element: the quoted text contributes exactly `v`, whatever follows. */
  lemma {:induction false} BodyOfQuoted(v: string, t: string)
    ensures Body(Quote(v) + t) == (v + Body(t).0, Body(t).1)
  {
    if |v| == 0 {
      assert Quote(v) + t == t;
      assert v + Body(t).0 == Body(t).0;
    } else {
      assert v == [v[0]] + v[1..];
      var after := Quote(v[1..]) + t;
      var s := QuoteChar(v[0]) + after;
      assert Quote(v) + t == s;
      ElementOfQuoteChar(v[0], after);
      BodyStep(s);
      BodyOfQuoted(v[1..], t);
      var tail := Body(t);
      assert Body(after) == (v[1..] + tail.0, tail.1);
      assert Body(s) == ([v[0]] + (v[1..] + tail.0), tail.1);
      Assoc([v[0]], v[1..], tail.0);
    }
  }

  /** Decoding stops immediately at a quote, a raw line feed or the end of input. */
  lemma BodyAtStop(t: string)
    requires |t| == 0 || t[0] == '"' || t[0] == '\n'
    ensures Body(t) == ([], t)
  {
  }

  /** A quoted body up to a stop character decodes to exactly the quoted value. */
  lemma BodyOfQuotedToStop(v: string, t: string)
    requires |t| == 0 || t[0] == '"' || t[0] == '\n'
    ensures Body(Quote(v) + t) == (v, t)
  {
    BodyOfQuoted(v, t);
    BodyAtStop(t);
    assert v + [] == v;
  }

  /** A line continuation (backslash, line break) contributes nothing to the value. */
  lemma BodyOfContinuation(nl: string, t: string)
    requires nl == "\n" || nl == "\r\n"
    ensures Body("\\" + nl + t) == Body(t)
  {
    ContinuationElement(nl, t);
    BodyStep("\\" + nl + t);
    assert Emit(None) + Body(t).0 == Body(t).0;
  }

  lemma ContinuationElement(nl: string, t: string)
    requires nl == "\n" || nl == "\r\n"
    ensures BodyElement("\\" + nl + t) == Some((None, t))
  {
    var s := "\\" + nl + t;
    assert s[0] == '\\';
    assert s[1..] == nl + t;
    NewlineEscape(nl, t);
  }

  /** A line break after a backslash is a line continuation. */
  lemma NewlineEscape(nl: string, t: string)
    requires nl == "\n" || nl == "\r\n"
    ensures Escape(nl + t) == Some((None, t))
  {
    if nl == "\n" {
      assert (nl + t)[1..] == t;
    } else {
      assert (nl + t)[2..] == t;
    }
    assert Newline(nl + t) == Some(t);
  }

  /**
    Round trip: quoting any value and parsing it back yields the value and
    leaves the input after the closing quote untouched.
   */
  lemma StringRoundTrip(v: string, rest: string)
    ensures ParseStringLit("\"" + Quote(v) + "\"" + rest) == Some((v, rest))
  {
    QuotedText(v, "\"", rest);
    BodyOfQuotedToStop(v, "\"" + rest);
    assert ("\"" + rest)[1..] == rest;
  }

  /** After the opening quote comes the quoted body and then the text behind it. */
  lemma QuotedText(v: string, c: string, rest: string)
    ensures var s := "\"" + Quote(v) + c + rest; |s| > 0 && s[0] == '"' && s[1..] == Quote(v) + (c + rest)
  {
    var s := "\"" + Quote(v) + c + rest;
    assert s == "\"" + (Quote(v) + (c + rest));
  }

  /** A backslash before a character that is not an escape is kept as an ordinary character. */
  lemma BackslashFallsThrough(c: char, t: string)
    requires c != 'n' && c != '\\' && c != '"' && !IsLineBreak(c)
    ensures BodyElement("\\" + [c] + t) == Some((Some('\\'), [c] + t))
  {
    var s := "\\" + [c] + t;
    assert s[1..] == [c] + t;
  }

  /** A literal that runs to the end of the input without a closing quote is rejected. */
  lemma UnterminatedRejected(v: string)
    ensures ParseStringLit("\"" + Quote(v)).None?
  {
    var s := "\"" + Quote(v);
    assert s[1..] == Quote(v) + [];
    BodyOfQuoted(v, []);
    BodyAtStop([]);
  }

  /** A raw line feed before the closing quote is rejected, whatever follows it. */
  lemma RawNewlineRejected(v: string, rest: string)
    ensures ParseStringLit("\"" + Quote(v) + "\n" + rest).None?
  {
    QuotedText(v, "\n", rest);
    BodyOfQuotedToStop(v, "\n" + rest);
  }

  /** Two quoted pieces joined by a line continuation decode to the two values concatenated. */
  lemma ContinuationJoins(a: string, nl: string, b: string, rest: string)
    requires nl == "\n" || nl == "\r\n"
    ensures ParseStringLit("\"" + Quote(a) + "\\" + nl + Quote(b) + "\"" + rest) == Some((a + b, rest))
  {
    ContinuationText(a, nl, b, rest);
    JoinedBody(a, nl, b, "\"" + rest);
    ParseOfBody(Quote(a) + ("\\" + nl + (Quote(b) + ("\"" + rest))), a + b, rest);
  }

  lemma ContinuationText(a: string, nl: string, b: string, rest: string)
    ensures "\"" + Quote(a) + "\\" + nl + Quote(b) + "\"" + rest
         == "\"" + (Quote(a) + ("\\" + nl + (Quote(b) + ("\"" + rest))))
  {
    var q, qa, qb := "\"", Quote(a), Quote(b);
    Assoc(q + qa + "\\" + nl + qb, q, rest);
    Assoc(q + qa + "\\" + nl, qb, q + rest);
    Assoc(q + qa + "\\", nl, qb + (q + rest));
    Assoc(q + qa, "\\", nl + (qb + (q + rest)));
    Assoc("\\", nl, qb + (q + rest));
    Assoc(q, qa, "\\" + nl + (qb + (q + rest)));
  }

  /** The body of two quoted pieces around a line continuation, up to a closing quote. */
  lemma JoinedBody(a: string, nl: string, b: string, q: string)
    requires nl == "\n" || nl == "\r\n"
    requires |q| > 0 && q[0] == '"'
    ensures Body(Quote(a) + ("\\" + nl + (Quote(b) + q))) == (a + b, q)
  {
    var t := Quote(b) + q;
    var u := "\\" + nl + t;
    BodyOfQuotedToStop(b, q);
    BodyOfContinuation(nl, t);
    BodyOfQuoted(a, u);
  }

  /** A literal whose body decodes up to a quote is that decoded text. */
  lemma ParseOfBody(body: string, text: string, rest: string)
    requires Body(body) == (text, "\"" + rest)
    ensures ParseStringLit("\"" + body) == Some((text, rest))
  {
    assert ("\"" + body)[1..] == body;
    assert ("\"" + rest)[1..] == rest;
  }
}

=== FILE: syntax_elements.dfy ===
/**
  Keyword and punctuation atoms, their padding policy, and the binary
  operator precedence table.

  The repository holds the grammar at two points in time: `Early` is the
  `src/parser` tree, `Current` is the `erebus_parser` crate. The two atom
  sets differ in which atoms skip surrounding whitespace and in whether
  `struct` is a keyword. Every atom produces a payload-free marker; the
  model therefore returns only the remaining input.
 */
module SyntaxElements {
  import opened Combinators
  import opened Idents

  datatype Snapshot = Early | Current

  /** The binary operators, one per `BinExpr` variant. */
  datatype BinOp = Equals | Add | Sub | Mul | Div

  datatype Atom =
    | MacroCallOp
    | AssignmentOp
    | ReturnTypeOp
    | Dot
    | Comma
    | Semicolon
    | Operator(op: BinOp)
    | LCurly
    | RCurly
    | LParen
    | RParen

  datatype KeywordAtom = MutModifier | PubModifier | LetKeyword | StructKeyword | FnKeyword

  function OpSpelling(op: BinOp): string {
    match op
    case Equals => "=="
    case Add => "+"
    case Sub => "-"
    case Mul => "*"
    case Div => "/"
  }

  function Spelling(a: Atom): (text: string)
    ensures |text| > 0 && !IsWhitespace(text[0])
  {
    match a
    case MacroCallOp => "!"
    case AssignmentOp => "="
    case ReturnTypeOp => "->"
    case Dot => "."
    case Comma => ","
    case Semicolon => ";"
    case Operator(op) => OpSpelling(op)
    case LCurly => "{"
    case RCurly => "}"
    case LParen => "("
    case RParen => ")"
  }

  /**
    Which atoms skip whitespace on both sides. In the early tree every
    punctuation atom is padded; in the current crate `!` and `.` are not.
   */
  predicate IsPadded(snap: Snapshot, a: Atom) {
    match snap
    case Early => true
    case Current => a != MacroCallOp && a != Dot
  }

  /** Parse one punctuation or operator atom, padded according to the snapshot's policy. */
  function ParseAtom(snap: Snapshot, a: Atom, s: string): (rest: Option<string>)
    ensures rest.Some? ==> IsSuffix(rest.value, s) && |rest.value| < |s|
  {
    if IsPadded(snap, a) then PaddedJust(Spelling(a), s) else Just(Spelling(a), s)
  }

  /**
    Padding policy, both directions: a padded atom is found behind any
    whitespace and swallows the whitespace after it; an unpadded atom
    preceded by whitespace is not found.
   */
  lemma AtomPaddingPolicy(snap: Snapshot, a: Atom, ws: string, ws2: string, s: string)
    requires AllWhitespace(ws) && AllWhitespace(ws2) && StartsSolid(s)
    ensures IsPadded(snap, a) ==> ParseAtom(snap, a, ws + Spelling(a) + ws2 + s) == Some(s)
    ensures !IsPadded(snap, a) && |ws| > 0 ==> ParseAtom(snap, a, ws + Spelling(a) + ws2 + s).None?
    ensures !IsPadded(snap, a) ==> ParseAtom(snap, a, Spelling(a) + s) == Some(s)
  {
    if IsPadded(snap, a) {
      PaddedJustOfConcat(ws, Spelling(a), ws2, s);
    } else {
      JustOfConcat(Spelling(a), s);
      var t := ws + Spelling(a) + ws2 + s;
      if |ws| > 0 {
        assert t[0] == ws[0];
        assert t[..|Spelling(a)|][0] != Spelling(a)[0];
      }
    }
  }

  /** A padded atom right at the start, with no whitespace around it. */
  lemma AtomOfConcat(snap: Snapshot, a: Atom, s: string)
    requires StartsSolid(s)
    ensures ParseAtom(snap, a, Spelling(a) + s) == Some(s)
  {
    AtomPaddingPolicy(snap, a, [], [], s);
    assert [] + Spelling(a) + [] + s == Spelling(a) + s;
  }

  /** A padded atom separated from the next token by whitespace. */
  lemma AtomThenWhitespace(snap: Snapshot, a: Atom, ws: string, s: string)
    requires IsPadded(snap, a) && AllWhitespace(ws) && StartsSolid(s)
    ensures ParseAtom(snap, a, Spelling(a) + ws + s) == Some(s)
  {
    NoLeadingWhitespace(Spelling(a), ws, s);
    PaddedJustOfConcat([], Spelling(a), ws, s);
  }

  lemma NoLeadingWhitespace(lit: string, ws: string, s: string)
    ensures [] + lit + ws + s == lit + ws + s
  {
  }

  /** A padded atom is not found when the first solid character is not the atom's first character. */
  lemma AtomMismatch(snap: Snapshot, a: Atom, s: string)
    requires IsPadded(snap, a)
    requires var t := SkipWhitespace(s); |t| == 0 || t[0] != Spelling(a)[0]
    ensures ParseAtom(snap, a, s).None?
  {
    PaddedJustMismatch(Spelling(a), s);
  }

  /** A padded atom does not see the whitespace in front of it. */
  lemma PaddedAtomSkips(snap: Snapshot, a: Atom, s: string)
    requires IsPadded(snap, a)
    ensures ParseAtom(snap, a, s) == ParseAtom(snap, a, SkipWhitespace(s))
  {
    PaddedJustSkips(Spelling(a), s);
  }

  /** A padded atom at the start of the text is read with all the whitespace after it. */
  lemma PaddedAtomOf(snap: Snapshot, a: Atom, rest: string)
    requires IsPadded(snap, a)
    ensures ParseAtom(snap, a, Spelling(a) + rest) == Some(SkipWhitespace(rest))
  {
    SkipWhitespaceOfSolid(Spelling(a) + rest);
    JustOfConcat(Spelling(a), rest);
  }

  function KeywordText(k: KeywordAtom): (text: string)
    ensures IsIdentText(text)
  {
    match k
    case MutModifier => "mut"
    case PubModifier => "pub"
    case LetKeyword => "let"
    case StructKeyword => "struct"
    case FnKeyword => "fn"
  }

  /** The keyword atoms each snapshot defines: `struct` exists only in the current crate. */
  predicate HasKeyword(snap: Snapshot, k: KeywordAtom) {
    snap == Current || k != StructKeyword
  }

  /** A keyword atom: a whole identifier equal to the keyword's text, with no padding. */
  function ParseKeyword(k: KeywordAtom, s: string): (rest: Option<string>)
    ensures rest.Some? <==> ParseIdent(s).Some? && ParseIdent(s).value.0.name == KeywordText(k)
    ensures rest.Some? ==> s == KeywordText(k) + rest.value && IdentBoundary(rest.value)
    ensures rest.Some? ==> IsSuffix(rest.value, s) && |rest.value| < |s|
  {
    var r := Keyword(KeywordText(k), s);
    if r.Some? then KeywordConsumes(KeywordText(k), s); r else r
  }

  /** A keyword written out and followed by a character that cannot continue an identifier is recognised. */
  lemma KeywordAtomRoundTrip(k: KeywordAtom, rest: string)
    requires IdentBoundary(rest)
    ensures ParseKeyword(k, KeywordText(k) + rest) == Some(rest)
  {
    KeywordRoundTrip(KeywordText(k), rest);
  }

  /** Distinct keywords never match at the same position. */
  lemma KeywordsExclusive(k1: KeywordAtom, k2: KeywordAtom, s: string)
    requires k1 != k2
    ensures ParseKeyword(k1, s).None? || ParseKeyword(k2, s).None?
  {
  }

  /** Operator precedence; the source stores it in a `u8`. */
  type Precedence = p: int | 0 <= p < 256

  /** `Precedence::MIN`: the threshold that admits every operator. */
  const MinPrecedence: Precedence := 0

  function PrecedenceOf(op: BinOp): (p: Precedence)
    ensures MinPrecedence < p <= 3
  {
    match op
    case Equals => 1
    case Add => 2
    case Sub => 2
    case Mul => 3
    case Div => 3
  }

  /** The order in which the expression engine tries the operators: loosest first. */
  const OperatorOrder: seq<BinOp> := [Equals, Add, Sub, Mul, Div]

  /**
    The precedence table: `==` binds loosest, `*` and `/` tightest, and every
    rank is at least 1, so the minimum threshold admits every operator while a
    threshold one above the tightest rank admits none.
   */
  lemma PrecedenceTable(op: BinOp)
    ensures 1 <= PrecedenceOf(op) <= 3
    ensures PrecedenceOf(op) >= MinPrecedence
    ensures PrecedenceOf(Equals) < PrecedenceOf(Add) == PrecedenceOf(Sub) < PrecedenceOf(Mul) == PrecedenceOf(Div)
  {
  }

  /** The operator order lists each operator once, in non-decreasing precedence. */
  lemma OperatorOrderSorted()
    ensures forall op: BinOp :: op in OperatorOrder
    ensures forall i, j :: 0 <= i < j < |OperatorOrder| ==> OperatorOrder[i] != OperatorOrder[j]
    ensures forall i, j :: 0 <= i < j < |OperatorOrder| ==> PrecedenceOf(OperatorOrder[i]) <= PrecedenceOf(OperatorOrder[j])
  {
    forall op: BinOp
      ensures op in OperatorOrder
    {
      match op
      case Equals => assert OperatorOrder[0] == op;
      case Add => assert OperatorOrder[1] == op;
      case Sub => assert OperatorOrder[2] == op;
      case Mul => assert OperatorOrder[3] == op;
      case Div => assert OperatorOrder[4] == op;
    }
  }

  /** Operator spellings start with distinct characters, so at most one operator atom matches at a position. */
  lemma OperatorSpellingsDistinct(op1: BinOp, op2: BinOp)
    requires op1 != op2
    ensures OpSpelling(op1)[0] != OpSpelling(op2)[0]
  {
  }
}

=== FILE: type_examples.dfy ===
/**
  The type-literal examples of `erebus_parser/src/type.rs`, each derived
  from the general lemmas of `Types`. The examples parse whole inputs, so
  they are stated through `Whole`.
 */
module TypeExamples {
  import opened Combinators
  import opened Idents
  import opened Types

  const StringType: TypeLiteral := Named(Ident("String"))
  const IntType: TypeLiteral := Named(Ident("int"))
  const TType: TypeLiteral := Named(Ident("T"))

  lemma NamesValid()
    ensures ValidType(StringType) && ValidType(IntType) && ValidType(TType)
    ensures ShowType(StringType) == "String" && ShowType(IntType) == "int" && ShowType(TType) == "T"
  {
    assert IsIdentText("String") by {
      assert forall i :: 1 <= i < 6 ==> IsIdentContinue("String"[i]);
    }
    assert IsIdentText("int") by {
      assert forall i :: 1 <= i < 3 ==> IsIdentContinue("int"[i]);
    }
  }

  /** `String` is a named type. */
  lemma NamedExample()
    ensures Whole(ParseType("String")) == Some(StringType)
  {
    NamesValid();
    var text := ShowType(StringType) + "";
    assert text == "String";
    TypeRoundTrip(StringType, "");
  }

  /** `fn(int,) -> String`: a trailing comma in the parameters and an explicit return type. */
  lemma SignatureExample()
    ensures Whole(ParseType("fn(int,) -> String")) == Some(Fn(FnSignatureType([IntType], StringType)))
  {
    NamesValid();
    assert ShowList([IntType]) == "int" by {
      assert [IntType][1..] == [];
    }
    assert ShowParens([IntType], true) == "(int,)";
    var text := "fn" + ShowParens([IntType], true) + " -> " + ShowType(StringType) + "";
    assert text == "fn(int,) -> String";
    FnRoundTrip([IntType], true, StringType, "");
  }

  /** `(String, (int, T))`: a tuple nested in a tuple. */
  lemma NestedTupleExample()
    ensures Whole(ParseType("(String, (int, T))"))
         == Some(Tuple(TupleType([StringType, Tuple(TupleType([IntType, TType]))])))
  {
    var outer := Tuple(TupleType([StringType, Tuple(TupleType([IntType, TType]))]));
    OuterTupleText();
    NestedTupleValid();
    TypeRoundTrip(outer, "");
  }

  lemma InnerTupleText()
    ensures ShowType(Tuple(TupleType([IntType, TType]))) == "(int, T)"
  {
    NamesValid();
    assert [IntType, TType][1..] == [TType] && [TType][1..] == [];
    assert ShowTail([TType]) == ", T";
    assert ShowList([IntType, TType]) == "int, T";
  }

  lemma OuterTupleText()
    ensures ShowType(Tuple(TupleType([StringType, Tuple(TupleType([IntType, TType]))]))) + "" == "(String, (int, T))"
  {
    NamesValid();
    var inner := Tuple(TupleType([IntType, TType]));
    InnerTupleText();
    assert [StringType, inner][1..] == [inner] && [inner][1..] == [];
    assert ShowTail([inner]) == ", (int, T)";
    assert ShowList([StringType, inner]) == "String, (int, T)";
  }

  lemma NestedTupleValid()
    ensures ValidType(Tuple(TupleType([StringType, Tuple(TupleType([IntType, TType]))])))
  {
    NamesValid();
    assert ValidTypes([IntType, TType]);
    assert ValidTypes([StringType, Tuple(TupleType([IntType, TType]))]);
  }

  /** `()` is the unit tuple. */
  lemma UnitExample()
    ensures Whole(ParseTuple("()")) == Some(Unit)
  {
    var text := ShowParens([], false) + "" + "";
    assert text == "()";
    ParensRoundTrip([], false, "", "");
  }

  /** `((()))`: a tuple holding a tuple holding the unit tuple. */
  lemma NestedUnitExample()
    ensures Whole(ParseTuple("((()))")) == Some(TupleType([Tuple(TupleType([Tuple(Unit)]))]))
  {
    var unit := Tuple(Unit);
    var middle := Tuple(TupleType([unit]));
    assert ShowType(unit) == "()";
    assert ShowType(middle) == "(())" by {
      assert [unit][1..] == [];
      assert ShowList([unit]) == "()";
    }
    assert ShowParens([middle], false) == "((()))" by {
      assert [middle][1..] == [];
      assert ShowList([middle]) == "(())";
    }
    assert ValidType(middle) by {
      assert ValidTypes([unit]);
    }
    var text := ShowParens([middle], false) + "" + "";
    assert text == "((()))";
    ParensRoundTrip([middle], false, "", "");
  }

  /** `(,)` is an error: a trailing comma needs an item before it. */
  lemma LoneCommaExample()
    ensures Whole(ParseTuple("(,)")).None?
  {
    var text := "(" + "" + "," + ")";
    assert text == "(,)";
    LoneCommaRejected("", ")");
  }

  /** `fn()` is a signature with no parameters returning the unit tuple. */
  lemma FnWithoutReturnExample()
    ensures Whole(ParseFnSignature("fn()")) == Some(FnSignatureType([], Tuple(Unit)))
  {
    var text := "fn" + ShowParens([], false) + "";
    assert text == "fn()";
    FnDefaultsToUnit([], false, "");
  }

  /** A lone `fn` is the named type `fn`. */
  lemma LoneFnExample()
    ensures Whole(ParseType("fn")) == Some(Named(Ident("fn")))
  {
    var text := "fn" + "";
    assert text == "fn";
    FnAloneIsNamed("");
  }
}

=== FILE: types.dfy ===
/**
  Type literals of the current crate: a function signature
  `fn(params) -> ret`, a parenthesised tuple, or a named type.

  The three alternatives are tried in that order, so `fn` followed by a
  parameter list is always a signature. Tuples and parameter lists are
  comma-separated with an optional trailing comma; the return type of a
  signature is optional and defaults to the unit tuple.
 */
module Types {
  import opened Combinators
  import opened Idents
  import opened SyntaxElements

  datatype TypeLiteral =
    | Named(ident: Ident)
    | Fn(signature: FnSignatureType)
    | Tuple(tuple: TupleType)

  datatype FnSignatureType = FnSignatureType(params: seq<TypeLiteral>, returnType: TypeLiteral)

  datatype TupleType = TupleType(elements: seq<TypeLiteral>)

  /** `TupleType::UNIT`, the empty tuple. */
  const Unit: TupleType := TupleType([])

  /** `TypeLiteral::default()`: the unit tuple. */
  function DefaultType(): (t: TypeLiteral)
    ensures t.Tuple? && |t.tuple.elements| == 0
  {
    Tuple(Unit)
  }

  /**
    The `TypeLiteral` parser: a signature, else a tuple, else a named type.
    Every success consumes input.
   */
  function ParseType(s: string): (r: Parsed<TypeLiteral>)
    ensures r.Some? ==> IsSuffix(r.value.1, s) && |r.value.1| < |s|
    decreases |s|, 3
  {
    match ParseFnSignature(s)
    case Some((sig, rest)) => Some((Fn(sig), rest))
    case None =>
      match ParseTuple(s)
      case Some((tt, rest)) => Some((Tuple(tt), rest))
      case None =>
        match ParseIdent(s)
        case Some((id, rest)) =>
          ParseIdentConsumes(s);
          Some((Named(id), rest))
        case None => None
  }

  /**
    `FnSignatureType::parser_with`: the `fn` keyword, a tuple of parameter
    types, and optionally `->` and a return type. When the arrow or the type
    after it is missing, the optional part backtracks and the return type is
    the default.
   */
  function ParseFnSignature(s: string): (r: Parsed<FnSignatureType>)
    ensures r.Some? ==> IsSuffix(r.value.1, s) && |r.value.1| < |s|
    decreases |s|, 2
  {
    match ParseKeyword(FnKeyword, s)
    case None => None
    case Some(afterFn) =>
      match ParseTuple(afterFn)
      case None => None
      case Some((params, afterParams)) =>
        SuffixTransitive(afterParams, afterFn, s);
        var ret := ReturnType(afterParams);
        if ret.Some? then
          SuffixTransitive(ret.value.1, afterParams, s);
          Some((FnSignatureType(params.elements, ret.value.0), ret.value.1))
        else
          Some((FnSignatureType(params.elements, DefaultType()), afterParams))
  }

  /** `ReturnTypeOp` and a type, as one optional unit: it fails unless both are present. */
  function ReturnType(s: string): (r: Parsed<TypeLiteral>)
    ensures r.Some? ==> IsSuffix(r.value.1, s) && |r.value.1| < |s|
    decreases |s|, 5
  {
    match ParseAtom(Current, ReturnTypeOp, s)
    case None => None
    case Some(afterArrow) =>
      match ParseType(afterArrow)
      case None => None
      case Some((ret, rest)) =>
        SuffixTransitive(rest, afterArrow, s);
        Some((ret, rest))
  }

  /** `TupleType::parser_with`: `(`, a type list with an optional trailing comma, `)`. */
  function ParseTuple(s: string): (r: Parsed<TupleType>)
    ensures r.Some? ==> IsSuffix(r.value.1, s) && |r.value.1| < |s|
    decreases |s|, 1
  {
    match ParseAtom(Current, LParen, s)
    case None => None
    case Some(afterOpen) =>
      var (elements, afterList) := TypeList(afterOpen);
      match ParseAtom(Current, RParen, afterList)
      case None => None
      case Some(rest) =>
        SuffixTransitive(afterList, afterOpen, s);
        SuffixTransitive(rest, afterList, s);
        Some((TupleType(elements), rest))
  }

  /**
    `separated_by(Comma).allow_trailing()` over types: zero items when the
    first type fails, otherwise the first type and the tail. It never fails.
   */
  function TypeList(s: string): (r: (seq<TypeLiteral>, string))
    ensures IsSuffix(r.1, s)
    ensures |r.0| == 0 ==> r.1 == s
    decreases |s|, 4
  {
    match ParseType(s)
    case None => ([], s)
    case Some((t, afterFirst)) =>
      var (ts, rest) := TypeListTail(afterFirst);
      SuffixTransitive(rest, afterFirst, s);
      ([t] + ts, rest)
  }

  /**
    Further items, each preceded by a comma. A comma with no type after it
    is the allowed trailing comma and stays consumed.
   */
  function TypeListTail(s: string): (r: (seq<TypeLiteral>, string))
    ensures IsSuffix(r.1, s)
    decreases |s|, 0
  {
    match ParseAtom(Current, Comma, s)
    case None => ([], s)
    case Some(afterComma) =>
      match ParseType(afterComma)
      case None => ([], afterComma)
      case Some((t, afterItem)) =>
        var (ts, rest) := TypeListTail(afterItem);
        SuffixTransitive(rest, afterItem, afterComma);
        SuffixTransitive(rest, afterComma, s);
        ([t] + ts, rest)
  }

  /** Types the renderer can write back unambiguously: identifier names other than the keyword `fn`. */
  predicate ValidType(t: TypeLiteral)
    decreases t, 1
  {
    match t
    case Named(id) => IsIdentText(id.name) && id.name != "fn"
    case Tuple(tt) => ValidTypes(tt.elements)
    case Fn(sig) => ValidTypes(sig.params) && ValidType(sig.returnType)
  }

  predicate ValidTypes(ts: seq<TypeLiteral>)
    decreases ts, 0
  {
    forall i :: 0 <= i < |ts| ==> ValidType(ts[i])
  }

  /** Canonical source text of a type: `, ` between items and ` -> ` before an explicit return type. */
  function ShowType(t: TypeLiteral): string
    decreases t, 2
  {
    match t
    case Named(id) => id.name
    case Tuple(tt) => ShowParens(tt.elements, false)
    case Fn(sig) => "fn" + ShowParens(sig.params, false) + " -> " + ShowType(sig.returnType)
  }

  /** A parenthesised list, with a trailing comma after a non-empty list when `trailing` is set. */
  function ShowParens(ts: seq<TypeLiteral>, trailing: bool): string
    decreases ts, 1
  {
    "(" + ShowList(ts) + TrailingComma(trailing && |ts| > 0) + ")"
  }

  function TrailingComma(trailing: bool): string {
    if trailing then "," else ""
  }

  function ShowList(ts: seq<TypeLiteral>): string
    decreases ts, 0
  {
    if |ts| == 0 then "" else ShowType(ts[0]) + ShowTail(ts[1..])
  }

  function ShowTail(us: seq<TypeLiteral>): string
    decreases us, 0
  {
    if |us| == 0 then "" else ", " + ShowType(us[0]) + ShowTail(us[1..])
  }

  /** What may follow a type without changing how it parses: nothing, or a character that neither extends a name nor is whitespace. */
  predicate TypeBoundary(rest: string) {
    StartsSolid(rest) && IdentBoundary(rest)
  }

  /** The first character of a rendered type is `(` or starts an identifier. */
  lemma ShowTypeStart(t: TypeLiteral)
    requires ValidType(t)
    ensures |ShowType(t)| > 0
    ensures ShowType(t)[0] == '(' || IsIdentStart(ShowType(t)[0])
  {
    match t
    case Named(id) =>
    case Tuple(tt) =>
    case Fn(sig) =>
  }

  /** A type cannot start with a comma or a closing parenthesis. */
  lemma TypeFailsOnPunctuation(q: string)
    requires |q| > 0 && (q[0] == ')' || q[0] == ',')
    ensures ParseType(q).None?
  {
    assert ParseIdent(q).None?;
    assert ParseFnSignature(q).None? by {
      assert ParseKeyword(FnKeyword, q).None?;
    }
    assert ParseTuple(q).None? by {
      SkipWhitespaceOfSolid(q);
      AtomMismatch(Current, LParen, q);
    }
    TypeNone(q);
  }

  /** What follows a list item starts with the separating comma or the closing parenthesis. */
  lemma AfterItem(us: seq<TypeLiteral>, trailing: bool, q: string)
    requires |q| > 0 && q[0] == ')'
    ensures var y := ShowTail(us) + TrailingComma(trailing) + q; |y| > 0 && (y[0] == ',' || y[0] == ')')
    ensures TypeBoundary(ShowTail(us) + TrailingComma(trailing) + q)
  {
    var y := ShowTail(us) + TrailingComma(trailing) + q;
    if |us| > 0 {
      assert y[0] == ',';
    } else if trailing {
      assert y == "," + q;
    } else {
      assert y == q;
    }
  }

  /**
    Round trip for types: the rendering of a type, followed by anything that
    cannot continue it, parses back to the same type and leaves the rest.
   */
  lemma {:induction false} TypeRoundTrip(t: TypeLiteral, rest: string)
    requires ValidType(t) && TypeBoundary(rest)
    ensures ParseType(ShowType(t) + rest) == Some((t, rest))
    decreases t, 5
  {
    match t
    case Named(id) =>
      NamedRoundTrip(id, rest);
    case Tuple(tt) =>
      ParensRoundTrip(tt.elements, false, "", rest);
      TupleRoundTrip(tt, rest);
    case Fn(sig) =>
      FnRoundTrip(sig.params, false, sig.returnType, rest);
  }

  /** A name other than `fn` is neither a signature nor a tuple; whatever follows the name is left untouched, whitespace included. */
  lemma NamedRoundTrip(id: Ident, rest: string)
    requires IsIdentText(id.name) && id.name != "fn" && IdentBoundary(rest)
    ensures ParseType(id.name + rest) == Some((Named(id), rest))
  {
    var s := id.name + rest;
    assert ParseIdent(s) == Some((id, rest)) by {
      IdentRoundTrip(id.name, rest);
    }
    assert ParseFnSignature(s).None? by {
      assert ParseKeyword(FnKeyword, s).None?;
    }
    assert ParseTuple(s).None? by {
      SkipWhitespaceOfSolid(s);
      AtomMismatch(Current, LParen, s);
    }
    TypeOfName(s, id, rest);
  }

  /** A rendered tuple is not a signature, so the tuple alternative takes it. */
  lemma TupleRoundTrip(tt: TupleType, rest: string)
    requires ParseTuple(ShowParens(tt.elements, false) + "" + rest) == Some((tt, rest))
    ensures ParseType(ShowParens(tt.elements, false) + rest) == Some((Tuple(tt), rest))
  {
    var s := ShowParens(tt.elements, false) + rest;
    ConcatEmpty(ShowParens(tt.elements, false), rest);
    assert ParseFnSignature(s).None? by {
      ParensStart(tt.elements, false, rest);
      assert ParseKeyword(FnKeyword, s).None?;
    }
    TypeOfTuple(s, tt, rest);
  }

  /**
    What reading a type leaves of the text after it: a tuple's closing
    parenthesis takes the whitespace after it, a name takes nothing, and a
    signature leaves what its return type leaves.
   */
  function AfterType(t: TypeLiteral, rest: string): string {
    match t
    case Named(_) => rest
    case Tuple(_) => SkipWhitespace(rest)
    case Fn(sig) => AfterType(sig.returnType, rest)
  }

  /** A type followed directly by solid text leaves that text as it is. */
  lemma {:induction false} AfterTypeSolid(t: TypeLiteral, rest: string)
    requires StartsSolid(rest)
    ensures AfterType(t, rest) == rest
  {
    match t
    case Named(_) =>
    case Tuple(_) => SkipWhitespaceOfSolid(rest);
    case Fn(sig) => AfterTypeSolid(sig.returnType, rest);
  }

  /** Whatever a type leaves of whitespace before solid text, the solid text is next. */
  lemma {:induction false} AfterTypeSkip(t: TypeLiteral, ws: string, rest: string)
    requires AllWhitespace(ws) && StartsSolid(rest)
    ensures SkipWhitespace(AfterType(t, ws + rest)) == rest
  {
    match t
    case Named(_) =>
      SkipWhitespaceOfConcat(ws, rest);
    case Tuple(_) =>
      SkipWhitespaceOfConcat(ws, rest);
      SkipWhitespaceOfSolid(rest);
    case Fn(sig) =>
      AfterTypeSkip(sig.returnType, ws, rest);
  }

  /**
    Round trip for a type followed by whitespace: the type reads back, and
    after whatever whitespace it leaves the text that followed comes next.
   */
  lemma {:induction false} TypeThenWhitespace(t: TypeLiteral, ws: string, rest: string)
    requires ValidType(t) && AllWhitespace(ws) && TypeBoundary(rest)
    ensures ParseType(ShowType(t) + (ws + rest)) == Some((t, AfterType(t, ws + rest)))
    decreases t, 1
  {
    match t
    case Named(id) =>
      assert IdentBoundary(ws + rest) by {
        if |ws| > 0 {
          assert (ws + rest)[0] == ws[0];
        } else {
          assert ws + rest == rest;
        }
      }
      NamedRoundTrip(id, ws + rest);
    case Tuple(tt) =>
      TupleThenWhitespace(tt, ws, rest);
    case Fn(sig) =>
      FnThenWhitespace(sig, ws, rest);
  }

  lemma TupleThenWhitespace(tt: TupleType, ws: string, rest: string)
    requires ValidTypes(tt.elements) && AllWhitespace(ws) && TypeBoundary(rest)
    ensures ParseType(ShowParens(tt.elements, false) + (ws + rest)) == Some((Tuple(tt), rest))
  {
    var s := ShowParens(tt.elements, false) + (ws + rest);
    assert ParseTuple(s) == Some((tt, rest)) by {
      ParensRoundTrip(tt.elements, false, ws, rest);
      Assoc(ShowParens(tt.elements, false), ws, rest);
    }
    assert ParseFnSignature(s).None? by {
      ParensStart(tt.elements, false, ws + rest);
      assert ParseKeyword(FnKeyword, s).None?;
    }
    TypeOfTuple(s, tt, rest);
  }

  lemma {:induction false} FnThenWhitespace(sig: FnSignatureType, ws: string, rest: string)
    requires ValidTypes(sig.params) && ValidType(sig.returnType) && AllWhitespace(ws) && TypeBoundary(rest)
    ensures ParseType(ShowType(Fn(sig)) + (ws + rest)) == Some((Fn(sig), AfterType(sig.returnType, ws + rest)))
    decreases sig, 2
  {
    FnPieces(sig, ws, rest);
    FnAssemble(sig.params, false, sig.returnType, ws + rest, AfterType(sig.returnType, ws + rest));
  }

  /** The parameter tuple and the return type of a signature followed by whitespace each read back. */
  lemma {:induction false} FnPieces(sig: FnSignatureType, ws: string, rest: string)
    requires ValidTypes(sig.params) && ValidType(sig.returnType) && AllWhitespace(ws) && TypeBoundary(rest)
    ensures |ShowType(sig.returnType)| > 0 && !IsWhitespace(ShowType(sig.returnType)[0])
    ensures var afterParams := Spelling(ReturnTypeOp) + " " + (ShowType(sig.returnType) + (ws + rest));
      ParseTuple(ShowParens(sig.params, false) + " " + afterParams) == Some((TupleType(sig.params), afterParams))
    ensures ParseType(ShowType(sig.returnType) + (ws + rest))
         == Some((sig.returnType, AfterType(sig.returnType, ws + rest)))
    decreases sig, 1
  {
    FnParamsRead(sig, ws, rest);
    TypeThenWhitespace(sig.returnType, ws, rest);
    ShowTypeStart(sig.returnType);
  }

  /** The parameter tuple is read up to the arrow. */
  lemma {:induction false} FnParamsRead(sig: FnSignatureType, ws: string, rest: string)
    requires ValidTypes(sig.params) && ValidType(sig.returnType)
    ensures var afterParams := Spelling(ReturnTypeOp) + " " + (ShowType(sig.returnType) + (ws + rest));
      ParseTuple(ShowParens(sig.params, false) + " " + afterParams) == Some((TupleType(sig.params), afterParams))
    decreases sig, 0
  {
    var afterParams := Spelling(ReturnTypeOp) + " " + (ShowType(sig.returnType) + (ws + rest));
    assert AllWhitespace(" ");
    ArrowSolid(ShowType(sig.returnType) + (ws + rest));
    ParensRoundTrip(sig.params, false, " ", afterParams);
  }

  lemma ArrowSolid(t: string)
    ensures StartsSolid(Spelling(ReturnTypeOp) + " " + t)
  {
    assert (Spelling(ReturnTypeOp) + " " + t)[0] == '-';
  }

  /** A signature written with an explicit return type parses back to its parameters and that return type. */
  lemma {:induction false} FnRoundTrip(params: seq<TypeLiteral>, trailing: bool, ret: TypeLiteral, rest: string)
    requires ValidTypes(params) && ValidType(ret) && TypeBoundary(rest)
    ensures ParseType("fn" + ShowParens(params, trailing) + " -> " + ShowType(ret) + rest)
         == Some((Fn(FnSignatureType(params, ret)), rest))
    decreases FnSignatureType(params, ret), 4
  {
    var retText := ShowType(ret) + rest;
    var afterParams := Spelling(ReturnTypeOp) + " " + retText;
    ParensRoundTrip(params, trailing, " ", afterParams);
    TypeRoundTrip(ret, rest);
    ShowTypeStart(ret);
    FnAssemble(params, trailing, ret, rest, rest);
  }

  /** The steps of a signature put together: keyword, parameter tuple, arrow and return type. */
  lemma FnAssemble(params: seq<TypeLiteral>, trailing: bool, ret: TypeLiteral, rest: string, after: string)
    requires |ShowType(ret)| > 0 && !IsWhitespace(ShowType(ret)[0])
    requires var afterParams := Spelling(ReturnTypeOp) + " " + (ShowType(ret) + rest);
      ParseTuple(ShowParens(params, trailing) + " " + afterParams) == Some((TupleType(params), afterParams))
    requires ParseType(ShowType(ret) + rest) == Some((ret, after))
    ensures ParseType("fn" + ShowParens(params, trailing) + " -> " + ShowType(ret) + rest)
         == Some((Fn(FnSignatureType(params, ret)), after))
  {
    var retText := ShowType(ret) + rest;
    var afterParams := Spelling(ReturnTypeOp) + " " + retText;
    var afterFn := ShowParens(params, trailing) + " " + afterParams;
    var s := "fn" + afterFn;
    FnKeywordStep(params, trailing, afterParams);
    ConcatStart(ShowType(ret), rest);
    ArrowThen(retText);
    ReturnStep(afterParams, retText, ret, after);
    FnStep(s, afterFn, TupleType(params), afterParams, ret, after);
    TypeOfFn(s, FnSignatureType(params, ret), after);
    FnShape(params, trailing, ret, rest);
  }

  lemma ArrowThen(retText: string)
    requires StartsSolid(retText)
    ensures ParseAtom(Current, ReturnTypeOp, Spelling(ReturnTypeOp) + " " + retText) == Some(retText)
  {
    assert AllWhitespace(" ");
    AtomThenWhitespace(Current, ReturnTypeOp, " ", retText);
  }

  lemma FnKeywordStep(params: seq<TypeLiteral>, trailing: bool, afterParams: string)
    ensures var afterFn := ShowParens(params, trailing) + " " + afterParams;
      ParseKeyword(FnKeyword, "fn" + afterFn) == Some(afterFn)
  {
    Assoc(ShowParens(params, trailing), " ", afterParams);
    KeywordBeforeParens(params, trailing, " " + afterParams);
  }

  /** `fn` directly followed by a parenthesised list is the keyword. */
  lemma KeywordBeforeParens(params: seq<TypeLiteral>, trailing: bool, after: string)
    ensures ParseKeyword(FnKeyword, "fn" + (ShowParens(params, trailing) + after)) == Some(ShowParens(params, trailing) + after)
  {
    ParensStart(params, trailing, after);
    KeywordAtomRoundTrip(FnKeyword, ShowParens(params, trailing) + after);
  }

  lemma FnShape(params: seq<TypeLiteral>, trailing: bool, ret: TypeLiteral, rest: string)
    ensures "fn" + ShowParens(params, trailing) + " -> " + ShowType(ret) + rest
         == "fn" + (ShowParens(params, trailing) + " " + (Spelling(ReturnTypeOp) + " " + (ShowType(ret) + rest)))
  {
    var p, t := ShowParens(params, trailing), ShowType(ret);
    var y := t + rest;
    Assoc("fn" + p + " -> ", t, rest);
    Assoc("fn" + p, " -> ", y);
    Assoc("fn", p, " -> " + y);
    assert Spelling(ReturnTypeOp) == "->";
    Assoc("->", " ", y);
    Assoc(p, " ", "->" + (" " + y));
    assert " -> " == " " + "->" + " ";
    Assoc(" " + "->", " ", y);
    Assoc(" ", "->", " " + y);
  }

  /** A parenthesised list, then any whitespace, parses back to the tuple of its items; the whitespace is consumed. */
  lemma {:induction false} ParensRoundTrip(ts: seq<TypeLiteral>, trailing: bool, ws: string, rest: string)
    requires ValidTypes(ts) && AllWhitespace(ws) && StartsSolid(rest)
    ensures ParseTuple(ShowParens(ts, trailing) + ws + rest) == Some((TupleType(ts), rest))
    decreases ts, 3
  {
    var c := trailing && |ts| > 0;
    var q := Spelling(RParen) + ws + rest;
    ListRoundTrip(ts, c, q);
    if |ts| > 0 {
      ShowTypeStart(ts[0]);
    }
    ParensAssemble(ts, trailing, ws, rest);
  }

  /** The steps of a tuple put together: `(`, the list, `)`. */
  lemma ParensAssemble(ts: seq<TypeLiteral>, trailing: bool, ws: string, rest: string)
    requires AllWhitespace(ws) && StartsSolid(rest)
    requires |ts| > 0 ==> |ShowType(ts[0])| > 0 && !IsWhitespace(ShowType(ts[0])[0])
    requires var q := Spelling(RParen) + ws + rest;
      TypeList(ShowList(ts) + TrailingComma(trailing && |ts| > 0) + q) == (ts, q)
    ensures ParseTuple(ShowParens(ts, trailing) + ws + rest) == Some((TupleType(ts), rest))
  {
    var q := Spelling(RParen) + ws + rest;
    var inner := ShowList(ts) + TrailingComma(trailing && |ts| > 0) + q;
    var s := Spelling(LParen) + inner;
    assert ParseAtom(Current, LParen, s) == Some(inner) by {
      ListStart(ts, trailing && |ts| > 0, q);
      AtomOfConcat(Current, LParen, inner);
    }
    assert ParseAtom(Current, RParen, q) == Some(rest) by {
      AtomThenWhitespace(Current, RParen, ws, rest);
    }
    TupleStep(s, inner, rest);
    ParensShape(ts, trailing, ws, rest);
  }

  lemma ParensShape(ts: seq<TypeLiteral>, trailing: bool, ws: string, rest: string)
    ensures ShowParens(ts, trailing) + ws + rest
         == Spelling(LParen) + (ShowList(ts) + TrailingComma(trailing && |ts| > 0) + (Spelling(RParen) + ws + rest))
  {
  }

  /** The list text starts with its first item, or with what follows an empty list. */
  lemma ListStart(ts: seq<TypeLiteral>, c: bool, q: string)
    requires |q| > 0 && !IsWhitespace(q[0]) && (c ==> |ts| > 0)
    requires |ts| > 0 ==> |ShowType(ts[0])| > 0 && !IsWhitespace(ShowType(ts[0])[0])
    ensures StartsSolid(ShowList(ts) + TrailingComma(c) + q)
  {
    var inner := ShowList(ts) + TrailingComma(c) + q;
    if |ts| > 0 {
      assert inner[0] == ShowType(ts[0])[0];
    } else {
      assert inner == q;
    }
  }

  /** The items of a list, with or without a trailing comma, up to the closing parenthesis. */
  lemma {:induction false} ListRoundTrip(ts: seq<TypeLiteral>, trailing: bool, q: string)
    requires ValidTypes(ts) && |q| > 0 && q[0] == ')' && (trailing ==> |ts| > 0)
    ensures TypeList(ShowList(ts) + TrailingComma(trailing) + q) == (ts, q)
    decreases ts, 2
  {
    if |ts| == 0 {
      assert ShowList(ts) + TrailingComma(trailing) + q == q;
      TypeFailsOnPunctuation(q);
      ListEmpty(q);
    } else {
      var y := ShowTail(ts[1..]) + TrailingComma(trailing) + q;
      AfterItem(ts[1..], trailing, q);
      TypeRoundTrip(ts[0], y);
      TailRoundTrip(ts[1..], trailing, q);
      ListAssemble(ts, trailing, q);
    }
  }

  lemma ListAssemble(ts: seq<TypeLiteral>, trailing: bool, q: string)
    requires |ts| > 0
    requires var y := ShowTail(ts[1..]) + TrailingComma(trailing) + q;
      ParseType(ShowType(ts[0]) + y) == Some((ts[0], y)) && TypeListTail(y) == (ts[1..], q)
    ensures TypeList(ShowList(ts) + TrailingComma(trailing) + q) == (ts, q)
  {
    var y := ShowTail(ts[1..]) + TrailingComma(trailing) + q;
    ListShape(ts, trailing, q);
    ListStep(ShowType(ts[0]) + y, ts[0], y);
    SeqCons(ts);
  }

  lemma ListShape(ts: seq<TypeLiteral>, trailing: bool, q: string)
    requires |ts| > 0
    ensures ShowList(ts) + TrailingComma(trailing) + q == ShowType(ts[0]) + (ShowTail(ts[1..]) + TrailingComma(trailing) + q)
  {
  }

  /** The comma-preceded items after the first, and the trailing comma if any. */
  lemma {:induction false} TailRoundTrip(us: seq<TypeLiteral>, trailing: bool, q: string)
    requires ValidTypes(us) && |q| > 0 && q[0] == ')'
    ensures TypeListTail(ShowTail(us) + TrailingComma(trailing) + q) == (us, q)
    decreases us, 1
  {
    if |us| == 0 {
      TailEnd(trailing, q);
    } else {
      TailItemRead(us, trailing, q);
      TailRoundTrip(us[1..], trailing, q);
      ShowTypeStart(us[0]);
      TailAssemble(us, trailing, q);
    }
  }

  /** The first item is read up to the text after it. */
  lemma {:induction false} TailItemRead(us: seq<TypeLiteral>, trailing: bool, q: string)
    requires ValidTypes(us) && |us| > 0 && |q| > 0 && q[0] == ')'
    ensures var y := ShowTail(us[1..]) + TrailingComma(trailing) + q;
      ParseType(ShowType(us[0]) + y) == Some((us[0], y))
    decreases us, 0
  {
    AfterItem(us[1..], trailing, q);
    TypeRoundTrip(us[0], ShowTail(us[1..]) + TrailingComma(trailing) + q);
  }

  /** With no items left, a lone trailing comma is consumed and nothing else is. */
  lemma TailEnd(trailing: bool, q: string)
    requires |q| > 0 && q[0] == ')'
    ensures TypeListTail(ShowTail([]) + TrailingComma(trailing) + q) == ([], q)
  {
    EmptyTailText(trailing, q);
    if trailing {
      TailEndComma(q);
    } else {
      TailEndBare(q);
    }
  }

  lemma EmptyTailText(trailing: bool, q: string)
    ensures ShowTail([]) + TrailingComma(trailing) + q == if trailing then "," + q else q
  {
    assert ShowTail([]) == "";
  }

  lemma TailEndComma(q: string)
    requires |q| > 0 && q[0] == ')'
    ensures TypeListTail("," + q) == ([], q)
  {
    assert StartsSolid(q);
    assert Spelling(Comma) == ",";
    AtomOfConcat(Current, Comma, q);
    TypeFailsOnPunctuation(q);
    TailStop("," + q, q);
  }

  lemma TailEndBare(q: string)
    requires |q| > 0 && q[0] == ')'
    ensures TypeListTail(q) == ([], q)
  {
    SkipWhitespaceOfSolid(q);
    AtomMismatch(Current, Comma, q);
  }

  lemma TailAssemble(us: seq<TypeLiteral>, trailing: bool, q: string)
    requires |us| > 0 && |ShowType(us[0])| > 0 && !IsWhitespace(ShowType(us[0])[0])
    requires var y := ShowTail(us[1..]) + TrailingComma(trailing) + q;
      ParseType(ShowType(us[0]) + y) == Some((us[0], y)) && TypeListTail(y) == (us[1..], q)
    ensures TypeListTail(ShowTail(us) + TrailingComma(trailing) + q) == (us, q)
  {
    var y := ShowTail(us[1..]) + TrailingComma(trailing) + q;
    var item := ShowType(us[0]) + y;
    var s := Spelling(Comma) + " " + item;
    ConcatStart(ShowType(us[0]), y);
    CommaThen(item);
    TailStep(s, item, us[0], y);
    TailShape(us, trailing, q);
    SeqCons(us);
  }

  lemma CommaThen(item: string)
    requires StartsSolid(item)
    ensures ParseAtom(Current, Comma, Spelling(Comma) + " " + item) == Some(item)
  {
    assert AllWhitespace(" ");
    AtomThenWhitespace(Current, Comma, " ", item);
  }

  lemma TailShape(us: seq<TypeLiteral>, trailing: bool, q: string)
    requires |us| > 0
    ensures ShowTail(us) + TrailingComma(trailing) + q
         == Spelling(Comma) + " " + (ShowType(us[0]) + (ShowTail(us[1..]) + TrailingComma(trailing) + q))
  {
    var t, m, c := ShowType(us[0]), ShowTail(us[1..]), TrailingComma(trailing);
    assert ShowTail(us) == ", " + t + m;
    CommaRegroup(t, m, c, q);
  }

  lemma CommaRegroup(t: string, m: string, c: string, q: string)
    ensures ", " + t + m + c + q == Spelling(Comma) + " " + (t + (m + c + q))
  {
    Assoc(", " + t, m, c);
    Assoc(", " + t, m + c, q);
    Assoc(", ", t, m + c + q);
    assert Spelling(Comma) + " " == ", ";
  }

  /** A rendered parenthesised list begins with `(`. */
  lemma ParensStart(ts: seq<TypeLiteral>, trailing: bool, rest: string)
    ensures |ShowParens(ts, trailing) + rest| > 0 && (ShowParens(ts, trailing) + rest)[0] == '('
  {
  }

  lemma ConcatStart(a: string, b: string)
    requires |a| > 0 && !IsWhitespace(a[0])
    ensures StartsSolid(a + b)
  {
    assert (a + b)[0] == a[0];
  }

  lemma ConcatEmpty(a: string, b: string)
    ensures a + "" + b == a + b
  {
  }

  lemma SeqCons<T>(ts: seq<T>)
    requires |ts| > 0
    ensures ts == [ts[0]] + ts[1..]
  {
  }

  /** Unfolding the tail by one item. */
  lemma TailStep(s: string, afterComma: string, t: TypeLiteral, afterItem: string)
    requires ParseAtom(Current, Comma, s) == Some(afterComma)
    requires ParseType(afterComma) == Some((t, afterItem))
    ensures TypeListTail(s) == ([t] + TypeListTail(afterItem).0, TypeListTail(afterItem).1)
  {
  }

  /** A comma with no type after it ends the tail and stays consumed. */
  lemma TailStop(s: string, afterComma: string)
    requires ParseAtom(Current, Comma, s) == Some(afterComma)
    requires ParseType(afterComma).None?
    ensures TypeListTail(s) == ([], afterComma)
  {
  }

  lemma ListStep(s: string, t: TypeLiteral, afterFirst: string)
    requires ParseType(s) == Some((t, afterFirst))
    ensures TypeList(s) == ([t] + TypeListTail(afterFirst).0, TypeListTail(afterFirst).1)
  {
  }

  lemma ListEmpty(s: string)
    requires ParseType(s).None?
    ensures TypeList(s) == ([], s)
  {
  }

  lemma TupleStep(s: string, afterOpen: string, rest: string)
    requires ParseAtom(Current, LParen, s) == Some(afterOpen)
    requires ParseAtom(Current, RParen, TypeList(afterOpen).1) == Some(rest)
    ensures ParseTuple(s) == Some((TupleType(TypeList(afterOpen).0), rest))
  {
  }

  lemma ReturnStep(s: string, afterArrow: string, ret: TypeLiteral, rest: string)
    requires ParseAtom(Current, ReturnTypeOp, s) == Some(afterArrow)
    requires ParseType(afterArrow) == Some((ret, rest))
    ensures ReturnType(s) == Some((ret, rest))
  {
  }

  lemma FnStep(s: string, afterFn: string, params: TupleType, afterParams: string, ret: TypeLiteral, rest: string)
    requires ParseKeyword(FnKeyword, s) == Some(afterFn)
    requires ParseTuple(afterFn) == Some((params, afterParams))
    requires ReturnType(afterParams) == Some((ret, rest))
    ensures ParseFnSignature(s) == Some((FnSignatureType(params.elements, ret), rest))
  {
  }

  lemma TypeOfFn(s: string, sig: FnSignatureType, rest: string)
    requires ParseFnSignature(s) == Some((sig, rest))
    ensures ParseType(s) == Some((Fn(sig), rest))
  {
  }

  lemma TypeOfTuple(s: string, tt: TupleType, rest: string)
    requires ParseFnSignature(s).None? && ParseTuple(s) == Some((tt, rest))
    ensures ParseType(s) == Some((Tuple(tt), rest))
  {
  }

  lemma TypeOfName(s: string, id: Ident, rest: string)
    requires ParseFnSignature(s).None? && ParseTuple(s).None? && ParseIdent(s) == Some((id, rest))
    ensures ParseType(s) == Some((Named(id), rest))
  {
  }

  lemma TypeNone(s: string)
    requires ParseFnSignature(s).None? && ParseTuple(s).None? && ParseIdent(s).None?
    ensures ParseType(s).None?
  {
  }

  /** Input that does not start with `-` has no arrow. */
  lemma NoArrow(rest: string)
    requires StartsSolid(rest) && (|rest| == 0 || rest[0] != '-')
    ensures ParseAtom(Current, ReturnTypeOp, rest).None?
  {
    SkipWhitespaceOfSolid(rest);
    AtomMismatch(Current, ReturnTypeOp, rest);
  }

  lemma ReturnMissing(s: string)
    requires ParseAtom(Current, ReturnTypeOp, s).None?
    ensures ReturnType(s).None?
  {
  }

  lemma FnDefaultStep(s: string, afterFn: string, params: TupleType, afterParams: string)
    requires ParseKeyword(FnKeyword, s) == Some(afterFn)
    requires ParseTuple(afterFn) == Some((params, afterParams))
    requires ReturnType(afterParams).None?
    ensures ParseFnSignature(s) == Some((FnSignatureType(params.elements, DefaultType()), afterParams))
  {
  }

  lemma TupleFails(s: string, afterOpen: string)
    requires ParseAtom(Current, LParen, s) == Some(afterOpen)
    requires ParseAtom(Current, RParen, TypeList(afterOpen).1).None?
    ensures ParseTuple(s).None?
  {
  }

  lemma FnKeywordFails(s: string, afterFn: string)
    requires ParseKeyword(FnKeyword, s) == Some(afterFn) && ParseTuple(afterFn).None?
    ensures ParseFnSignature(s).None?
  {
  }

  /**
    Without an arrow after the parameters, the optional return type
    backtracks: the signature's return type is the unit tuple and nothing
    after the parameter list is consumed.
   */
  lemma FnDefaultsToUnit(params: seq<TypeLiteral>, trailing: bool, rest: string)
    requires ValidTypes(params) && TypeBoundary(rest) && (|rest| == 0 || rest[0] != '-')
    ensures ParseFnSignature("fn" + ShowParens(params, trailing) + rest) == Some((FnSignatureType(params, DefaultType()), rest))
    ensures ParseType("fn" + ShowParens(params, trailing) + rest) == Some((Fn(FnSignatureType(params, DefaultType())), rest))
  {
    Assoc("fn", ShowParens(params, trailing), rest);
    assert ParseTuple(ShowParens(params, trailing) + rest) == Some((TupleType(params), rest)) by {
      ParensRoundTrip(params, trailing, "", rest);
      ConcatEmpty(ShowParens(params, trailing), rest);
    }
    FnWithoutArrow(params, trailing, rest);
  }

  lemma FnWithoutArrow(params: seq<TypeLiteral>, trailing: bool, rest: string)
    requires StartsSolid(rest) && (|rest| == 0 || rest[0] != '-')
    requires ParseTuple(ShowParens(params, trailing) + rest) == Some((TupleType(params), rest))
    ensures ParseFnSignature("fn" + (ShowParens(params, trailing) + rest)) == Some((FnSignatureType(params, DefaultType()), rest))
    ensures ParseType("fn" + (ShowParens(params, trailing) + rest)) == Some((Fn(FnSignatureType(params, DefaultType())), rest))
  {
    var afterFn := ShowParens(params, trailing) + rest;
    var s := "fn" + afterFn;
    KeywordBeforeParens(params, trailing, rest);
    NoArrow(rest);
    ReturnMissing(rest);
    FnDefaultStep(s, afterFn, TupleType(params), rest);
    TypeOfFn(s, FnSignatureType(params, DefaultType()), rest);
  }

  /** A comma with no type before it is not a tuple: `(,)` and anything else starting `(` then `,` is rejected. */
  lemma LoneCommaRejected(ws: string, rest: string)
    requires AllWhitespace(ws)
    ensures ParseTuple("(" + ws + "," + rest).None?
    ensures ParseType("(" + ws + "," + rest).None?
  {
    var q := "," + rest;
    var s := Spelling(LParen) + ws + q;
    assert Spelling(LParen) == "(";
    Assoc("(" + ws, ",", rest);
    FrontChar(",", rest);
    AtomThenWhitespace(Current, LParen, ws, q);
    NothingBeforeComma(q);
    TupleFails(s, q);
    FrontChar("(", ws);
    FrontChar("(" + ws, q);
    NotAtParen(s);
  }

  lemma FrontChar(a: string, b: string)
    requires |a| > 0
    ensures |a + b| > 0 && (a + b)[0] == a[0]
  {
  }

  /** At a comma the list of types is empty and no `)` closes a tuple. */
  lemma NothingBeforeComma(q: string)
    requires |q| > 0 && q[0] == ','
    ensures TypeList(q) == ([], q)
    ensures ParseAtom(Current, RParen, q).None?
  {
    TypeFailsOnPunctuation(q);
    ListEmpty(q);
    SkipWhitespaceOfSolid(q);
    AtomMismatch(Current, RParen, q);
  }

  /** Text at `(` is a tuple or nothing: it is neither a name nor a signature. */
  lemma NotAtParen(s: string)
    requires |s| > 0 && s[0] == '(' && ParseTuple(s).None?
    ensures ParseType(s).None?
  {
    assert ParseIdent(s).None?;
    assert ParseKeyword(FnKeyword, s).None?;
    TypeNone(s);
  }

  /**
    `fn` is an identifier too: when no parameter list follows it, the
    signature alternative fails and `fn` is read as a named type. This is
    why the round trip excludes the name `fn`, which would be taken for a
    signature if a parenthesis came next.
   */
  lemma FnAloneIsNamed(rest: string)
    requires TypeBoundary(rest) && (|rest| == 0 || rest[0] != '(')
    ensures ParseType("fn" + rest) == Some((Named(Ident("fn")), rest))
  {
    var s := "fn" + rest;
    FnAloneNoSignature(rest);
    FnAloneNoTuple(rest);
    IdentRoundTrip("fn", rest);
    TypeOfName(s, Ident("fn"), rest);
  }

  lemma FnAloneNoSignature(rest: string)
    requires TypeBoundary(rest) && (|rest| == 0 || rest[0] != '(')
    ensures ParseFnSignature("fn" + rest).None?
  {
    FnKeywordAlone(rest);
    FnKeywordFails("fn" + rest, rest);
  }

  lemma FnKeywordAlone(rest: string)
    requires TypeBoundary(rest) && (|rest| == 0 || rest[0] != '(')
    ensures ParseKeyword(FnKeyword, "fn" + rest) == Some(rest) && ParseTuple(rest).None?
  {
    FnKeywordRead(rest);
    NoTupleAt(rest);
  }

  lemma FnKeywordRead(rest: string)
    requires IdentBoundary(rest)
    ensures ParseKeyword(FnKeyword, "fn" + rest) == Some(rest)
  {
    KeywordAtomRoundTrip(FnKeyword, rest);
  }

  lemma FnAloneNoTuple(rest: string)
    ensures ParseTuple("fn" + rest).None?
  {
    FrontChar("fn", rest);
    NoTupleAt("fn" + rest);
  }

  /** No tuple starts at solid text other than `(`. */
  lemma NoTupleAt(s: string)
    requires StartsSolid(s) && (|s| == 0 || s[0] != '(')
    ensures ParseTuple(s).None?
  {
    NoOpenAt(s);
    TupleNeedsOpen(s);
  }

  lemma NoOpenAt(s: string)
    requires StartsSolid(s) && (|s| == 0 || s[0] != '(')
    ensures ParseAtom(Current, LParen, s).None?
  {
    SkipWhitespaceOfSolid(s);
    assert Spelling(LParen) == "(";
    AtomMismatch(Current, LParen, s);
  }

  lemma TupleNeedsOpen(s: string)
    requires ParseAtom(Current, LParen, s).None?
    ensures ParseTuple(s).None?
  {
  }
}
